=== FILE: README.md ===
# RHSRobot2015 in Dafny

A model of the control core of the RHSRobot2015 robot program: the supervisor
loop every component task runs, the message pipes between tasks, the
request/response convention the autonomous script uses, the script interpreter
(loading, tokenizing, keyword lookup, the pause gate and the per-keyword
dispatch), the component tasks' `OnStateChange`/`Run` hooks (drivetrain,
conveyor, cube, clicker, tote lifter, can arm, can lifter, pallet jack
clicker), the main robot class that turns the driver's controls into messages,
and the joystick edge detector.

Every task is a value of `ComponentBase.Actor<S>`: its pipe (the messages written
to it and not yet read), the message being processed, the last command, the loop
counter and the component's own state `S`. One pass of `DoWork` is
`ComponentBase.Iterate`, parameterised by the component's two hooks. A receive
that times out is an empty pipe. Things a pass reads from the outside world are
parameters of the pass:

- sensor readings;
- the clock, as `now: real` (a timer is the time it was last reset);
- the driver's controls;
- the robot mode;
- the answer to a synchronous request.

Motor outputs are the last value written to each motor. Single-precision
arithmetic is modelled as real arithmetic.

Modules, by source file:

| module | source |
|---|---|
| `Messages`, `Wrappers` | RobotMessage.h, and the command tags the .cpp files use |
| `ComponentBase` | ComponentBase.cpp |
| `Autonomous` | Autonomous.cpp (request/response helpers and motion routines) |
| `AutoMotionFuncs` | AutoMotionFuncs.cpp (the other revision of the motion routines) |
| `Tokenizer` | the `strtok_r` splitting in AutoParser.cpp / AutoParser.h |
| `AutoParser` | AutoParser.cpp (`Evaluate`) |
| `AutonomousBase` | AutonomousBase.cpp (hooks, `LoadScriptFile`, `DoScript`) |
| `Cube` | Cube.cpp |
| `Clicker` | Clicker.cpp |
| `ToteLifter` | ToteLifter.cpp |
| `CanArm` | CanArm.cpp |
| `Conveyor` | Conveyor.cpp |
| `SetpointMotor`, `CanLifter`, `JackClicker` | CanLifter.cpp, JackClicker.cpp |
| `Drivetrain` | Drivetrain.cpp |
| `RhsRobot` | RhsRobot.cpp |
| `JoystickListener` | JoystickListener.cpp |
| `Integration` | what RhsRobot.cpp's messages make the components do |

Notes on what the code does:

- Keyword lookup is by prefix, in table order, not by exact match.
- A synchronous request waits for its answer with no timeout.
- A statement missing an argument hands a NULL token to `atof`/`atoi`. This is
  modelled as an `Undefined` verdict, not as a recoverable error for that line.
- An unknown keyword skips the line.
- Several components do not stop on every mode change.
  - The tote lifter and the can arm stop only on the teleoperated mode (or a
    non-mode tag).
  - The cube starts its intake in the running modes.
- Only the cube task has a safety timer.

## Model

| member | source | states |
|---|---|---|
| ComponentBase.Next | ComponentBase.cpp:59-85 | The message a pass handles is the oldest queued one. With none queued it is a timeout that keeps the previous message's reply pipe and parameters. |
| ComponentBase.ReceiveMessage | ComponentBase.cpp:59-85 | With a message queued, the oldest one becomes the current message and leaves the pipe. With none, the current message is kept and only its command becomes the timeout; its reply pipe and parameters are stale. |
| ComponentBase.SendMessage | ComponentBase.cpp:45-57 | A send appends a copy of the message at the back of the pipe and changes nothing else. |
| ComponentBase.ClearMessages | ComponentBase.cpp:87-105 | The pipe is drained and the current message becomes an innocuous timeout. Its reply pipe and parameters, the last command, the component state and the loop counter are untouched. Nothing in the program calls it. |
| ComponentBase.SendCommandResponse | ComponentBase.cpp:131-141 | A reply carrying the given command goes to exactly the reply pipe named by the message being processed; there is a reply exactly when that pipe is named. Nothing in the program calls it. |
| ComponentBase.Iterate | ComponentBase.cpp:107-130 | One loop pass consumes exactly the oldest message (or a timeout), records its command as the last command and counts the pass. |
| ComponentBase.HooksPerIteration | ComponentBase.cpp:113-122 | `OnStateChange` runs exactly on the five mode tags and before `Run`, `Run` runs on every pass, and both get the received message. |
| ComponentBase.LoopCounts | ComponentBase.cpp:26-26 | The loop counter equals the number of passes made. |
| ComponentBase.ProcessesInOrder | ComponentBase.cpp:83-83 | FIFO: `n` passes hand `Run` exactly the first `n` queued messages, oldest first, and leave the rest queued in order. |
| ComponentBase.IdlePassesAreTimeouts | ComponentBase.cpp:77-80 | With nothing written, every pass is a timeout pass (the previous message relabelled), so `Run` still runs on every pass. |
| Autonomous.CommandResponse | Autonomous.cpp:30-62 | A request is written once to the target pipe with the script task's pipe as its reply pipe. It succeeds unless the answer is the explicit error reply; an answer that is neither OK nor error also counts as success. |
| Autonomous.CommandNoResponse | Autonomous.cpp:64-73 | A fire-and-forget write sends the member message unchanged, once, and always succeeds. |
| Autonomous.Begin | Autonomous.cpp:75-80 | BEGIN tells the drivetrain that a script is running, fire-and-forget, and keeps the message's parameters. |
| Autonomous.End | Autonomous.cpp:82-88 | END tells the drivetrain the script is complete, fire-and-forget. |
| Autonomous.Move | Autonomous.cpp:91-114 | MOVE needs two arguments. It is refused, with nothing sent, exactly when either speed exceeds the velocity limit in magnitude; otherwise it sends one auto-move carrying both speeds. |
| Autonomous.Stop | Autonomous.cpp:116-120 | STOP sends one drivetrain stop. |
| Autonomous.MeasuredMove | Autonomous.cpp:122-143 | MMOVE needs two arguments and makes one synchronous drive-straight request carrying the speed and the distance. |
| Autonomous.TimedMove | Autonomous.cpp:145-168 | The timed move is disabled: it sends nothing and reports failure. |
| Autonomous.Turn | Autonomous.cpp:170-187 | TURN needs two arguments and makes one synchronous turn request carrying the angle and the timeout. |
| Autonomous.SeekTote | Autonomous.cpp:189-205 | SEEKTOTE needs two arguments and makes one synchronous seek request carrying the time-in and the timeout. |
| Autonomous.Straight | Autonomous.cpp:207-224 | STRAIGHT needs two arguments and makes one synchronous drive-straight request carrying the speed and the duration. |
| Autonomous.CubeAuto | Autonomous.cpp:226-229 | CUBEAUTO starts the cube's autocycle, fire-and-forget. |
| Autonomous.RequestReplyRoundTrip | ComponentBase.cpp:131-141 | Joins the model's request, receive and reply functions. If a component reads the request and answers it, and that answer is delivered, the answer reaches the script task's pipe and the request succeeds exactly when it is not the error reply. No component in the program answers (see "## Left out"). |
| AutoMotionFuncs.Move | AutoMotionFuncs.cpp:27-49 | This revision's MOVE checks the same limit, but it sends a tank drive instead. |
| AutoMotionFuncs.Stop | AutoMotionFuncs.cpp:51-57 | This revision's STOP is a tank drive with both sides at zero. |
| AutoMotionFuncs.Turn | AutoMotionFuncs.cpp:107-128 | This revision's TURN reads the speed first, then the angle. |
| AutoMotionFuncs.MoveRevisionsAgree | AutoMotionFuncs.cpp:27-49 | The two revisions accept and refuse the same MOVE lines with the same speeds and differ only in the command. (Their MMOVE and timed-move routines are identical and are modelled once, in `Autonomous`.) |
| Tokenizer.WordLength | AutoParser.h:7-7 | A word's length is the length of the leading run of non-delimiters: it stops exactly at the first delimiter. |
| Tokenizer.Split | AutoParser.cpp:98-98 | Every token produced is a non-empty, delimiter-free word. |
| Tokenizer.SplitKeepsLetters | AutoParser.cpp:98-98 | Tokenizing loses exactly the delimiters: the words, concatenated, are the statement's other characters in order. |
| Tokenizer.SplitEmptyIffAllDelimiters | AutoParser.cpp:98-98 | The first token is missing exactly when the statement consists only of delimiters. |
| Tokenizer.SplitJoin | AutoParser.h:7-7 | Round trip: splitting words joined by spaces gives back those words. |
| AutoParser.MatchFrom | AutoParser.cpp:103-108 | The search returns the first table position, in order, whose keyword is a prefix of the token, or reports that no keyword is. |
| AutoParser.Lookup | AutoParser.cpp:103-115 | A token selects an opcode exactly when some keyword is a prefix of it. The opcode is that of the first such keyword in table order. |
| AutoParser.LookupByPrefix | AutoParser.cpp:105-105 | A word longer than a keyword still selects it (`MOVEX` is MOVE, `ENDGAME` is END). |
| AutoParser.LookupInTableOrder | AutoParser.cpp:103-108 | For every keyword in the table: the search finds its own entry exactly when no earlier keyword is a prefix of it, and then the word selects that entry's opcode. |
| AutoParser.FoundAtOwnEntry | AutoParser.cpp:103-108 | The same first-match fact for any table searched in order. |
| AutoParser.MMoveReachesItsEntry | AutoParser.cpp:22-68 | MMOVE selects its own opcode: MOVE, met first in the table, is not a prefix of it. |
| AutoParser.Ask | AutoParser.cpp:228-236 | A keyword making one synchronous request stops the script exactly when the answer is the error reply. The request carries the member message's parameters, and the member message is left as the copy written. |
| AutoParser.Fire | AutoParser.cpp:248-256 | A keyword making one fire-and-forget write never stops the script. The write carries the member message's parameters, and the member message is left as the copy written. |
| AutoParser.Continue | AutoParser.cpp:155-197 | A motion routine whose result only chooses a status text never stops the script. It is undefined exactly when an argument is missing. Otherwise the statement's writes and member message are exactly the routine's. |
| AutoParser.DriveWhile | AutoParser.cpp:258-275 | Seek and arm-open keywords start the drive, make one request and stop the drive, in that order; the request's result decides the stop flag. All three writes carry the same parameters. |
| AutoParser.AskThenStop | AutoParser.cpp:199-209 | STACKUP's conveyor stop overwrites the lifter request's result, so a failed request never stops the script. Both writes carry the same parameters. |
| AutoParser.AskConforms | AutoParser.cpp:343-357 | Any keyword whose plan is a single stop-on-error request behaves as its plan says. |
| AutoParser.FireConforms | AutoParser.cpp:360-375 | Any keyword whose plan is a single write behaves as its plan says. |
| AutoParser.DriveWhileConforms | AutoParser.cpp:289-306 | Any keyword with the drive-request-stop plan behaves as its plan says. |
| AutoParser.ContinueConforms | AutoParser.cpp:166-175 | Any two-argument motion keyword behaves as its plan says. |
| AutoParser.AskThenStopConforms | AutoParser.cpp:199-209 | The request-then-conveyor-stop keyword behaves as its plan says. |
| AutoParser.NothingConforms | AutoParser.cpp:426-434 | The keywords with no case of their own write nothing and never stop the script. |
| AutoParser.DispatchMotion | AutoParser.cpp:128-197 | MODE, BEGIN, END, DELAY, MOVE, MMOVE, TURN and STRAIGHT each write what their plan says, carrying their arguments in the fields the routine fills: MOVE's left and right speeds; MMOVE's speed and distance; TURN's angle and timeout (speed and angle in the other revision); STRAIGHT's speed and time. END stops the script. DELAY waits for its argument's value, and only when it has one. |
| AutoParser.DispatchMove | AutoParser.cpp:155-164 | MOVE is undefined without two arguments. A speed over the limit writes nothing and leaves the member message as it was. Otherwise one drive write carries the left and right speeds, with the command the revision uses. The script goes on either way. |
| AutoParser.DispatchLifter | AutoParser.cpp:199-256 | The claw and can-lifter keywords write what their plan says. STACKUP and STARTSTACKUP carry their integer argument as the tote count. CLAWTOBOTTOM sends the claw-to-top command. |
| AutoParser.DispatchLoading | AutoParser.cpp:258-341 | The tote load/seek and drive keywords write what their plan says, with the seek request deciding the stop flag. Every write carries the arguments in place: the seeks' first argument as the drive speed and second as the timeout, the loads' argument as the timeout, and the drive starts' argument as the drive speed. |
| AutoParser.DispatchConveyor | AutoParser.cpp:343-400 | The beam-wait, tote-shift and can-arm keywords write what their plan says. CANARMOPEN's three writes carry its argument as the drive speed; the others leave the parameters as they were. |
| AutoParser.DispatchLegacy | AutoParser.cpp:402-434 | SEEKTOTE stops the script when its request fails, and its request carries the time-in and the timeout. CUBEAUTO starts the autocycle. The remaining old keywords do nothing. |
| AutoParser.Dispatch | AutoParser.cpp:126-435 | Every keyword's dispatch conforms to its plan, arity and stop rule. Every write carries the parameter fields the keyword fills from its arguments, and the member message is left as the last copy written for the next statement. |
| AutoParser.Evaluate | AutoParser.cpp:72-439 | Empty and comment statements, and unknown first words, do nothing. A statement with no word is undefined. A keyword waits at the pause gate while paused, and otherwise does what its plan says, with the parameters its arguments fill. |
| AutoParser.StopsExactly | AutoParser.cpp:78-137 | A finished statement stops the script exactly when it is END, or when it is a stop-on-error keyword whose request got the error reply. |
| AutoParser.OnlyKeywordsAct | AutoParser.cpp:81-115 | A statement naming no keyword writes nothing and never waits at the pause gate. |
| AutoParser.UndefinedExactly | AutoParser.cpp:98-148 | Evaluation is undefined exactly for a word-less significant statement, or for a keyword past the gate that lacks an argument it reads. |
| AutonomousBase.Create | AutonomousBase.cpp:17-32 | The runner starts at line 0, not in auto mode, with every slot empty. |
| AutonomousBase.OnStateChange | AutonomousBase.cpp:44-62 | The autonomous mode arms the runner and clears the pause. The teleoperated mode pauses it and leaves auto mode as it was. Every other message leaves the runner alone, and no mode touches the loaded script or the cursor. |
| AutonomousBase.Run | AutonomousBase.cpp:64-77 | The task loop's `Run` changes neither the script, the cursor nor the mode flags: the script is walked by the script pass alone. |
| AutonomousBase.HooksOnRunner | AutonomousBase.cpp:44-77 | The autonomous mode arms the runner and clears the pause. The teleoperated mode pauses it. Nothing else, a timeout included, changes the flags. |
| AutonomousBase.OnlyAutonomousArms | AutonomousBase.cpp:49-53 | Passes that receive no autonomous mode change never arm the runner. |
| AutonomousBase.Padded | AutonomousBase.cpp:88-99 | Loading always yields exactly as many slots as the script can hold. |
| AutonomousBase.LoadScriptFile | AutonomousBase.cpp:79-111 | Loading succeeds exactly when the file opens. On failure the slots are untouched. On success they hold the file's lines in order, cut at the capacity, with the rest cleared. |
| AutonomousBase.PaddedKeepsLines | AutonomousBase.cpp:88-99 | The loaded slots read back as the file: whole when it fits, cut when it does not, with empty slots after it. |
| AutonomousBase.StopLine | AutonomousBase.cpp:139-160 | The pass ends on the first non-empty line the evaluator stops on, or at the capacity. |
| AutonomousBase.RunPass | AutonomousBase.cpp:135-161 | A pass starts at line 0 and stops with the cursor on the line that stopped it. Exactly the non-empty lines up to and including that line are handed to `Evaluate`, in order. |
| AutonomousBase.DoScriptTurn | AutonomousBase.cpp:117-166 | Each turn resets the cursor and reloads the file. A failed load runs nothing. A successful load runs one pass if the runner is in auto mode, then leaves auto mode. |
| AutonomousBase.NonEmptyAreNonEmpty | AutonomousBase.cpp:143-143 | Only non-empty lines are evaluated, each below the cursor, in increasing order. |
| AutonomousBase.NonEmptyListsAll | AutonomousBase.cpp:143-143 | Every non-empty line before the stop is evaluated: empty lines are the only ones skipped. |
| AutonomousBase.PassStopsOnlyWhenTold | AutonomousBase.cpp:149-152 | Every non-empty line before the one the pass ended on was evaluated and let the script continue. |
| Cube.Create | Cube.cpp:68-74 | Both machines start at the top, the autocycle is off, and there are no totes. |
| Cube.OnStateChange | Cube.cpp:105-122 | The running modes start only the intake. Every other mode stops all three motors, restarts the safety timer and switches the autocycle off. |
| Cube.Command | Cube.cpp:124-312 | Only the autocycle start moves the clicker machine. Only the autocycle start/stop and the count adjustments change the count. A command outside the switch changes nothing. |
| Cube.Safety | Cube.cpp:314-320 | Once the safety timer passes 30 s, the clicker and lifter stop and the timer restarts; nothing else changes. |
| Cube.ClickerStep | Cube.cpp:353-484 | The count changes only when a tote reaches the top (one more) or a finished stack with the can is taken away (back to zero). The step drives neither the lifter motor nor the intake, and touches neither the autocycle flag nor the tick timers. It moves the lifter machine only on a full stack or when a new stack begins. It reaches the bottom or the top only on that sensor. |
| Cube.LifterStep | Cube.cpp:488-550 | Only the lifter's motor, state and permission change. The lifter leaves a moving state only on that end's sensor, and the waiting state only with the driver's permission. It never grants the permission itself, and at either end its motor is stopped. |
| Cube.Run | Cube.cpp:124-552 | Only a start command switches the autocycle on, and only a stop or a pause switches it off. Stopping a running autocycle empties the count and stops both motors in the same pass. |
| Cube.Tick | Cube.cpp:344-347 | The machines step only with the autocycle on and a period elapsed, and a step restarts both timers. |
| Cube.ManualLockedOut | Cube.cpp:127-227 | While the autocycle runs, every manual command is ignored entirely, the safety timer included. |
| Cube.StartOnlyWhenStopped | Cube.cpp:229-244 | The autocycle start acts only when the autocycle is off: it zeroes the count, starts the clicker up, the lifter down and the intake. |
| Cube.ResumeAfterPauseDoesNothing | Cube.cpp:260-284 | A pause turns the autocycle off and saves the outputs; a later resume finds it off and does nothing. |
| Cube.CountAdjustmentsBounded | Cube.cpp:290-304 | Each count adjustment moves the count by at most one and keeps it within 0..5. |
| Cube.IdleMachinesStay | Cube.cpp:344-345 | With the autocycle off and no start command, no pass moves either machine. |
| Cube.TickRestartsSafety | Cube.cpp:344-347 | A tick restarts the safety timer, so the safety timeout does not fire right after it. |
| Cube.ToteAtTop | Cube.cpp:355-383 | A tote breaking the beam at the top is counted and lowered. The fifth makes the lifter wait for the driver's permission. |
| Cube.WaitNeedsPermission | Cube.cpp:514-520 | The lifter leaves its wait only with permission, and the permission is used up. |
| Cube.CreateEstablishes | Cube.cpp:68-74 | The count invariant (0..6 totes, at most 5 while rising, at the top or between stacks) holds at construction. |
| Cube.CommandKeeps | Cube.cpp:124-312 | Every command keeps the count invariant. |
| Cube.ClickerStepKeeps | Cube.cpp:353-484 | Every clicker step keeps the count invariant. |
| Cube.SafetyKeeps | Cube.cpp:314-320 | The safety timeout keeps the count invariant. |
| Cube.TickKeeps | Cube.cpp:344-484 | Every tick keeps the count invariant. |
| Cube.RunKeeps | Cube.cpp:124-484 | Every `Run` keeps the count invariant. |
| Cube.IterateKeeps | Cube.cpp:105-484 | Every pass of the task loop keeps the count invariant, whatever arrives and whatever the sensors read. |
| Clicker.Create | Clicker.cpp:33-74 | The clicker starts at the top and the lifter at the bottom, with the autocycle and auto-intake off. The count starts at 1. |
| Clicker.OnStateChange | Clicker.cpp:85-123 | Every mode stops the clicker and the intake and switches the autocycle off; nothing else changes. |
| Clicker.Command | Clicker.cpp:136-178 | No command changes the autocycle, the count or the machine states. The intake run acts even during the autocycle. |
| Clicker.Top | Clicker.cpp:311-314 | The clicker rests and the intake runs; nothing else changes. |
| Clicker.Bottom | Clicker.cpp:315-318 | The clicker and the intake both stop; nothing else changes. |
| Clicker.Raise | Clicker.cpp:323-326 | The clicker goes up with the intake running; nothing else changes. |
| Clicker.Lower | Clicker.cpp:327-330 | The clicker goes down with the intake stopped; nothing else changes. |
| Clicker.AtBottom | Clicker.cpp:244-259 | Only a count already at the maximum holds at the bottom. Any other count, the one just short of the maximum included, is counted up and raised. That one-short count still starts the lifter up. |
| Clicker.ClickerStep | Clicker.cpp:217-288 | The step never drives the lifter motor or changes the modes. The count grows by one only at the bottom, or empties when the stack is taken. An end of the travel is reached only on its sensor, and lowering starts only when a tote breaks the beam. |
| Clicker.LifterStep | Clicker.cpp:290-305 | Only the lifter's motor and state change, and it leaves a moving state only on that end's sensor. At rest the motor is stopped; in either moving state it gets the raise output. |
| Clicker.Run | Clicker.cpp:135-307 | No command switches the autocycle. With it off, the machines and the count stay where they are, and the intake-run command runs the intake. |
| Clicker.BottomHold | Clicker.cpp:319-322 | The clicker drops gently while its bottom sensor is set and is released otherwise. |
| Clicker.Reset | Clicker.cpp:331-340 | The count empties, and each machine heads back to its rest state unless it is already there. |
| Clicker.AutoCycleStaysOff | Clicker.cpp:35-35 | No pass turns the autocycle on, so the machines and the count never move. |
| Clicker.ManualLockedOut | Clicker.cpp:138-175 | The manual motor commands are ignored while the autocycle is on. |
| Clicker.BottomFallThrough | Clicker.cpp:244-259 | At the bottom, a full cube holds. A count one short of full is counted up to full and raised, with the lifter told to raise. Any other count is counted up and raised. |
| Clicker.LifterTransitions | Clicker.cpp:290-305 | The lifter moves on only on its sensor, and both moving states drive the raise output. |
| ToteLifter.Create | ToteLifter.cpp:8-24 | Neither direction is running and both timers start at construction. |
| ToteLifter.OnStateChange | ToteLifter.cpp:39-67 | Only the teleoperated mode (or a non-mode tag) stops the motor and both movements; the other modes leave everything as it is. |
| ToteLifter.Command | ToteLifter.cpp:71-92 | Each movement command starts its own movement, cancels the other, sets the motor and restarts only its own timer. Anything else changes nothing, and a command never leaves both movements running. |
| ToteLifter.Expire | ToteLifter.cpp:94-104 | A movement keeps running exactly while its timer is within its time. The motor stops when a movement ends and is otherwise left alone. The checks never reset a timer. |
| ToteLifter.Run | ToteLifter.cpp:69-105 | A pass never leaves both movements running and never puts a timer ahead of the clock. The motor changes only on a movement command or to stop. |
| ToteLifter.ExtendRunsForItsTime | ToteLifter.cpp:73-78 | An extend command drives the motor out, marks the extension, cancels a retraction and restarts the extend timer. |
| ToteLifter.ExtendStopsOnTime | ToteLifter.cpp:94-98 | An extension stops exactly when more than one second has passed since its command. |
| ToteLifter.RetractCancelledAtOnce | ToteLifter.cpp:80-104 | The retract time is negative, so a retract command is cancelled in the same pass and the motor ends stopped. |
| ToteLifter.NeverLeftRetracting | ToteLifter.cpp:100-104 | On a clock that does not run backwards, no pass leaves the lifter retracting. |
| ToteLifter.IterateKeepsOneWay | ToteLifter.cpp:69-105 | No pass leaves the lifter extending and retracting at once. |
| CanArm.OnStateChange | CanArm.cpp:29-53 | Only the teleoperated mode (or a non-mode tag) stops the arm. |
| CanArm.Run | CanArm.cpp:55-80 | The arm opens exactly on an open command and closes exactly on a close command. Anything else stops it, whatever it was doing. |
| CanArm.MovesOnlyWhenCommanded | CanArm.cpp:55-80 | After any pass the arm moves exactly when that pass's message was open or close, in that direction. |
| CanArm.TimeoutStops | CanArm.cpp:71-73 | A pass with no message stops the arm. |
| Conveyor.Create | Conveyor.cpp:17-24 | The belt starts honouring its limit switches. |
| Conveyor.OnStateChange | Conveyor.cpp:48-86 | Every mode stops all three motors. |
| Conveyor.Apply | Conveyor.cpp:89-191 | Forward belt motion ignores the limit switches and backward motion honours them, running the belt in opposite directions. The belt stop honours them and stops the belt. Only those five belt commands change the limit mode. The paired intake commands turn the two sides in opposite directions, and the paired stops stop both. |
| Conveyor.Run | Conveyor.cpp:88-192 | A timeout or a mode change reaching the switch leaves every motor running. The limit switches are ignored only while the belt runs forward, or if they already were. |
| Conveyor.SidesIndependent | Conveyor.cpp:104-126 | A single-intake command touches its own intake only, and "in" turns the two intakes in opposite directions. |
| Conveyor.BothIsLeftThenRight | Conveyor.cpp:128-141 | Each both-intake command is the left command followed by the right one. |
| Conveyor.RunAllReverses | Conveyor.cpp:143-155 | Running everything backward reverses every motor of running everything forward and restores the limit switches. Forward turns the intakes out. |
| Conveyor.LimitMode | Conveyor.cpp:91-155 | The limit switches are ignored exactly after a forward belt command, or when they already were and the command did not set them. |
| Conveyor.StopsAndIgnores | Conveyor.cpp:157-191 | RUNALL_STOP zeroes the three motors and leaves the limit mode. A timeout or an unlisted command changes nothing. |
| Conveyor.PassesThatStop | Conveyor.cpp:48-86 | A pass on a mode change stops everything; a pass with no message changes nothing. |
| SetpointMotor.OnStateChange | CanLifter.cpp:41-69 | Every mode stops the motor. |
| SetpointMotor.Run | CanLifter.cpp:71-89 | A command of the task's table sets its output; anything else leaves the motor. |
| SetpointMotor.IterateSteps | ComponentBase.cpp:113-122 | One pass applies the received message's mode reset and then its setpoint. |
| SetpointMotor.LastSetFromFront | CanLifter.cpp:71-89 | The "latest setpoint wins" reading of a message sequence agrees with applying the messages one by one. |
| SetpointMotor.HoldsLastSetpoint | JackClicker.cpp:68-86 | After `n` passes, the output is the one the latest setpoint command asked for, unless a mode change came after it. |
| SetpointMotor.IdleHolds | CanLifter.cpp:91-91 | With no messages, the motor keeps whatever output it had, indefinitely. |
| CanLifter.Table | CanLifter.cpp:73-88 | Exactly RAISE, LOWER and STOP set an output. |
| CanLifter.Outputs | CanLifter.cpp:41-89 | Raise is full up, lower full down. Stop and every mode stop it. Anything else leaves it. |
| CanLifter.KeepsRunningWithoutMessages | CanLifter.cpp:91-91 | Once raised, the lifter keeps driving with no message arriving: there is no timeout. |
| JackClicker.Table | JackClicker.cpp:70-85 | Exactly RAISE, LOWER and STOP set an output. |
| JackClicker.Outputs | JackClicker.cpp:38-86 | Raise is one tenth of full output up, lower is full down. Stop and every mode stop it. Anything else leaves it. |
| JackClicker.FollowsLatestCommand | JackClicker.cpp:68-86 | The output follows the latest of its commands unless a later mode change stopped it. |
| Drivetrain.OnStateChange | Drivetrain.cpp:59-94 | Every mode stops both sides. Autonomous also latches the current heading and zeroes the distance. |
| Drivetrain.DriveStraight | Drivetrain.cpp:133-149 | At or past the target both sides stop. Short of it the sides differ by twice the base output and their sum steers in proportion to the heading error. The outputs are kept as the previous motor values; the held heading and the encoder's zero stay. |
| Drivetrain.Run | Drivetrain.cpp:96-131 | A message other than tank, arcade or drive-straight leaves the drivetrain alone. In arcade drive the sides' difference is the throttle and their sum the turn. No command moves the held heading or the encoder's zero. |
| Drivetrain.DeadZoned | Drivetrain.cpp:156-157 | Readings strictly inside the dead zone become zero; others pass through. |
| Drivetrain.LimitMotor | Drivetrain.cpp:150-169 | The output changes by at most the gain limit per message and lies between the previous and the target value. Within reach it is exactly the target. |
| Drivetrain.LimitMotorConverges | Drivetrain.cpp:150-169 | Holding the stick, the limited output reaches the dead-zoned target after enough messages to cover the gap. |
| Drivetrain.TankDrive | Drivetrain.cpp:98-103 | Tank drive cubes each stick and reverses the right side. The cube keeps the sign, and on either side never grows within full scale. |
| Drivetrain.CubeSign | Drivetrain.cpp:101-101 | A cube is positive exactly when its argument is. |
| Drivetrain.CubeShrinks | Drivetrain.cpp:101-101 | Within full scale, a cube never exceeds its argument in magnitude. |
| Drivetrain.ArcadeMix | Drivetrain.cpp:104-109 | The arcade outputs sum to the turn stick and differ by the forward stick. |
| Drivetrain.DriveStraightHoldsHeading | Drivetrain.cpp:133-149 | Driving straight stops exactly at the target distance. Short of it, the sides differ by twice the base output and steer linearly against the heading error. |
| Drivetrain.StraightIgnoresRequestedDistance | Drivetrain.cpp:114-118 | The distance a drive-straight message carries makes no difference. |
| Drivetrain.AutonomousStartsStraight | Drivetrain.cpp:62-67 | Entering autonomous and then driving straight starts from zero distance, holding the entry heading. |
| RhsRobot.Create | RhsRobot.cpp:17-64 | Both latches start clear. Every component but the autonomous task is constructed. |
| RhsRobot.ExistingMembers | RhsRobot.cpp:76-94 | The broadcast list holds exactly the queues whose component exists. |
| RhsRobot.ExistingDistinct | RhsRobot.cpp:76-94 | No queue appears twice in the broadcast list. |
| RhsRobot.OnStateChange | RhsRobot.cpp:66-95 | A mode change sends the current message to each existing component in the order listed. |
| RhsRobot.BroadcastReachesEach | RhsRobot.cpp:76-94 | A mode change reaches a queue exactly when its component exists, and each at most once. |
| RhsRobot.AutonomousTaskInCharge | RhsRobot.cpp:107-112 | With the autonomous task present, in autonomous mode the class sends nothing and does not count the pass. |
| RhsRobot.ToggleAsWritten | RhsRobot.cpp:164-175 | As written, the latch is set only by a press with the latch clear, which toggles the intake; every other pass clears the latch, a held button included. |
| RhsRobot.CanLifterCommandAsWritten | RhsRobot.cpp:193-200 | As written, the can lifter is never told to lower: either control sends raise, and neither sends nothing. |
| RhsRobot.CanLifterCommand | RhsRobot.cpp:193-200 | Corrected: raise wins, lower alone lowers, neither sends nothing. |
| RhsRobot.Run | RhsRobot.cpp:97-204 | One driver-station pass as written. With the autonomous task in charge nothing happens. Otherwise the pass is counted and the latch moves by the as-written toggle. |
| RhsRobot.RunCorrected | RhsRobot.cpp:97-204 | The same pass with the corrected toggle (RhsRobot.h:44-53) and can lifter block; the latch moves by the corrected toggle. |
| RhsRobot.AddressesOnlyExisting | RhsRobot.cpp:114-202 | Every message of a pass, as written or corrected, goes to a component that exists. |
| RhsRobot.TeleopShape | RhsRobot.cpp:114-204 | Outside autonomous mode with every component present, a pass is exactly five sends: drive, conveyor, clicker motion, intake, can lifter, each a copy of the message as the blocks so far left it. |
| RhsRobot.TeleopPass | RhsRobot.cpp:114-204 | As written, a teleoperated pass sends drive, conveyor, clicker motion, intake and can lifter messages, in that order, and counts the pass. The intake message follows the as-written latch. The can lifter gets raise exactly when either control is held, and nothing when neither is. |
| RhsRobot.CorrectedPassDiffers | RhsRobot.cpp:164-200 | The corrected pass sends the same drive, conveyor and clicker-motion messages; it differs only in the latch, the intake message and the can lifter command. |
| RhsRobot.ParamsCarryOver | RhsRobot.cpp:123-201 | Later copies of the message keep the fields earlier blocks wrote, so every component receives the tank stick values. |
| RhsRobot.AutonomousWithoutTask | RhsRobot.cpp:114-121 | Without the autonomous script task, autonomous mode initialises the straight drive on the changing pass and asks for 600 inches afterwards. |
| RhsRobot.ButtonPrecedence | RhsRobot.cpp:133-200 | The first button of each pair wins; no button sends stop (conveyor, clicker) or ignore (can lifter). As written, both can lifter controls send raise. |
| RhsRobot.Toggle | RhsRobot.h:44-53 | A press toggles the intake once; the latch follows the button. |
| RhsRobot.HeldButtonAlternates | RhsRobot.cpp:164-175 | As written, a button held for `n` passes from rest sets the latch on odd passes only and toggles the intake (n + 1) / 2 times. |
| RhsRobot.HeldButtonRetoggles | RhsRobot.cpp:164-175 | As written, three passes of a held button turn the intake on and off again. |
| RhsRobot.HeldButtonTogglesOnce | RhsRobot.h:44-53 | With the latch clearing on release, a held button toggles the intake exactly once. |
| RhsRobot.HeldStays | RhsRobot.h:44-53 | While the button stays down after a toggle, the latch and the intake do not change. |
| RhsRobot.LowerControlRaises | RhsRobot.cpp:193-200 | As written, holding only the lower control makes the pass's can lifter send a raise command; in the corrected pass it is lower. |
| Integration.ReleaseLeavesIntakesRunning | RhsRobot.cpp:133-144 | Releasing the conveyor buttons after running all forward stops the belt but leaves both intakes running. |
| Integration.AutonomousDistanceIgnored | RhsRobot.cpp:119-120 | The 600 inches the robot asks for make no difference; the drivetrain stops at its own fixed target. |
| Integration.LowerControlDrivesUp | RhsRobot.cpp:196-197 | As written, the can lifter that receives the pass's message while only the lower control is held drives full up. |
| Integration.LowerControlLowers | RhsRobot.cpp:196-197 | With the corrected pass, the can lifter that receives its message while only the lower control is held drives full down. |
| JoystickListener.ResetVectors | JoystickListener.cpp:21-39 | A count change takes the new count and appends fresh readings; the vectors are never cleared. Validity is kept. |
| JoystickListener.Create | JoystickListener.cpp:11-17 | A new listener remembers exactly the stick's current readings, with the default tolerance. |
| JoystickListener.FinalUpdate | JoystickListener.cpp:41-50 | The update remembers every button and axis below the counts as read now and leaves the rest. |
| JoystickListener.ButtonPressed | JoystickListener.cpp:52-59 | A press is reported only for a known button that is down. |
| JoystickListener.ButtonReleased | JoystickListener.cpp:61-68 | A release is reported only for a known button that is up. |
| JoystickListener.AxisMoved | JoystickListener.cpp:70-77 | Movement is reported only for a known axis. |
| JoystickListener.SetAxisTolerance | JoystickListener.cpp:78-80 | Only the tolerance changes. |
| JoystickListener.PressAndReleaseExclusive | JoystickListener.cpp:52-68 | A button is never both pressed and released, and an unknown one is neither. |
| JoystickListener.EdgesAreChanges | JoystickListener.cpp:52-68 | Pressed is exactly up-to-down, released is exactly down-to-up, and an edge is reported exactly on a change. |
| JoystickListener.NoEdgesWithoutChange | JoystickListener.cpp:41-77 | An unchanged stick reports no edge and no movement. |
| JoystickListener.UpdateThenUnchanged | JoystickListener.cpp:41-77 | After the end-of-pass update, queries against the same readings report nothing. |
| JoystickListener.ToleranceUsed | JoystickListener.cpp:70-80 | The tolerance set is the one the next movement test uses. |
| JoystickListener.FreshListenerQuiet | JoystickListener.cpp:11-17 | A new listener reports no edge on its first pass. |

## Left out

- Hardware: motor controllers, limit-switch configuration, the gyro, the encoder and the IR sensors. They appear only as outputs written and readings given.
- Telemetry: every SmartDashboard call and every `printf`. The status texts `Evaluate` builds are not modelled.
- Task creation, priorities and stack sizes, pipe creation (`mkfifo`) and opening. The asserts on a failed open are left out; a missing reply pipe sends nothing.
- Concurrency: tasks are modelled one pass at a time. Interleavings of writers, and the flags the script task shares with its loop, are fixed for a pass.
- `Autonomous.CommandResponse`: the busy-wait for the answer is not modelled. The answer is a parameter, and an answer that never comes is not represented.
- `Autonomous.RequestReplyRoundTrip`: nothing in the program answers or delivers a reply. `SendCommandResponse` is never called, `bReceivedCommandResponse` is only ever set false (Autonomous.cpp:41), and the autonomous task's `Run` ignores every message. So every synchronous request spins at Autonomous.cpp:43. The lemma only shows what would happen if a component answered.
- `AutoParser.Evaluate`: the pause gate's wait is a `Paused` verdict, not a loop. The `DELAY` routine's own waiting, whose source is not part of this model, is represented by the delay value only.
- `AutonomousBase.DoScriptTurn`: the statement evaluator is a parameter, and `Wait(1.0)`/`Wait(5.0)` are left out. The auto-mode flag is read once per pass, not before every line.
- The message union: the payload is a record of every field used, so the union's aliasing between fields is not modelled.
- Single-precision rounding: arithmetic is on reals.
- `AutoParser.Evaluate`: `atof`/`atoi` are functions given by the environment, and `MAX_VELOCITY_PARAM` and `AUTONOMOUS_SCRIPT_LINES` are parameters. Their definitions are not part of this model.
- `JoystickListener.AxisMoved`: the source calls `abs` on a float difference. Whether that resolves to the integer `abs` depends on the declarations WPILib.h brings in, and WPILib.h is not part of this model; the model uses the real absolute value.
- `JoystickListener.ResetVectors`: readings are appended after stale ones rather than replacing them, as written. Button and axis numbers are unsigned, as JoystickListener.h declares them, while the .cpp compares them as `int`.
- Cube.cpp:324-340: the periodic remote-indicator refresh only re-reads sensors for telemetry. Sensors are an input of every pass instead.
- Uninitialised state is a parameter or modelled at rest:
  - motor outputs before the first write;
  - RhsRobot's initial `robotMessage`;
  - the script task's pause flag;
  - the current message before the first receive.
- `Clicker.Create`: the motor outputs `fClickerRaise`, `fClickerLower`, `fLifterRaise`, `fLifterLower` and `fIntake` are defined neither in Clicker.h nor in RobotParams.h, the project headers Clicker.cpp includes, so they are symbolic. The same holds for the conveyor's three speeds (not in Conveyor.h or RobotParams.h) and the cube's `fClickerTopHold` (not in Cube.h or RobotParams.h).
- `RhsRobot.Run`: the button macros `CLICKER_UP`, `CLICKER_DOWN`, `CUBEINTAKE_RUN`, `CAN_LIFT_RAISE` and `CAN_LIFT_LOWER` are not defined in RobotParams.h. The buttons are boolean inputs.
- RhsRobot.h, Clicker.h, Cube.h and AutoParser.h disagree with the .cpp files on some members and enums. The model follows the .cpp files.
  - AutoParser.h's token enum stops at `AUTO_TOKEN_LAST` after 11 tokens, and the lookup loop is bounded by that member. AutoParser.cpp uses 37 `AUTO_TOKEN_` names and a table of every keyword, so the model's lookup searches that full table.
- Drivetrain.cpp:150-169: `LimitMotor` is modelled, but nothing in the drivetrain task calls it.
- Component.cpp, Claw.h, Documentation.h and RobotTypes.h: a template component, a header for a task whose source is not part of this model, documentation and type aliases.
- RhsRobotBase, which supplies the robot mode and the "mode changed" flag, is not part of this model. Both are inputs of `RhsRobot.Run`.

## Findings

| source | as written | input that shows it | evidently intended | confidence | as-written member | corrected member |
|---|---|---|---|---|---|---|
| RhsRobot.cpp:164-175 | The `else` branch clears the button latch on every pass the toggle does not fire, a held button included. The next pass then toggles again. | The intake button held for three passes from rest: the intake goes on, the latch clears, and it goes off again. | A press toggles once, and the latch clears only on release, as the class header's own toggle example (RhsRobot.h:44-53) shows. | high; not executed | RhsRobot.HeldButtonAlternates | RhsRobot.HeldButtonTogglesOnce |
| RhsRobot.cpp:196-197 | The lower control sends `COMMAND_CANLIFTER_RAISE`. | Lower held, raise not held: the can lifter is commanded up. | The lower control sends `COMMAND_CANLIFTER_LOWER`. | high; not executed | RhsRobot.LowerControlRaises | Integration.LowerControlLowers |

`RhsRobot.Run` is the pass as written, with `RhsRobot.ToggleAsWritten` and
`RhsRobot.CanLifterCommandAsWritten`. `RhsRobot.RunCorrected` is the same pass with
both corrections: `RhsRobot.Toggle` for the intake latch and `RhsRobot.CanLifterCommand`
for the can lifter block. `RhsRobot.CorrectedPassDiffers` shows the two passes differ
only there.

=== FILE: auto_motion_funcs.dfy ===
/** The other revision of the motion routines (AutoMotionFuncs.cpp): open-loop moves
    go out as tank-drive commands, `Stop` is a zero-speed tank drive, and `Turn`
    reads its speed before its angle.  Its `MeasuredMove` and `TimedMove` are
    identical to the other revision's, so they are the ones in module
    `Autonomous`, as are the request/response helpers. */
module AutoMotionFuncs {
  import opened Wrappers
  import opened Messages
  import opened Autonomous

  /** Move (left speed, right speed): refused when either speed exceeds the
      velocity limit in magnitude, otherwise a fire-and-forget tank drive. */
  function Move(env: Env, m: Message, args: seq<string>): (r: Option<Step>)
    ensures r.None? <==> |args| < 2
    ensures r.Some? ==>
              var left := env.atof(args[0]);
              var right := env.atof(args[1]);
              && (r.value.ok <==> Abs(left) <= env.maxVelocity && Abs(right) <= env.maxVelocity)
              && (!r.value.ok ==> r.value.sent == [] && r.value.message == m)
              && (r.value.ok ==> Fires(m, r.value, DrivetrainQueue, DrivetrainDriveTank)
                                 && r.value.message.params == m.params.(left := left, right := right))
  {
    if |args| < 2 then None
    else
      var left := env.atof(args[0]);
      var right := env.atof(args[1]);
      if Abs(left) > env.maxVelocity || Abs(right) > env.maxVelocity then Some(Step(m, [], false))
      else Some(CommandNoResponse(m.(command := DrivetrainDriveTank, params := m.params.(left := left, right := right)),
                                  DrivetrainQueue))
  }

  /** Stop: a tank drive with both sides at rest. */
  function Stop(m: Message): (r: Step)
    ensures Fires(m, r, DrivetrainQueue, DrivetrainDriveTank)
    ensures r.message.params == m.params.(left := 0.0, right := 0.0)
  {
    CommandNoResponse(m.(command := DrivetrainDriveTank, params := m.params.(left := 0.0, right := 0.0)),
                      DrivetrainQueue)
  }

  /** Turn (speed, angle): turn in place and wait. */
  function Turn(env: Env, m: Message, args: seq<string>, reply: Command): (r: Option<Step>)
    ensures r.None? <==> |args| < 2
    ensures r.Some? ==>
              var p := m.params.(turnSpeed := env.atof(args[0]), turnAngle := env.atof(args[1]));
              Asks(m.(params := p), r.value, DrivetrainQueue, DrivetrainTurn, reply)
  {
    if |args| < 2 then None
    else
      var p := m.params.(turnSpeed := env.atof(args[0]), turnAngle := env.atof(args[1]));
      Some(CommandResponse(m.(command := DrivetrainTurn, params := p), DrivetrainQueue, reply))
  }

  /** The two revisions differ on open-loop moves only in the command used: the
      same line, accepted by one, is accepted by the other, and both write to the
      drivetrain the same speeds. */
  lemma MoveRevisionsAgree(env: Env, m: Message, args: seq<string>)
    ensures Move(env, m, args).None? <==> Autonomous.Move(env, m, args).None?
    ensures Move(env, m, args).Some? ==>
              var a := Move(env, m, args).value;
              var b := Autonomous.Move(env, m, args).value;
              && (a.ok <==> b.ok)
              && a.message.params == b.message.params
              && (a.ok ==> a.message.(command := DrivetrainAutoMove) == b.message)
  {
  }
}

=== FILE: auto_parser.dfy ===
/** The script statement interpreter (AutoParser.cpp): skip rules, the keyword
    table with its first-prefix lookup, the pause gate, and the per-keyword
    dispatch with the "stop the script" result it returns. */
module AutoParser {
  import opened Wrappers
  import M = Messages
  import opened Tokenizer
  import A = Autonomous
  import B = AutoMotionFuncs

  /** A statement whose very first character is this is skipped (AutoParser.h). */
  const Comment: char := '#'

  /** The interpreter's opcodes, named after the `case` labels that handle them. */
  datatype Opcode =
    | Mode | Begin | End | Delay | Move | MMove | Turn | Straight
    | ClawOpen | ClawClose | ClawToTop | ClawToBottom | RaiseCanLoMid | LowerCanHiMid
    | RaiseTotes | LowerTotes | StartRaiseTotes
    | FrontLoadTote | BackLoadTote | FrontSeekTote | BackSeekTote
    | StartDriveFwd | StartDriveBck | StopDrive
    | WaitFrontBeam | WaitBackBeam | DepositTotesBck | ShiftTotesFwd | ShiftTotesBck | PushTotesBck
    | CanArmOpen | CanArmClose
    | SeekTote | StartToteUp | ToteExtend | ToteRetract | CubeAuto | ClickerUp | ClickerDown | Nop

  /** The keyword table, in the order it is searched. */
  const Keywords: seq<string> := [
    "MODE", "BEGIN", "END", "DELAY", "MOVE", "MMOVE", "TURN", "STRAIGHT",
    "CLAWOPEN", "CLAWCLOSE", "CLAWTOTOP", "CLAWTOBOTTOM", "RAISECANTOLOMID", "LOWERCANTOHIMID",
    "STACKUP", "STACKDOWN", "STARTSTACKUP",
    "FRONTLOADTOTE", "BACKLOADTOTE", "FRONTSEEKTOTE", "BACKSEEKTOTE",
    "STARTDRIVEFWD", "STARTDRIVEBCK", "STOPDRIVE",
    "WAITFRONTBEAM", "WAITBACKBEAM", "DEPOSITTOTESBACK", "TOTESHIFTFWD", "TOTESHIFTBCK", "TOTEPUSHBCK",
    "CANARMOPEN", "CANARMCLOSE",
    "SEEKTOTE", "STARTTOTEUP", "TOTEEXTEND", "TOTERETRACT", "CUBEAUTO", "CLICKERUP", "CLICKERDOWN", "NOP"]

  /** The opcode each keyword selects, position by position.  The keywords whose
      case label is spelled differently: STACKUP, STACKDOWN and STARTSTACKUP are the
      tote raise/lower cases, DEPOSITTOTESBACK and TOTESHIFT/TOTEPUSH the conveyor cases. */
  const Opcodes: seq<Opcode> := [
    Mode, Begin, End, Delay, Move, MMove, Turn, Straight,
    ClawOpen, ClawClose, ClawToTop, ClawToBottom, RaiseCanLoMid, LowerCanHiMid,
    RaiseTotes, LowerTotes, StartRaiseTotes,
    FrontLoadTote, BackLoadTote, FrontSeekTote, BackSeekTote,
    StartDriveFwd, StartDriveBck, StopDrive,
    WaitFrontBeam, WaitBackBeam, DepositTotesBck, ShiftTotesFwd, ShiftTotesBck, PushTotesBck,
    CanArmOpen, CanArmClose,
    SeekTote, StartToteUp, ToteExtend, ToteRetract, CubeAuto, ClickerUp, ClickerDown, Nop]

  /** The first position at or after `i` of `table` holding a prefix of `tok`
      (`strncmp` over the keyword's length). */
  function MatchFrom(table: seq<string>, tok: string, i: nat): (r: Option<nat>)
    requires i <= |table|
    ensures r.Some? ==> i <= r.value < |table| && table[r.value] <= tok
    ensures r.Some? ==> forall j :: i <= j < r.value ==> !(table[j] <= tok)
    ensures r.None? ==> forall j :: i <= j < |table| ==> !(table[j] <= tok)
    decreases |table| - i
  {
    if i == |table| then None
    else if table[i] <= tok then Some(i)
    else MatchFrom(table, tok, i + 1)
  }

  /** Keyword lookup for the first word of a statement: the opcode of the first
      keyword, in table order, that the word starts with. */
  function Lookup(tok: string): (r: Option<Opcode>)
    ensures r.Some? <==> exists j :: 0 <= j < |Keywords| && Keywords[j] <= tok
    // the first entry in table order wins
    ensures r.Some? ==>
              exists k :: && 0 <= k < |Keywords| && Keywords[k] <= tok && r.value == Opcodes[k]
                          && forall j :: 0 <= j < k ==> !(Keywords[j] <= tok)
  {
    match MatchFrom(Keywords, tok, 0)
    case None => None
    case Some(i) =>
      assert Keywords[i] <= tok;
      Some(Opcodes[i])
  }

  /** Which routines `MOVE` and `TURN` run: the ones in Autonomous.cpp or the ones
      in AutoMotionFuncs.cpp (the two files' `MMOVE` routines are identical). */
  datatype Revision = AutonomousRevision | MotionFuncsRevision

  /** The result of evaluating one statement.  `Finished` carries the
      stop-the-script flag, the writes made in order, the member message afterwards
      and the length of any `DELAY`.  `Paused` is the call still blocked in the pause
      gate, before anything is dispatched.  `Undefined` is a statement that hands a
      NULL token to `strncmp`, `atof` or `atoi`. */
  datatype Verdict =
    | Finished(stop: bool, sent: seq<M.Send>, message: M.Message, delay: Option<real>)
    | Paused
    | Undefined

  // ---------------------------------------------------------------------------
  // What each keyword is meant to do, stated independently of the dispatch
  // ---------------------------------------------------------------------------

  /** One write a keyword makes: the pipe, the command, and whether the script
      waits for an answer. */
  datatype Order = Order(to: M.Queue, command: M.Command, awaits: bool)

  /** The writes each keyword makes, in order, when its arguments are present (a
      `MOVE` out of range makes none). */
  function Plan(rev: Revision, op: Opcode): seq<Order> {
    match op
    case Begin => [Order(M.DrivetrainQueue, M.AutonomousRun, false)]
    case End => [Order(M.DrivetrainQueue, M.AutonomousComplete, false)]
    case Move => [Order(M.DrivetrainQueue, if rev == AutonomousRevision then M.DrivetrainAutoMove else M.DrivetrainDriveTank, false)]
    case MMove => [Order(M.DrivetrainQueue, M.DrivetrainDriveStraight, true)]
    case Turn => [Order(M.DrivetrainQueue, M.DrivetrainTurn, true)]
    case Straight => [Order(M.DrivetrainQueue, M.DrivetrainDriveStraight, true)]
    case RaiseTotes => [Order(M.CanLifterQueue, M.CanLifterRaiseTotes, true), Order(M.ConveyorQueue, M.ConveyorStop, false)]
    case LowerTotes => [Order(M.CanLifterQueue, M.CanLifterLowerTotes, true)]
    case StartRaiseTotes => [Order(M.CanLifterQueue, M.CanLifterStartRaiseTotes, false)]
    case ClawToTop => [Order(M.CanLifterQueue, M.CanLifterClawToTop, true)]
    case ClawToBottom => [Order(M.CanLifterQueue, M.CanLifterClawToTop, true)]
    case RaiseCanLoMid => [Order(M.CanLifterQueue, M.CanLifterRaiseLoMid, false)]
    case LowerCanHiMid => [Order(M.CanLifterQueue, M.CanLifterLowerHiMid, false)]
    case ClawOpen => [Order(M.ClawQueue, M.ClawOpen, false)]
    case ClawClose => [Order(M.ClawQueue, M.ClawClose, false)]
    case FrontSeekTote =>
      [Order(M.DrivetrainQueue, M.DrivetrainStartDriveFwd, false), Order(M.ConveyorQueue, M.ConveyorSeekToteFront, true),
       Order(M.DrivetrainQueue, M.DrivetrainStop, false)]
    case FrontLoadTote => [Order(M.ConveyorQueue, M.ConveyorFrontLoadTote, true)]
    case BackSeekTote =>
      [Order(M.DrivetrainQueue, M.DrivetrainStartDriveBck, false), Order(M.ConveyorQueue, M.ConveyorSeekToteBack, true),
       Order(M.DrivetrainQueue, M.DrivetrainStop, false)]
    case BackLoadTote => [Order(M.ConveyorQueue, M.ConveyorBackLoadTote, true)]
    case StartDriveFwd => [Order(M.DrivetrainQueue, M.DrivetrainStartDriveFwd, false)]
    case StartDriveBck => [Order(M.DrivetrainQueue, M.DrivetrainStartDriveBck, false)]
    case StopDrive => [Order(M.DrivetrainQueue, M.DrivetrainStop, false)]
    case WaitFrontBeam => [Order(M.ConveyorQueue, M.ConveyorWaitFrontBeam, true)]
    case WaitBackBeam => [Order(M.ConveyorQueue, M.ConveyorWaitBackBeam, true)]
    case DepositTotesBck => [Order(M.ConveyorQueue, M.ConveyorDepositTotesBck, true)]
    case ShiftTotesFwd => [Order(M.ConveyorQueue, M.ConveyorShiftTotesFwd, false)]
    case ShiftTotesBck => [Order(M.ConveyorQueue, M.ConveyorShiftTotesBck, false)]
    case PushTotesBck => [Order(M.ConveyorQueue, M.ConveyorPushTotesBck, false)]
    case CanArmOpen =>
      [Order(M.DrivetrainQueue, M.DrivetrainStartDriveFwd, false), Order(M.CanArmQueue, M.CanArmOpen, true),
       Order(M.DrivetrainQueue, M.DrivetrainStop, false)]
    case CanArmClose => [Order(M.CanArmQueue, M.CanArmClose, false)]
    case SeekTote => [Order(M.DrivetrainQueue, M.DrivetrainSeekTote, true)]
    case CubeAuto => [Order(M.CubeQueue, M.CubeAutoCycleStart, false)]
    case Delay => []
    case ClickerUp => []
    case ClickerDown => []
    case Mode => []
    case StartToteUp => []
    case ToteExtend => []
    case ToteRetract => []
    case Nop => []
  }

  /** The number of arguments a keyword reads with `atof` or `atoi`. */
  function Arity(op: Opcode): nat {
    match op
    case Move => 2
    case MMove => 2
    case Turn => 2
    case Straight => 2
    case FrontSeekTote => 2
    case BackSeekTote => 2
    case SeekTote => 2
    case RaiseTotes => 1
    case StartRaiseTotes => 1
    case FrontLoadTote => 1
    case BackLoadTote => 1
    case StartDriveFwd => 1
    case StartDriveBck => 1
    case CanArmOpen => 1
    case _ => 0
  }

  /** The keywords whose statement stops the script when their request is answered
      with an error. */
  predicate StopsOnError(op: Opcode) {
    match op
    case LowerTotes | ClawToTop | ClawToBottom | FrontSeekTote | FrontLoadTote | BackSeekTote | BackLoadTote
       | WaitFrontBeam | WaitBackBeam | DepositTotesBck | CanArmOpen | SeekTote => true
    case _ => false
  }

  /** `sent` carries out `plan`, the member message's reply pipe being `replyQ`
      before the first write: the right pipes and commands in order, this task's
      pipe as the reply pipe of every request, and on each fire-and-forget write
      the reply pipe left over from before (the member message keeps it). */
  predicate Follows(sent: seq<M.Send>, plan: seq<Order>, replyQ: Option<M.Queue>)
    decreases |plan|
  {
    && |sent| == |plan|
    && (|plan| > 0 ==>
          var q := if plan[0].awaits then Some(M.AutonomousQueue) else replyQ;
          && sent[0].to == plan[0].to
          && sent[0].msg.command == plan[0].command
          && sent[0].msg.replyQ == q
          && Follows(sent[1..], plan[1..], q))
  }

  /** The parameter fields a keyword writes into the member message before its
      first write, from its arguments; every other field keeps what earlier
      statements left there. */
  function Writes(rev: Revision, env: A.Env, p: M.Params, op: Opcode, args: seq<string>): M.Params
    requires Arity(op) <= |args|
  {
    match op
    case Move => p.(left := env.atof(args[0]), right := env.atof(args[1]))
    case MMove => p.(driveSpeed := env.atof(args[0]), driveDistance := env.atof(args[1]))
    case Turn =>
      if rev == AutonomousRevision then p.(turnAngle := env.atof(args[0]), timeout := env.atof(args[1]))
      else p.(turnSpeed := env.atof(args[0]), turnAngle := env.atof(args[1]))
    case Straight => p.(driveSpeed := env.atof(args[0]), driveTime := env.atof(args[1]))
    case RaiseTotes => p.(numTotes := env.atoi(args[0]))
    case StartRaiseTotes => p.(numTotes := env.atoi(args[0]))
    case FrontSeekTote => p.(driveSpeed := env.atof(args[0]), timeout := env.atof(args[1]))
    case BackSeekTote => p.(driveSpeed := env.atof(args[0]), timeout := env.atof(args[1]))
    case FrontLoadTote => p.(timeout := env.atof(args[0]))
    case BackLoadTote => p.(timeout := env.atof(args[0]))
    case StartDriveFwd => p.(driveSpeed := env.atof(args[0]))
    case StartDriveBck => p.(driveSpeed := env.atof(args[0]))
    case CanArmOpen => p.(driveSpeed := env.atof(args[0]))
    case SeekTote => p.(timein := env.atof(args[0]), timeout := env.atof(args[1]))
    case _ => p
  }

  /** Every write in `sent` carries the parameters `params`. */
  predicate Carries(sent: seq<M.Send>, params: M.Params) {
    forall i :: 0 <= i < |sent| ==> sent[i].msg.params == params
  }

  /** The member message after the writes `sent`, starting from `m`: the copy last
      written, or `m` itself when nothing was written. */
  function LastMessage(m: M.Message, sent: seq<M.Send>): M.Message {
    if sent == [] then m else sent[|sent| - 1].msg
  }

  /** MOVE's speed check fails on these arguments. */
  predicate OutOfRange(env: A.Env, args: seq<string>)
    requires |args| >= 2
  {
    A.Abs(env.atof(args[0])) > env.maxVelocity || A.Abs(env.atof(args[1])) > env.maxVelocity
  }

  /** `v` is what dispatching `op` with `args` should give: undefined exactly when
      an argument the keyword reads is missing; otherwise the stop flag is set by END
      and by a failed request of a keyword that stops on errors, the writes follow
      the keyword's plan (none for a MOVE out of range) and all carry the fields the
      keyword writes, the member message is left as the last copy written, and only
      DELAY with an argument waits, for that argument's value. */
  predicate Conforms(rev: Revision, env: A.Env, m: M.Message, op: Opcode, args: seq<string>, reply: M.Command, v: Verdict) {
    && v != Paused
    && (v == Undefined <==> |args| < Arity(op))
    && (v.Finished? ==>
          && (v.stop <==> op == End || (StopsOnError(op) && reply == M.AutonomousResponseError))
          && (if op == Move && OutOfRange(env, args) then v.sent == [] && v.message == m
              else
                && Follows(v.sent, Plan(rev, op), m.replyQ)
                && Carries(v.sent, Writes(rev, env, m.params, op, args))
                && v.message.params == Writes(rev, env, m.params, op, args))
          && v.message == LastMessage(m, v.sent)
          && (v.delay.Some? <==> op == Delay && |args| > 0)
          && (v.delay.Some? ==> v.delay.value == env.atof(args[0])))
  }

  // ---------------------------------------------------------------------------
  // The dispatch
  // ---------------------------------------------------------------------------

  /** The keyword table's sections, as its comments group it. */
  datatype Section = MotionSection | LifterSection | LoadingSection | ConveyorSection | LegacySection

  function SectionOf(op: Opcode): Section {
    match op
    case Mode | Begin | End | Delay | Move | MMove | Turn | Straight => MotionSection
    case ClawOpen | ClawClose | ClawToTop | ClawToBottom | RaiseCanLoMid | LowerCanHiMid
       | RaiseTotes | LowerTotes | StartRaiseTotes => LifterSection
    case FrontLoadTote | BackLoadTote | FrontSeekTote | BackSeekTote | StartDriveFwd | StartDriveBck | StopDrive =>
      LoadingSection
    case WaitFrontBeam | WaitBackBeam | DepositTotesBck | ShiftTotesFwd | ShiftTotesBck | PushTotesBck
       | CanArmOpen | CanArmClose => ConveyorSection
    case SeekTote | StartToteUp | ToteExtend | ToteRetract | CubeAuto | ClickerUp | ClickerDown | Nop => LegacySection
  }

  function Done(s: A.Step, stop: bool): Verdict {
    Finished(stop, s.sent, s.message, None)
  }

  lemma FollowsOne(s: M.Send, o: Order, replyQ: Option<M.Queue>)
    requires s.to == o.to && s.msg.command == o.command
    requires s.msg.replyQ == (if o.awaits then Some(M.AutonomousQueue) else replyQ)
    ensures Follows([s], [o], replyQ)
  {
    assert [s][1..] == [] && [o][1..] == [];
  }

  /** `bReturn = !CommandResponse(q)` for one request. */
  function Ask(m: M.Message, command: M.Command, q: M.Queue, reply: M.Command): (v: Verdict)
    ensures v.Finished? && v.delay.None?
    ensures v.stop <==> reply == M.AutonomousResponseError
    ensures Follows(v.sent, [Order(q, command, true)], m.replyQ)
    ensures Carries(v.sent, m.params) && v.message == LastMessage(m, v.sent)
  {
    var s := A.CommandResponse(m.(command := command), q, reply);
    FollowsOne(s.sent[0], Order(q, command, true), m.replyQ);
    Done(s, !s.ok)
  }

  /** `bReturn = !CommandNoResponse(q)`, or the same call with its result ignored. */
  function Fire(m: M.Message, command: M.Command, q: M.Queue): (v: Verdict)
    ensures v.Finished? && v.delay.None? && !v.stop
    ensures Follows(v.sent, [Order(q, command, false)], m.replyQ)
    ensures Carries(v.sent, m.params) && v.message == LastMessage(m, v.sent)
  {
    var s := A.CommandNoResponse(m.(command := command), q);
    FollowsOne(s.sent[0], Order(q, command, false), m.replyQ);
    Done(s, !s.ok)
  }

  /** A routine whose result only chooses a status text, making one write. */
  function Continue(s: Option<A.Step>, m: M.Message, o: Order): (v: Verdict)
    requires s.Some? ==> |s.value.sent| == 1 && s.value.sent[0].to == o.to && s.value.sent[0].msg.command == o.command
    requires s.Some? ==> s.value.sent[0].msg.replyQ == (if o.awaits then Some(M.AutonomousQueue) else m.replyQ)
    ensures v == Undefined <==> s.None?
    ensures v.Finished? ==> !v.stop && v.delay.None? && Follows(v.sent, [o], m.replyQ)
    ensures s.Some? ==> v.Finished? && v.sent == s.value.sent && v.message == s.value.message
  {
    match s
    case None => Undefined
    case Some(step) =>
      FollowsOne(step.sent[0], o, m.replyQ);
      assert step.sent == [step.sent[0]];
      Done(step, false)
  }

  /** Three writes follow a drive-while plan when each follows its own order. */
  lemma FollowsThree(s1: M.Send, s2: M.Send, s3: M.Send, start: M.Command, command: M.Command, q: M.Queue,
                     replyQ: Option<M.Queue>)
    requires s1.to == M.DrivetrainQueue && s1.msg.command == start && s1.msg.replyQ == replyQ
    requires s2.to == q && s2.msg.command == command && s2.msg.replyQ == Some(M.AutonomousQueue)
    requires s3.to == M.DrivetrainQueue && s3.msg.command == M.DrivetrainStop && s3.msg.replyQ == Some(M.AutonomousQueue)
    ensures Follows([s1, s2, s3], [Order(M.DrivetrainQueue, start, false), Order(q, command, true),
                                   Order(M.DrivetrainQueue, M.DrivetrainStop, false)], replyQ)
  {
    var plan := [Order(M.DrivetrainQueue, start, false), Order(q, command, true),
                 Order(M.DrivetrainQueue, M.DrivetrainStop, false)];
    FollowsOne(s3, plan[2], Some(M.AutonomousQueue));
    assert [s1, s2, s3][1..] == [s2, s3] && [s2, s3][1..] == [s3];
    assert plan[1..] == [plan[1], plan[2]] && plan[1..][1..] == [plan[2]];
  }

  lemma CarriesThree(s1: M.Send, s2: M.Send, s3: M.Send, params: M.Params)
    requires s1.msg.params == params && s2.msg.params == params && s3.msg.params == params
    ensures Carries([s1, s2, s3], params)
  {
  }

  /** Start the drive (fire-and-forget), make one request, stop the drive; the
      script stops when the request fails. */
  function DriveWhile(m: M.Message, start: M.Command, command: M.Command, q: M.Queue, reply: M.Command): (v: Verdict)
    ensures v.Finished? && v.delay.None?
    ensures v.stop <==> reply == M.AutonomousResponseError
    ensures Follows(v.sent, [Order(M.DrivetrainQueue, start, false), Order(q, command, true),
                             Order(M.DrivetrainQueue, M.DrivetrainStop, false)], m.replyQ)
    ensures Carries(v.sent, m.params) && v.message == LastMessage(m, v.sent)
  {
    var s1 := A.CommandNoResponse(m.(command := start), M.DrivetrainQueue);
    var s2 := A.CommandResponse(s1.message.(command := command), q, reply);
    var s3 := A.CommandNoResponse(s2.message.(command := M.DrivetrainStop), M.DrivetrainQueue);
    FollowsThree(s1.sent[0], s2.sent[0], s3.sent[0], start, command, q, m.replyQ);
    var sent := [s1.sent[0], s2.sent[0], s3.sent[0]];
    CarriesThree(s1.sent[0], s2.sent[0], s3.sent[0], m.params);
    assert sent[2].msg == s3.message;
    Finished(!s2.ok, sent, s3.message, None)
  }

  /** Make one request, then stop the conveyor; the stop's result overwrites the
      request's, so the script never stops here. */
  function AskThenStop(m: M.Message, command: M.Command, q: M.Queue, reply: M.Command): (v: Verdict)
    ensures v.Finished? && v.delay.None? && !v.stop
    ensures Follows(v.sent, [Order(q, command, true), Order(M.ConveyorQueue, M.ConveyorStop, false)], m.replyQ)
    ensures Carries(v.sent, m.params) && v.message == LastMessage(m, v.sent)
  {
    var s1 := A.CommandResponse(m.(command := command), q, reply);
    var s2 := A.CommandNoResponse(s1.message.(command := M.ConveyorStop), M.ConveyorQueue);
    FollowsTwo(s1.sent[0], s2.sent[0], command, q, m.replyQ);
    var sent := [s1.sent[0], s2.sent[0]];
    assert s1.message.params == s2.message.params == m.params;
    assert sent[1].msg == s2.message;
    Finished(!s2.ok, sent, s2.message, None)
  }

  lemma FollowsTwo(s1: M.Send, s2: M.Send, command: M.Command, q: M.Queue, replyQ: Option<M.Queue>)
    requires s1.to == q && s1.msg.command == command && s1.msg.replyQ == Some(M.AutonomousQueue)
    requires s2.to == M.ConveyorQueue && s2.msg.command == M.ConveyorStop && s2.msg.replyQ == Some(M.AutonomousQueue)
    ensures Follows([s1, s2], [Order(q, command, true), Order(M.ConveyorQueue, M.ConveyorStop, false)], replyQ)
  {
    var plan := [Order(q, command, true), Order(M.ConveyorQueue, M.ConveyorStop, false)];
    FollowsOne(s2, plan[1], Some(M.AutonomousQueue));
    assert [s1, s2][1..] == [s2] && plan[1..] == [plan[1]];
  }

  // Each case of the dispatch below is justified by one of the following lemmas,
  // which say that a routine of a given shape meets `Conforms` for any keyword
  // whose plan, arity and stop rule have that shape.

  lemma AskConforms(rev: Revision, env: A.Env, m: M.Message, op: Opcode, args: seq<string>, reply: M.Command,
                    sent: M.Message, command: M.Command, q: M.Queue)
    requires Plan(rev, op) == [Order(q, command, true)]
    requires StopsOnError(op) && Arity(op) <= |args| && op != Move && op != Delay
    requires sent.replyQ == m.replyQ && sent.params == Writes(rev, env, m.params, op, args)
    ensures Conforms(rev, env, m, op, args, reply, Ask(sent, command, q, reply))
  {
  }

  lemma FireConforms(rev: Revision, env: A.Env, m: M.Message, op: Opcode, args: seq<string>, reply: M.Command,
                     sent: M.Message, command: M.Command, q: M.Queue)
    requires Plan(rev, op) == [Order(q, command, false)]
    requires !StopsOnError(op) && Arity(op) <= |args| && op != Move && op != Delay && op != End
    requires sent.replyQ == m.replyQ && sent.params == Writes(rev, env, m.params, op, args)
    ensures Conforms(rev, env, m, op, args, reply, Fire(sent, command, q))
  {
  }

  lemma DriveWhileConforms(rev: Revision, env: A.Env, m: M.Message, op: Opcode, args: seq<string>, reply: M.Command,
                           sent: M.Message, start: M.Command, command: M.Command, q: M.Queue)
    requires Plan(rev, op) == [Order(M.DrivetrainQueue, start, false), Order(q, command, true),
                               Order(M.DrivetrainQueue, M.DrivetrainStop, false)]
    requires StopsOnError(op) && Arity(op) <= |args| && op != Move && op != Delay
    requires sent.replyQ == m.replyQ && sent.params == Writes(rev, env, m.params, op, args)
    ensures Conforms(rev, env, m, op, args, reply, DriveWhile(sent, start, command, q, reply))
  {
  }

  lemma ContinueConforms(rev: Revision, env: A.Env, m: M.Message, op: Opcode, args: seq<string>, reply: M.Command,
                         s: Option<A.Step>, o: Order)
    requires Plan(rev, op) == [o] && !StopsOnError(op) && Arity(op) == 2 && op != Move && op != Delay && op != End
    requires s.None? <==> |args| < 2
    requires s.Some? ==> |s.value.sent| == 1 && s.value.sent[0].to == o.to && s.value.sent[0].msg.command == o.command
    requires s.Some? ==> s.value.sent[0].msg.replyQ == (if o.awaits then Some(M.AutonomousQueue) else m.replyQ)
    requires s.Some? ==> s.value.message == s.value.sent[0].msg && s.value.message.params == Writes(rev, env, m.params, op, args)
    ensures Conforms(rev, env, m, op, args, reply, Continue(s, m, o))
  {
  }

  lemma AskThenStopConforms(rev: Revision, env: A.Env, m: M.Message, op: Opcode, args: seq<string>, reply: M.Command,
                            sent: M.Message, command: M.Command, q: M.Queue)
    requires Plan(rev, op) == [Order(q, command, true), Order(M.ConveyorQueue, M.ConveyorStop, false)]
    requires !StopsOnError(op) && Arity(op) <= |args| && op != Move && op != Delay && op != End
    requires sent.replyQ == m.replyQ && sent.params == Writes(rev, env, m.params, op, args)
    ensures Conforms(rev, env, m, op, args, reply, AskThenStop(sent, command, q, reply))
  {
  }

  lemma NothingConforms(rev: Revision, env: A.Env, m: M.Message, op: Opcode, args: seq<string>, reply: M.Command)
    requires Plan(rev, op) == [] && !StopsOnError(op) && Arity(op) == 0 && op != Move && op != Delay && op != End
    requires Writes(rev, env, m.params, op, args) == m.params
    ensures Conforms(rev, env, m, op, args, reply, Finished(false, [], m, None))
  {
  }

  /** MOVE: a refused speed writes nothing and leaves the member message alone;
      either way the script goes on. */
  function DispatchMove(rev: Revision, env: A.Env, m: M.Message, args: seq<string>, reply: M.Command): (v: Verdict)
    ensures Conforms(rev, env, m, Move, args, reply, v)
  {
    if rev == AutonomousRevision then
      var s := A.Move(env, m, args);
      if s.Some? && !s.value.ok then Done(s.value, false)
      else Continue(s, m, Order(M.DrivetrainQueue, M.DrivetrainAutoMove, false))
    else
      var s := B.Move(env, m, args);
      if s.Some? && !s.value.ok then Done(s.value, false)
      else Continue(s, m, Order(M.DrivetrainQueue, M.DrivetrainDriveTank, false))
  }

  /** MODE, BEGIN, END, DELAY and the drive routines. */
  function DispatchMotion(rev: Revision, env: A.Env, m: M.Message, op: Opcode, args: seq<string>, reply: M.Command): (v: Verdict)
    requires SectionOf(op) == MotionSection
    ensures Conforms(rev, env, m, op, args, reply, v)
  {
    match op
    // MODE reaches the default case
    case Mode =>
      NothingConforms(rev, env, m, op, args, reply);
      Finished(false, [], m, None)
    // BEGIN and END ignore their routines' results
    case Begin =>
      var s := A.Begin(m);
      FireConforms(rev, env, m, op, args, reply, m, M.AutonomousRun, M.DrivetrainQueue);
      assert Done(s, false) == Fire(m, M.AutonomousRun, M.DrivetrainQueue);
      Done(s, false)
    case End =>
      var s := A.End(m);
      assert Done(s, true) == Fire(m, M.AutonomousComplete, M.DrivetrainQueue).(stop := true);
      Done(s, true)
    case Delay =>
      if |args| == 0 then Finished(false, [], m, None)
      else Finished(false, [], m, Some(env.atof(args[0])))
    case Move => DispatchMove(rev, env, m, args, reply)
    case MMove =>
      var s := A.MeasuredMove(env, m, args, reply);
      var o := Order(M.DrivetrainQueue, M.DrivetrainDriveStraight, true);
      ContinueConforms(rev, env, m, op, args, reply, s, o);
      Continue(s, m, o)
    case Turn =>
      var s := if rev == AutonomousRevision then A.Turn(env, m, args, reply) else B.Turn(env, m, args, reply);
      var o := Order(M.DrivetrainQueue, M.DrivetrainTurn, true);
      ContinueConforms(rev, env, m, op, args, reply, s, o);
      Continue(s, m, o)
    case Straight =>
      var s := A.Straight(env, m, args, reply);
      var o := Order(M.DrivetrainQueue, M.DrivetrainDriveStraight, true);
      ContinueConforms(rev, env, m, op, args, reply, s, o);
      Continue(s, m, o)
  }

  /** The claw and can-lifter keywords. */
  function DispatchLifter(rev: Revision, env: A.Env, m: M.Message, op: Opcode, args: seq<string>, reply: M.Command): (v: Verdict)
    requires SectionOf(op) == LifterSection
    ensures Conforms(rev, env, m, op, args, reply, v)
  {
    match op
    case ClawOpen =>
      FireConforms(rev, env, m, op, args, reply, m, M.ClawOpen, M.ClawQueue);
      Fire(m, M.ClawOpen, M.ClawQueue)
    case ClawClose =>
      FireConforms(rev, env, m, op, args, reply, m, M.ClawClose, M.ClawQueue);
      Fire(m, M.ClawClose, M.ClawQueue)
    case ClawToTop =>
      AskConforms(rev, env, m, op, args, reply, m, M.CanLifterClawToTop, M.CanLifterQueue);
      Ask(m, M.CanLifterClawToTop, M.CanLifterQueue, reply)
    // CLAWTOBOTTOM sends the same command as CLAWTOTOP
    case ClawToBottom =>
      AskConforms(rev, env, m, op, args, reply, m, M.CanLifterClawToTop, M.CanLifterQueue);
      Ask(m, M.CanLifterClawToTop, M.CanLifterQueue, reply)
    case RaiseCanLoMid =>
      FireConforms(rev, env, m, op, args, reply, m, M.CanLifterRaiseLoMid, M.CanLifterQueue);
      Fire(m, M.CanLifterRaiseLoMid, M.CanLifterQueue)
    case LowerCanHiMid =>
      FireConforms(rev, env, m, op, args, reply, m, M.CanLifterLowerHiMid, M.CanLifterQueue);
      Fire(m, M.CanLifterLowerHiMid, M.CanLifterQueue)
    case RaiseTotes =>
      if |args| == 0 then Undefined
      else
        var sent := m.(params := m.params.(numTotes := env.atoi(args[0])));
        AskThenStopConforms(rev, env, m, op, args, reply, sent, M.CanLifterRaiseTotes, M.CanLifterQueue);
        AskThenStop(sent, M.CanLifterRaiseTotes, M.CanLifterQueue, reply)
    case LowerTotes =>
      AskConforms(rev, env, m, op, args, reply, m, M.CanLifterLowerTotes, M.CanLifterQueue);
      Ask(m, M.CanLifterLowerTotes, M.CanLifterQueue, reply)
    case StartRaiseTotes =>
      if |args| == 0 then Undefined
      else
        var sent := m.(params := m.params.(numTotes := env.atoi(args[0])));
        FireConforms(rev, env, m, op, args, reply, sent, M.CanLifterStartRaiseTotes, M.CanLifterQueue);
        Fire(sent, M.CanLifterStartRaiseTotes, M.CanLifterQueue)
  }

  /** The tote-loading and drive keywords. */
  function DispatchLoading(rev: Revision, env: A.Env, m: M.Message, op: Opcode, args: seq<string>, reply: M.Command): (v: Verdict)
    requires SectionOf(op) == LoadingSection
    ensures Conforms(rev, env, m, op, args, reply, v)
  {
    match op
    case FrontSeekTote =>
      if |args| < 2 then Undefined
      else
        var sent := m.(params := m.params.(driveSpeed := env.atof(args[0]), timeout := env.atof(args[1])));
        DriveWhileConforms(rev, env, m, op, args, reply, sent, M.DrivetrainStartDriveFwd, M.ConveyorSeekToteFront, M.ConveyorQueue);
        DriveWhile(sent, M.DrivetrainStartDriveFwd, M.ConveyorSeekToteFront, M.ConveyorQueue, reply)
    case FrontLoadTote =>
      if |args| == 0 then Undefined
      else
        var sent := m.(params := m.params.(timeout := env.atof(args[0])));
        AskConforms(rev, env, m, op, args, reply, sent, M.ConveyorFrontLoadTote, M.ConveyorQueue);
        Ask(sent, M.ConveyorFrontLoadTote, M.ConveyorQueue, reply)
    case BackSeekTote =>
      if |args| < 2 then Undefined
      else
        var sent := m.(params := m.params.(driveSpeed := env.atof(args[0]), timeout := env.atof(args[1])));
        DriveWhileConforms(rev, env, m, op, args, reply, sent, M.DrivetrainStartDriveBck, M.ConveyorSeekToteBack, M.ConveyorQueue);
        DriveWhile(sent, M.DrivetrainStartDriveBck, M.ConveyorSeekToteBack, M.ConveyorQueue, reply)
    case BackLoadTote =>
      if |args| == 0 then Undefined
      else
        var sent := m.(params := m.params.(timeout := env.atof(args[0])));
        AskConforms(rev, env, m, op, args, reply, sent, M.ConveyorBackLoadTote, M.ConveyorQueue);
        Ask(sent, M.ConveyorBackLoadTote, M.ConveyorQueue, reply)
    case StartDriveFwd =>
      if |args| == 0 then Undefined
      else
        var sent := m.(params := m.params.(driveSpeed := env.atof(args[0])));
        FireConforms(rev, env, m, op, args, reply, sent, M.DrivetrainStartDriveFwd, M.DrivetrainQueue);
        Fire(sent, M.DrivetrainStartDriveFwd, M.DrivetrainQueue)
    case StartDriveBck =>
      if |args| == 0 then Undefined
      else
        var sent := m.(params := m.params.(driveSpeed := env.atof(args[0])));
        FireConforms(rev, env, m, op, args, reply, sent, M.DrivetrainStartDriveBck, M.DrivetrainQueue);
        Fire(sent, M.DrivetrainStartDriveBck, M.DrivetrainQueue)
    case StopDrive =>
      FireConforms(rev, env, m, op, args, reply, m, M.DrivetrainStop, M.DrivetrainQueue);
      Fire(m, M.DrivetrainStop, M.DrivetrainQueue)
  }

  /** The conveyor and can-arm keywords. */
  function DispatchConveyor(rev: Revision, env: A.Env, m: M.Message, op: Opcode, args: seq<string>, reply: M.Command): (v: Verdict)
    requires SectionOf(op) == ConveyorSection
    ensures Conforms(rev, env, m, op, args, reply, v)
  {
    match op
    case WaitFrontBeam =>
      AskConforms(rev, env, m, op, args, reply, m, M.ConveyorWaitFrontBeam, M.ConveyorQueue);
      Ask(m, M.ConveyorWaitFrontBeam, M.ConveyorQueue, reply)
    case WaitBackBeam =>
      AskConforms(rev, env, m, op, args, reply, m, M.ConveyorWaitBackBeam, M.ConveyorQueue);
      Ask(m, M.ConveyorWaitBackBeam, M.ConveyorQueue, reply)
    case DepositTotesBck =>
      AskConforms(rev, env, m, op, args, reply, m, M.ConveyorDepositTotesBck, M.ConveyorQueue);
      Ask(m, M.ConveyorDepositTotesBck, M.ConveyorQueue, reply)
    case ShiftTotesFwd =>
      FireConforms(rev, env, m, op, args, reply, m, M.ConveyorShiftTotesFwd, M.ConveyorQueue);
      Fire(m, M.ConveyorShiftTotesFwd, M.ConveyorQueue)
    case ShiftTotesBck =>
      FireConforms(rev, env, m, op, args, reply, m, M.ConveyorShiftTotesBck, M.ConveyorQueue);
      Fire(m, M.ConveyorShiftTotesBck, M.ConveyorQueue)
    case PushTotesBck =>
      FireConforms(rev, env, m, op, args, reply, m, M.ConveyorPushTotesBck, M.ConveyorQueue);
      Fire(m, M.ConveyorPushTotesBck, M.ConveyorQueue)
    case CanArmOpen =>
      // the drivetrain start is borrowed to push while the arm opens
      if |args| == 0 then Undefined
      else
        var sent := m.(params := m.params.(driveSpeed := env.atof(args[0])));
        DriveWhileConforms(rev, env, m, op, args, reply, sent, M.DrivetrainStartDriveFwd, M.CanArmOpen, M.CanArmQueue);
        DriveWhile(sent, M.DrivetrainStartDriveFwd, M.CanArmOpen, M.CanArmQueue, reply)
    case CanArmClose =>
      FireConforms(rev, env, m, op, args, reply, m, M.CanArmClose, M.CanArmQueue);
      Fire(m, M.CanArmClose, M.CanArmQueue)
  }

  /** The keywords kept from earlier seasons. */
  function DispatchLegacy(rev: Revision, env: A.Env, m: M.Message, op: Opcode, args: seq<string>, reply: M.Command): (v: Verdict)
    requires SectionOf(op) == LegacySection
    ensures Conforms(rev, env, m, op, args, reply, v)
  {
    match op
    case SeekTote =>
      var s := A.SeekTote(env, m, args, reply);
      if s.None? then Undefined
      else
        FollowsOne(s.value.sent[0], Order(M.DrivetrainQueue, M.DrivetrainSeekTote, true), m.replyQ);
        Done(s.value, !s.value.ok)
    // CUBEAUTO's result only chooses a status text
    case CubeAuto =>
      var s := A.CubeAuto(m);
      FireConforms(rev, env, m, op, args, reply, m, M.CubeAutoCycleStart, M.CubeQueue);
      assert Done(s, false) == Fire(m, M.CubeAutoCycleStart, M.CubeQueue);
      Done(s, false)
    case ClickerUp =>
      NothingConforms(rev, env, m, op, args, reply);
      Finished(false, [], m, None)
    case ClickerDown =>
      NothingConforms(rev, env, m, op, args, reply);
      Finished(false, [], m, None)
    // STARTTOTEUP, TOTEEXTEND, TOTERETRACT and NOP reach the default case
    case StartToteUp =>
      NothingConforms(rev, env, m, op, args, reply);
      Finished(false, [], m, None)
    case ToteExtend =>
      NothingConforms(rev, env, m, op, args, reply);
      Finished(false, [], m, None)
    case ToteRetract =>
      NothingConforms(rev, env, m, op, args, reply);
      Finished(false, [], m, None)
    case Nop =>
      NothingConforms(rev, env, m, op, args, reply);
      Finished(false, [], m, None)
  }

  /** The `switch` of Evaluate, for a statement already past the pause gate. */
  function Dispatch(rev: Revision, env: A.Env, m: M.Message, op: Opcode, args: seq<string>, reply: M.Command): (v: Verdict)
    ensures Conforms(rev, env, m, op, args, reply, v)
  {
    match SectionOf(op)
    case MotionSection => DispatchMotion(rev, env, m, op, args, reply)
    case LifterSection => DispatchLifter(rev, env, m, op, args, reply)
    case LoadingSection => DispatchLoading(rev, env, m, op, args, reply)
    case ConveyorSection => DispatchConveyor(rev, env, m, op, args, reply)
    case LegacySection => DispatchLegacy(rev, env, m, op, args, reply)
  }

  /** A statement that is evaluated at all: not empty and not a comment. */
  predicate Significant(statement: string) {
    |statement| > 0 && statement[0] != Comment
  }

  /** The opcode a statement selects, if it is significant and its first word
      matches a keyword. */
  function OpcodeOf(statement: string): Option<Opcode> {
    if !Significant(statement) then None
    else
      var words := Split(statement);
      if |words| == 0 then None else Lookup(words[0])
  }

  /** Evaluate: one script statement.  `paused` is the pause flag as the statement
      reaches the gate; `reply` is the answer to the statement's synchronous request,
      if it makes one. */
  function Evaluate(rev: Revision, env: A.Env, m: M.Message, statement: string, paused: bool, reply: M.Command): (v: Verdict)
    ensures !Significant(statement) ==> v == Finished(false, [], m, None)
    ensures Significant(statement) && Split(statement) == [] ==> v == Undefined
    ensures Significant(statement) && Split(statement) != [] && OpcodeOf(statement).None? ==>
              v == Finished(false, [], m, None)
    ensures OpcodeOf(statement).Some? ==>
              if paused then v == Paused
              else Conforms(rev, env, m, OpcodeOf(statement).value, Split(statement)[1..], reply, v)
  {
    if !Significant(statement) then Finished(false, [], m, None)
    else
      var words := Split(statement);
      if |words| == 0 then Undefined
      else match Lookup(words[0])
        case None => Finished(false, [], m, None)
        case Some(op) => if paused then Paused else Dispatch(rev, env, m, op, words[1..], reply)
  }

  // ---------------------------------------------------------------------------
  // Properties
  // ---------------------------------------------------------------------------

  /** The lookup is by prefix: a word longer than a keyword selects it. */
  lemma LookupByPrefix()
    ensures Lookup("MOVEX") == Some(Move)
    ensures Lookup("ENDGAME") == Some(End)
  {
    // MODE, BEGIN and DELAY differ from both words within their length
    assert "MOVEX"[2] != Keywords[0][2] && "MOVEX"[0] != Keywords[1][0];
    assert "MOVEX"[0] != Keywords[2][0] && "MOVEX"[0] != Keywords[3][0];
    assert "MOVEX"[..4] == Keywords[4];
    assert "ENDGAME"[0] != Keywords[0][0] && "ENDGAME"[0] != Keywords[1][0];
    assert "ENDGAME"[..3] == Keywords[2];
  }

  /** The lookup walks the table in order: a keyword's own entry is the one found
      for it exactly when no earlier keyword is a prefix of it, and then the word
      selects that entry's opcode.  (MOVE, met before MMOVE, is not a prefix of it,
      so MMOVE reaches its own entry; see `MMoveReachesItsEntry`.) */
  lemma LookupInTableOrder(i: nat)
    requires i < |Keywords|
    ensures MatchFrom(Keywords, Keywords[i], 0) == Some(i) <==>
              forall j :: 0 <= j < i ==> !(Keywords[j] <= Keywords[i])
    ensures (forall j :: 0 <= j < i ==> !(Keywords[j] <= Keywords[i])) ==> Lookup(Keywords[i]) == Some(Opcodes[i])
  {
    FoundAtOwnEntry(Keywords, i);
  }

  /** In any table, the search for an entry's own keyword stops at that entry
      exactly when no earlier entry is a prefix of it. */
  lemma FoundAtOwnEntry(table: seq<string>, i: nat)
    requires i < |table|
    ensures MatchFrom(table, table[i], 0) == Some(i) <==> forall j :: 0 <= j < i ==> !(table[j] <= table[i])
  {
    assert table[i] <= table[i];
  }

  /** MMOVE, fifth in the table after MODE, BEGIN, END, DELAY and MOVE, selects its own opcode. */
  lemma MMoveReachesItsEntry()
    ensures Lookup("MMOVE") == Some(MMove)
  {
    assert "MMOVE"[1] != Keywords[0][1] && "MMOVE"[0] != Keywords[1][0];
    assert "MMOVE"[0] != Keywords[2][0] && "MMOVE"[0] != Keywords[3][0];
    assert "MMOVE"[1] != Keywords[4][1];
    assert Keywords[5] == "MMOVE";
    LookupInTableOrder(5);
  }

  /** Only END and a failed request stop the script.  A statement that gets past the
      gate with its arguments stops the script exactly when it is END, or when it is
      one of the keywords that stop on errors and its request was answered with the
      error reply; MOVE, MMOVE, TURN, STRAIGHT and STACKUP never do. */
  lemma StopsExactly(rev: Revision, env: A.Env, m: M.Message, statement: string, paused: bool, reply: M.Command)
    ensures var v := Evaluate(rev, env, m, statement, paused, reply);
            v.Finished? ==>
              (v.stop <==> OpcodeOf(statement).Some?
                           && (OpcodeOf(statement).value == End
                               || (StopsOnError(OpcodeOf(statement).value) && reply == M.AutonomousResponseError)))
  {
  }

  /** A statement writes nothing unless it names a keyword; the script keeps going
      past empty lines, comments and unknown words without touching the pause gate. */
  lemma OnlyKeywordsAct(rev: Revision, env: A.Env, m: M.Message, statement: string, paused: bool, reply: M.Command)
    requires OpcodeOf(statement).None?
    ensures var v := Evaluate(rev, env, m, statement, paused, reply);
            v == Undefined || v == Finished(false, [], m, None)
  {
  }

  /** Evaluation is undefined exactly on a significant statement with no words, or a
      statement that passes the gate and lacks an argument its keyword reads. */
  lemma UndefinedExactly(rev: Revision, env: A.Env, m: M.Message, statement: string, paused: bool, reply: M.Command)
    ensures Evaluate(rev, env, m, statement, paused, reply) == Undefined <==>
              && Significant(statement)
              && (|Split(statement)| == 0
                  || (OpcodeOf(statement).Some? && !paused && |Split(statement)| - 1 < Arity(OpcodeOf(statement).value)))
  {
    var words := Split(statement);
    if Significant(statement) && |words| > 0 {
      var op := Lookup(words[0]);
      if op.Some? && !paused {
        assert Evaluate(rev, env, m, statement, paused, reply) == Dispatch(rev, env, m, op.value, words[1..], reply);
      }
    }
  }
}

=== FILE: autonomous.dfy ===
/** The request/response helpers and the motion routines of the script task
    (Autonomous.cpp).  The task keeps one outgoing message as a member: every
    routine edits some of its fields and writes a copy of it to a pipe, so a
    field a routine does not set keeps whatever an earlier routine left there.

    A routine reads its arguments with `strtok_r` and `atof`; an argument it reads
    that is not on the line is a NULL token handed to `atof`, which has no defined
    behaviour.  Such a call is `None` here. */
module Autonomous {
  import opened Wrappers
  import opened Messages
  import ComponentBase

  /** What the routines take from outside the model: the C library's number
      parsers and `MAX_VELOCITY_PARAM`, whose definition is not part of this model. */
  datatype Env = Env(atof: string -> real, atoi: string -> int, maxVelocity: real)

  /** The effect of one routine: the member message afterwards, the writes it made
      in order, and the routine's result. */
  datatype Step = Step(message: Message, sent: seq<Send>, ok: bool)

  function Abs(x: real): (r: real)
    ensures r >= 0.0 && (r == x || r == -x)
  {
    if x < 0.0 then -x else x
  }

  /** `s` is one fire-and-forget write of `command` to `q`, made from `m`. */
  predicate Fires(m: Message, s: Step, q: Queue, command: Command) {
    && s.sent == [Send(q, s.message)]
    && s.message.command == command
    && s.message.replyQ == m.replyQ
    && s.ok
  }

  /** `s` is one synchronous request `command` to `q`, made from `m`, answered by `reply`. */
  predicate Asks(m: Message, s: Step, q: Queue, command: Command, reply: Command) {
    && s.sent == [Send(q, s.message)]
    && s.message.command == command
    && s.message.replyQ == Some(AutonomousQueue)
    && s.message.params == m.params
    && (s.ok <==> reply != AutonomousResponseError)
  }

  /** CommandResponse: send the member message with this task's pipe as the reply
      pipe and wait for the answer.  The wait is not modelled: `reply` is the
      command the answer carried.  Only an explicit error answer is a failure. */
  function CommandResponse(m: Message, q: Queue, reply: Command): (r: Step)
    ensures Asks(m, r, q, m.command, reply)
    ensures r.message == m.(replyQ := Some(AutonomousQueue))
  {
    var sent := m.(replyQ := Some(AutonomousQueue));
    Step(sent, [Send(q, sent)], reply != AutonomousResponseError)
  }

  /** CommandNoResponse: write the member message unchanged; always succeeds. */
  function CommandNoResponse(m: Message, q: Queue): (r: Step)
    ensures Fires(m, r, q, m.command)
    ensures r.message == m
  {
    Step(m, [Send(q, m)], true)
  }

  /** Begin: tell the drivetrain a script is starting. */
  function Begin(m: Message): (r: Step)
    ensures Fires(m, r, DrivetrainQueue, AutonomousRun)
    ensures r.message.params == m.params
  {
    CommandNoResponse(m.(command := AutonomousRun), DrivetrainQueue)
  }

  /** End: tell the drivetrain the script is over; always succeeds. */
  function End(m: Message): (r: Step)
    ensures Fires(m, r, DrivetrainQueue, AutonomousComplete)
    ensures r.message.params == m.params
  {
    CommandNoResponse(m.(command := AutonomousComplete), DrivetrainQueue)
  }

  /** Move (left speed, right speed): an open-loop drive, refused when either speed
      is larger in magnitude than the velocity limit. */
  function Move(env: Env, m: Message, args: seq<string>): (r: Option<Step>)
    ensures r.None? <==> |args| < 2
    ensures r.Some? ==>
              var left := env.atof(args[0]);
              var right := env.atof(args[1]);
              && (r.value.ok <==> Abs(left) <= env.maxVelocity && Abs(right) <= env.maxVelocity)
              && (!r.value.ok ==> r.value.sent == [] && r.value.message == m)
              && (r.value.ok ==> Fires(m, r.value, DrivetrainQueue, DrivetrainAutoMove)
                                 && r.value.message.params == m.params.(left := left, right := right))
  {
    if |args| < 2 then None
    else
      var left := env.atof(args[0]);
      var right := env.atof(args[1]);
      if Abs(left) > env.maxVelocity || Abs(right) > env.maxVelocity then Some(Step(m, [], false))
      else Some(CommandNoResponse(m.(command := DrivetrainAutoMove, params := m.params.(left := left, right := right)),
                                  DrivetrainQueue))
  }

  /** Stop: tell the drivetrain to stop. */
  function Stop(m: Message): (r: Step)
    ensures Fires(m, r, DrivetrainQueue, DrivetrainStop)
    ensures r.message.params == m.params
  {
    CommandNoResponse(m.(command := DrivetrainStop), DrivetrainQueue)
  }

  /** MeasuredMove (speed, distance): drive straight for a distance and wait. */
  function MeasuredMove(env: Env, m: Message, args: seq<string>, reply: Command): (r: Option<Step>)
    ensures r.None? <==> |args| < 2
    ensures r.Some? ==>
              var p := m.params.(driveSpeed := env.atof(args[0]), driveDistance := env.atof(args[1]));
              Asks(m.(params := p), r.value, DrivetrainQueue, DrivetrainDriveStraight, reply)
  {
    if |args| < 2 then None
    else
      var p := m.params.(driveSpeed := env.atof(args[0]), driveDistance := env.atof(args[1]));
      Some(CommandResponse(m.(command := DrivetrainDriveStraight, params := p), DrivetrainQueue, reply))
  }

  /** TimedMove: its body is commented out; it reports failure and does nothing. */
  function TimedMove(m: Message): (r: Step)
    ensures !r.ok && r.sent == [] && r.message == m
  {
    Step(m, [], false)
  }

  /** Turn (angle, timeout): turn in place and wait. */
  function Turn(env: Env, m: Message, args: seq<string>, reply: Command): (r: Option<Step>)
    ensures r.None? <==> |args| < 2
    ensures r.Some? ==>
              var p := m.params.(turnAngle := env.atof(args[0]), timeout := env.atof(args[1]));
              Asks(m.(params := p), r.value, DrivetrainQueue, DrivetrainTurn, reply)
  {
    if |args| < 2 then None
    else
      var p := m.params.(turnAngle := env.atof(args[0]), timeout := env.atof(args[1]));
      Some(CommandResponse(m.(command := DrivetrainTurn, params := p), DrivetrainQueue, reply))
  }

  /** SeekTote (time-in, timeout): drive until a tote is found, and wait. */
  function SeekTote(env: Env, m: Message, args: seq<string>, reply: Command): (r: Option<Step>)
    ensures r.None? <==> |args| < 2
    ensures r.Some? ==>
              var p := m.params.(timein := env.atof(args[0]), timeout := env.atof(args[1]));
              Asks(m.(params := p), r.value, DrivetrainQueue, DrivetrainSeekTote, reply)
  {
    if |args| < 2 then None
    else
      var p := m.params.(timeout := env.atof(args[1]), timein := env.atof(args[0]));
      Some(CommandResponse(m.(command := DrivetrainSeekTote, params := p), DrivetrainQueue, reply))
  }

  /** Straight (speed, duration): drive straight for a time, and wait. */
  function Straight(env: Env, m: Message, args: seq<string>, reply: Command): (r: Option<Step>)
    ensures r.None? <==> |args| < 2
    ensures r.Some? ==>
              var p := m.params.(driveSpeed := env.atof(args[0]), driveTime := env.atof(args[1]));
              Asks(m.(params := p), r.value, DrivetrainQueue, DrivetrainDriveStraight, reply)
  {
    if |args| < 2 then None
    else
      var p := m.params.(driveSpeed := env.atof(args[0]), driveTime := env.atof(args[1]));
      Some(CommandResponse(m.(command := DrivetrainDriveStraight, params := p), DrivetrainQueue, reply))
  }

  /** CubeAuto: start the cube task's automatic stacking cycle. */
  function CubeAuto(m: Message): (r: Step)
    ensures Fires(m, r, CubeQueue, CubeAutoCycleStart)
    ensures r.message.params == m.params
  {
    CommandNoResponse(m.(command := CubeAutoCycleStart), CubeQueue)
  }

  /** How the model's request, receive and reply functions fit together, on the
      assumption that a component answers and the answer is delivered: a component
      that takes the request off its pipe and answers it with `answer` writes that
      answer to this task's pipe, and the request succeeds exactly when the answer
      is not the error reply.  Nothing in the program answers a request or sets the
      received flag, so in the program itself every request waits for ever. */
  lemma RequestReplyRoundTrip<S>(m: Message, q: Queue, a: ComponentBase.Actor<S>, answer: Command)
    requires a.inbox == []
    ensures var request := CommandResponse(m, q, answer);
            var b := ComponentBase.ReceiveMessage(ComponentBase.SendMessage(a, request.sent[0].msg));
            && request.sent[0].to == q
            && ComponentBase.SendCommandResponse(b, answer) == Some(Send(AutonomousQueue, Message(answer, None, NoParams)))
            && (request.ok <==> answer != AutonomousResponseError)
  {
  }
}

=== FILE: autonomous_base.dfy ===
/** The script runner of the autonomous task (AutonomousBase.cpp): the mode flags
    the task's hooks keep, the loading of the script file into a fixed number of
    line slots, and the pass that walks the loaded lines handing each non-empty
    one to `Evaluate`.

    The runner shares its flags with the task loop; the model takes them as they
    stand when a pass starts.  The statement evaluator is a parameter `eval`: it
    is told the line number and the text and answers whether the script stops
    there (module `AutoParser` models what `Evaluate` does with a statement). */
module AutonomousBase {
  import opened Wrappers
  import opened Messages
  import ComponentBase

  /** `script` has one slot per line the task can hold (`AUTONOMOUS_SCRIPT_LINES`,
      whose value is not part of this model, is `|script|`). */
  datatype Runner = Runner(script: seq<string>, lineNumber: nat, inAutoMode: bool, paused: bool)

  /** The constructor: cursor 0, not in auto mode, every slot an empty string.  The
      pause flag is never initialised in the source; it is a parameter here. */
  function Create(capacity: nat, paused: bool): (r: Runner)
    ensures |r.script| == capacity && forall i :: 0 <= i < capacity ==> r.script[i] == ""
    ensures r.lineNumber == 0 && !r.inAutoMode && r.paused == paused
  {
    Runner(seq(capacity, _ => ""), 0, false, paused)
  }

  /** OnStateChange: the autonomous mode clears the pause flag and arms the runner;
      the teleoperated mode pauses it; every other message leaves both flags. */
  function OnStateChange(r: Runner, m: Message): (next: Runner)
    ensures m.command == StateAutonomous ==> !next.paused && next.inAutoMode
    ensures m.command == StateTeleoperated ==> next.paused && next.inAutoMode == r.inAutoMode
    ensures m.command != StateAutonomous && m.command != StateTeleoperated ==> next == r
    // the hooks never touch the loaded script or the cursor
    ensures next.script == r.script && next.lineNumber == r.lineNumber
  {
    if m.command == StateAutonomous then r.(paused := false, inAutoMode := true)
    else if m.command == StateTeleoperated then r.(paused := true)
    else r
  }

  /** Run: every case of its switch is empty. */
  function Run(r: Runner, m: Message): (next: Runner)
    // the script is walked by the script pass, never by the task loop's Run
    ensures next.script == r.script && next.lineNumber == r.lineNumber
    ensures next.inAutoMode == r.inAutoMode && next.paused == r.paused
  {
    r
  }

  /** The task's loop pass as seen by the runner's flags. */
  function Iterate(a: ComponentBase.Actor<Runner>): ComponentBase.Actor<Runner> {
    ComponentBase.Iterate(a, OnStateChange, Run)
  }

  /** What a pass of the task loop does to the runner: the mode changes act as
      described, and every other message, a timeout included, changes nothing. */
  lemma HooksOnRunner(a: ComponentBase.Actor<Runner>)
    ensures var c := ComponentBase.Next(a).command;
            var r := Iterate(a).state;
            && (c == StateAutonomous ==> r == a.state.(paused := false, inAutoMode := true))
            && (c == StateTeleoperated ==> r == a.state.(paused := true))
            && (c != StateAutonomous && c != StateTeleoperated ==> r == a.state)
  {
  }

  /** Only the autonomous mode arms the runner: passes of the task loop that receive
      no autonomous mode change never set the auto-mode flag. */
  lemma {:induction false} OnlyAutonomousArms(a: ComponentBase.Actor<Runner>, n: nat)
    requires !a.state.inAutoMode
    requires forall i :: 0 <= i < n && i < |a.inbox| ==> a.inbox[i].command != StateAutonomous
    ensures !ComponentBase.IterateMany(a, n, OnStateChange, Run).state.inAutoMode
    decreases n
  {
    if n > 0 {
      var b := Iterate(a);
      if |a.inbox| > 0 {
        assert a.inbox[0].command != StateAutonomous;
        forall i | 0 <= i < n - 1 && i < |b.inbox|
          ensures b.inbox[i].command != StateAutonomous
        {
          assert b.inbox[i] == a.inbox[i + 1];
        }
      }
      OnlyAutonomousArms(b, n - 1);
    }
  }

  /** The slots after loading `lines` into `capacity` slots: the file's lines in
      order, cut at the capacity, then empty strings. */
  function Padded(lines: seq<string>, capacity: nat): (s: seq<string>)
    ensures |s| == capacity
  {
    seq(capacity, i requires 0 <= i < capacity => if i < |lines| then lines[i] else "")
  }

  /** LoadScriptFile: `file` is `None` when the file cannot be opened, otherwise the
      lines `getline` reads from it.  On failure nothing is written; on success
      every slot is written, the first ones with the file's lines and the rest
      cleared. */
  method LoadScriptFile(script: seq<string>, file: Option<seq<string>>) returns (ok: bool, loaded: seq<string>)
    ensures ok <==> file.Some?
    ensures !ok ==> loaded == script
    ensures ok ==> |loaded| == |script|
    ensures ok ==> forall i :: 0 <= i < |script| ==> loaded[i] == (if i < |file.value| then file.value[i] else "")
  {
    if file.None? {
      return false, script;
    }
    var lines := file.value;
    loaded := script;
    var i := 0;
    while i < |script|
      invariant 0 <= i <= |script| && |loaded| == |script|
      invariant forall j :: 0 <= j < i ==> loaded[j] == (if j < |lines| then lines[j] else "")
    {
      if i < |lines| {
        loaded := loaded[i := lines[i]];
      } else {
        loaded := loaded[i := ""];
      }
      i := i + 1;
    }
    ok := true;
  }

  /** The loaded slots read back as the file: a file that fits comes back whole,
      followed only by empty slots, and a longer one comes back cut at the capacity. */
  lemma PaddedKeepsLines(lines: seq<string>, capacity: nat)
    ensures |lines| <= capacity ==> Padded(lines, capacity)[..|lines|] == lines
    ensures forall i :: |lines| <= i < capacity ==> Padded(lines, capacity)[i] == ""
    ensures capacity <= |lines| ==> Padded(lines, capacity) == lines[..capacity]
  {
    var s := Padded(lines, capacity);
    if |lines| <= capacity {
      assert forall i :: 0 <= i < |lines| ==> s[..|lines|][i] == lines[i];
    }
  }

  /** The line a pass stops on, starting from `from`: the first non-empty line at or
      after `from` that the evaluator stops on, or the capacity when there is none. */
  function StopLine(script: seq<string>, eval: (nat, string) -> bool, from: nat): (n: nat)
    requires from <= |script|
    ensures from <= n <= |script|
    ensures n < |script| ==> script[n] != "" && eval(n, script[n])
    ensures forall i :: from <= i < n ==> script[i] == "" || !eval(i, script[i])
    decreases |script| - from
  {
    if from == |script| then from
    else if script[from] != "" && eval(from, script[from]) then from
    else StopLine(script, eval, from + 1)
  }

  /** The non-empty lines among the first `n`, by number, in order. */
  function NonEmpty(script: seq<string>, n: nat): seq<nat>
    requires n <= |script|
  {
    if n == 0 then [] else NonEmpty(script, n - 1) + (if script[n - 1] != "" then [n - 1] else [])
  }

  /** One pass of the cursor loop of DoScript, once the script is loaded and the
      runner is in auto mode: from line 0, an empty line is skipped, a non-empty one
      is evaluated, and the pass ends on the first line the evaluator stops on
      (the cursor stays on it) or when the cursor reaches the capacity.
      `evaluated` lists the lines handed to the evaluator. */
  method RunPass(script: seq<string>, eval: (nat, string) -> bool) returns (line: nat, evaluated: seq<nat>)
    ensures line == StopLine(script, eval, 0)
    ensures evaluated == NonEmpty(script, if line < |script| then line + 1 else line)
  {
    line := 0;
    evaluated := [];
    while true
      invariant line <= |script|
      invariant StopLine(script, eval, line) == StopLine(script, eval, 0)
      invariant evaluated == NonEmpty(script, line)
      decreases |script| - line
    {
      if line < |script| {
        if script[line] != "" {
          evaluated := evaluated + [line];
          if eval(line, script[line]) {
            return;
          }
        }
        line := line + 1;
      } else {
        return;
      }
    }
  }

  /** The outcome of one turn of DoScript's outer loop. */
  datatype Cycle = Cycle(runner: Runner, loaded: bool, evaluated: seq<nat>)

  /** One turn of DoScript's outer loop: reset the cursor, load the file, and if
      it loaded, run a pass while in auto mode and leave auto mode. */
  method DoScriptTurn(r: Runner, file: Option<seq<string>>, eval: (nat, string) -> bool) returns (c: Cycle)
    ensures c.loaded <==> file.Some?
    ensures !c.loaded ==> c.runner == r.(lineNumber := 0) && c.evaluated == []
    ensures c.loaded ==> c.runner.script == Padded(file.value, |r.script|) && !c.runner.inAutoMode
    ensures c.runner.paused == r.paused
    ensures c.loaded && !r.inAutoMode ==> c.runner.lineNumber == 0 && c.evaluated == []
    ensures c.loaded && r.inAutoMode ==>
              && c.runner.lineNumber == StopLine(c.runner.script, eval, 0)
              && c.evaluated == NonEmpty(c.runner.script, if c.runner.lineNumber < |c.runner.script|
                                                          then c.runner.lineNumber + 1 else c.runner.lineNumber)
  {
    var ok, script := LoadScriptFile(r.script, file);
    if !ok {
      return Cycle(r.(lineNumber := 0), false, []);
    }
    assert script == Padded(file.value, |r.script|);
    var line: nat := 0;
    var evaluated: seq<nat> := [];
    if r.inAutoMode {
      line, evaluated := RunPass(script, eval);
    }
    c := Cycle(Runner(script, line, false, r.paused), true, evaluated);
  }

  /** Every line `NonEmpty` lists is a non-empty line below its bound, and they are
      listed in increasing order. */
  lemma {:induction false} NonEmptyAreNonEmpty(script: seq<string>, n: nat)
    requires n <= |script|
    ensures forall k :: 0 <= k < |NonEmpty(script, n)| ==>
              NonEmpty(script, n)[k] < n && script[NonEmpty(script, n)[k]] != ""
    ensures forall k, l :: 0 <= k < l < |NonEmpty(script, n)| ==> NonEmpty(script, n)[k] < NonEmpty(script, n)[l]
    decreases n
  {
    if n > 0 {
      NonEmptyAreNonEmpty(script, n - 1);
    }
  }

  /** Every non-empty line below the bound is listed by `NonEmpty`: empty lines are
      skipped and nothing else is. */
  lemma {:induction false} NonEmptyListsAll(script: seq<string>, n: nat, i: nat)
    requires i < n <= |script| && script[i] != ""
    ensures i in NonEmpty(script, n)
    decreases n
  {
    if i < n - 1 {
      NonEmptyListsAll(script, n - 1, i);
    }
  }

  /** A pass that ends short of the capacity stopped because the evaluator stopped
      on that line; every non-empty line before it was evaluated and let the
      script continue. */
  lemma PassStopsOnlyWhenTold(script: seq<string>, eval: (nat, string) -> bool, i: nat)
    requires i < StopLine(script, eval, 0)
    requires script[i] != ""
    ensures !eval(i, script[i])
    ensures i in NonEmpty(script, StopLine(script, eval, 0))
  {
    NonEmptyListsAll(script, StopLine(script, eval, 0), i);
  }
}

=== FILE: can_arm.dfy ===
/** The can arm task (CanArm.cpp): one motor driven open or closed for as long as
    the matching command keeps arriving; every other message stops it. */
module CanArm {
  import opened Messages
  import ComponentBase

  const OpenOutput: real := -0.65
  const CloseOutput: real := 0.65

  datatype CanArm = CanArm(motor: real)

  /** OnStateChange: the teleoperated mode (and any tag that is not a mode) stops
      the arm; the other modes leave it. */
  function OnStateChange(c: CanArm, m: Message): (r: CanArm)
    ensures m.command in [StateAutonomous, StateTest, StateDisabled, StateUnknown] ==> r == c
    ensures m.command == StateTeleoperated ==> r.motor == 0.0
  {
    match m.command
    case StateAutonomous => c
    case StateTest => c
    case StateDisabled => c
    case StateUnknown => c
    case _ => CanArm(0.0)
  }

  /** Run: open, close, or stop for anything else, a timeout included. */
  function Run(c: CanArm, m: Message): (r: CanArm)
    ensures r.motor == OpenOutput <==> m.command == CanArmOpen
    ensures r.motor == CloseOutput <==> m.command == CanArmClose
    // the arm's previous output is forgotten: anything else stops it
    ensures m.command != CanArmOpen && m.command != CanArmClose ==> r.motor == 0.0
  {
    match m.command
    case CanArmOpen => CanArm(OpenOutput)
    case CanArmClose => CanArm(CloseOutput)
    case CanArmStop => CanArm(0.0)
    case SystemMsgTimeout => CanArm(0.0)
    case _ => CanArm(0.0)
  }

  function Iterate(a: ComponentBase.Actor<CanArm>): ComponentBase.Actor<CanArm> {
    ComponentBase.Iterate(a, OnStateChange, Run)
  }

  /** After any pass of the task loop the arm moves exactly when the message of
      that pass was an open or a close, in that command's direction: it runs only
      while commands keep arriving within the receive timeout. */
  lemma MovesOnlyWhenCommanded(a: ComponentBase.Actor<CanArm>)
    ensures var c := ComponentBase.Next(a).command;
            var r := Iterate(a).state;
            && (r.motor != 0.0 <==> c == CanArmOpen || c == CanArmClose)
            && (c == CanArmOpen ==> r.motor == OpenOutput)
            && (c == CanArmClose ==> r.motor == CloseOutput)
  {
  }

  /** A pass with no message stops the arm whatever it was doing. */
  lemma TimeoutStops(a: ComponentBase.Actor<CanArm>)
    requires a.inbox == []
    ensures Iterate(a).state.motor == 0.0
  {
  }
}

=== FILE: can_lifter.dfy ===
/** The can lifter task (CanLifter.cpp): a setpoint motor driven full up, full down
    or stopped. */
module CanLifter {
  import opened Wrappers
  import opened Messages
  import ComponentBase
  import SetpointMotor

  /** The output each command of Run sets. */
  function Table(k: Command): (r: Option<real>)
    ensures r.Some? <==> k == CanLifterRaise || k == CanLifterLower || k == CanLifterStop
  {
    match k
    case CanLifterRaise => Some(1.0)
    case CanLifterLower => Some(-1.0)
    case CanLifterStop => Some(0.0)
    case _ => None
  }

  function Iterate(a: ComponentBase.Actor<real>): ComponentBase.Actor<real> {
    SetpointMotor.Iterate(Table, a)
  }

  /** One pass: raise drives full up, lower full down, stop and every mode change
      stop it, and anything else, a timeout included, leaves it running. */
  lemma Outputs(a: ComponentBase.Actor<real>)
    ensures var k := ComponentBase.Next(a).command;
            var r := Iterate(a).state;
            && (k == CanLifterRaise ==> r == 1.0)
            && (k == CanLifterLower ==> r == -1.0)
            && (k == CanLifterStop || IsStateChange(k) ==> r == 0.0)
            && (Table(k).None? && !IsStateChange(k) ==> r == a.state)
  {
    SetpointMotor.IterateSteps(Table, a);
  }

  /** Once raised, the lifter keeps driving up through any number of passes with
      no message: nothing in this task times it out. */
  lemma KeepsRunningWithoutMessages(a: ComponentBase.Actor<real>, n: nat)
    requires a.inbox == []
    ensures SetpointMotor.IterateMany(Table, a, n).state == a.state
  {
    SetpointMotor.IdleHolds(Table, a, n);
  }
}

=== FILE: clicker.dfy ===
/** The older cube task (Clicker.cpp): the same clicker, intake and can lifter as
    module `Cube`, with an earlier version of the autocycle machine.  Nothing in
    this task ever switches the autocycle on, so its machine is unreachable; it is
    modelled all the same, as written.

    The motor outputs `fClickerRaise`, `fClickerLower`, `fLifterRaise`,
    `fLifterLower` and `fIntake` are defined neither in Clicker.h nor in
    RobotParams.h, the project headers Clicker.cpp includes, so they are a
    parameter. */
module Clicker {
  import opened Messages
  import ComponentBase

  /** `CUBECLICKER_MAX_TOTES` (RobotParams.h). */
  const MaxTotes: int := 6

  /** The drop output of BottomHold while the bottom sensor is set. */
  const HoldDrop: real := 0.25

  datatype Outputs = Outputs(clickerRaise: real, clickerLower: real, lifterRaise: real, lifterLower: real, intake: real)

  datatype ClickerState = ClickerRaise | ClickerLower | ClickerTop | ClickerBottom | ClickerBottomHold
  datatype LifterState = LifterBottom | LifterRaise | LifterTop | LifterLower

  datatype Clicker = Clicker(
    clicker: real, intake: real, lifter: real,
    clickerState: ClickerState, lifterState: LifterState,
    autoCycle: bool, autoIntake: bool,
    totes: int)

  datatype Sensors = Sensors(irBlocked: bool, clickerBottom: bool, clickerTop: bool, lifterBottom: bool, lifterTop: bool)

  /** The constructor: clicker at the top, lifter at the bottom, autocycle off.  The
      count starts at 1 from its in-class initialiser; the motors have not been
      written. */
  function Create(): (c: Clicker)
    ensures !c.autoCycle && !c.autoIntake && c.totes == 1
    ensures c.clickerState == ClickerTop && c.lifterState == LifterBottom
  {
    Clicker(0.0, 0.0, 0.0, ClickerTop, LifterBottom, false, false, 1)
  }

  /** OnStateChange: every branch stops the clicker and the intake and switches the
      autocycle off; nothing else changes. */
  function OnStateChange(c: Clicker, m: Message): (r: Clicker)
    ensures r.clicker == 0.0 && r.intake == 0.0 && !r.autoCycle
    ensures r.(clicker := c.clicker, intake := c.intake, autoCycle := c.autoCycle) == c
  {
    c.(clicker := 0.0, intake := 0.0, autoCycle := false)
  }

  /** The command switch of Run. */
  function Command(o: Outputs, c: Clicker, command: Command): (r: Clicker)
    ensures r.autoCycle == c.autoCycle && r.totes == c.totes
    ensures r.clickerState == c.clickerState && r.lifterState == c.lifterState
    ensures command == CubeIntakeRun ==> r.intake == o.intake && r.autoIntake
  {
    match command
    case CubeClickerRaise => if c.autoCycle then c else c.(clicker := o.clickerRaise)
    case CubeClickerLower => if c.autoCycle then c else c.(clicker := o.clickerLower)
    case CanLifterRaise => if c.autoCycle then c else c.(lifter := o.lifterRaise)
    case CanLifterLower => if c.autoCycle then c else c.(lifter := o.lifterLower)
    case CubeIntakeRun => c.(intake := o.intake, autoIntake := true)
    case CubeIntakeStop => if c.autoCycle then c else c.(autoIntake := false, intake := 0.0)
    case CubeStop => if c.autoCycle then c else c.(intake := 0.0, clicker := 0.0, lifter := 0.0)
    case _ => c
  }

  // The output helpers of the machine.

  /** Top: the clicker rests and the intake pulls the next tote in. */
  function Top(o: Outputs, c: Clicker): (r: Clicker)
    ensures r.clicker == 0.0 && r.intake == o.intake
    ensures r.(clicker := c.clicker, intake := c.intake) == c
  {
    c.(clicker := 0.0, intake := o.intake)
  }

  /** Bottom: both the clicker and the intake stop. */
  function Bottom(c: Clicker): (r: Clicker)
    ensures r.clicker == 0.0 && r.intake == 0.0
    ensures r.(clicker := c.clicker, intake := c.intake) == c
  {
    c.(clicker := 0.0, intake := 0.0)
  }

  /** Raise: the clicker goes up with the intake running. */
  function Raise(o: Outputs, c: Clicker): (r: Clicker)
    ensures r.clicker == o.clickerRaise && r.intake == o.intake
    ensures r.(clicker := c.clicker, intake := c.intake) == c
  {
    c.(clicker := o.clickerRaise, intake := o.intake)
  }

  /** Lower: the clicker goes down with the intake stopped. */
  function Lower(o: Outputs, c: Clicker): (r: Clicker)
    ensures r.clicker == o.clickerLower && r.intake == 0.0
    ensures r.(clicker := c.clicker, intake := c.intake) == c
  {
    c.(clicker := o.clickerLower, intake := 0.0)
  }

  /** BottomHold: drop gently while the bottom sensor is set, otherwise release. */
  function BottomHold(c: Clicker, hallEffect: bool): (r: Clicker)
    ensures r.clicker == (if hallEffect then HoldDrop else 0.0)
    ensures r.(clicker := c.clicker) == c
  {
    if hallEffect then c.(clicker := HoldDrop) else c.(clicker := 0.0)
  }

  /** Reset: empty the count and send each machine back toward its resting state,
      unless it is already there. */
  function Reset(c: Clicker): (r: Clicker)
    ensures r.totes == 0
    ensures r.clickerState == (if c.clickerState == ClickerTop then ClickerTop else ClickerRaise)
    ensures r.lifterState == (if c.lifterState == LifterBottom then LifterBottom else LifterLower)
    ensures r.(totes := c.totes, clickerState := c.clickerState, lifterState := c.lifterState) == c
  {
    c.(totes := 0,
       clickerState := if c.clickerState != ClickerTop then ClickerRaise else c.clickerState,
       lifterState := if c.lifterState != LifterBottom then LifterLower else c.lifterState)
  }

  /** The BOTTOM state.  Its first `if` is not followed by `else`: a count of
      MAX-1 takes the first branch, then, not being MAX, also the final `else`,
      whose RAISE overwrites the first branch's BOTTOMHOLD. */
  function AtBottom(o: Outputs, c: Clicker): (r: Clicker)
    // only a count already at the maximum holds at the bottom
    ensures r.clickerState == ClickerBottomHold <==> c.totes == MaxTotes
    ensures c.totes == MaxTotes ==> r.totes == c.totes && r.clicker == c.clicker
    // any other count is bumped and the clicker goes back up, the MAX-1 count included
    ensures c.totes != MaxTotes ==>
              r.clickerState == ClickerRaise && r.totes == c.totes + 1 && r.clicker == o.clickerRaise
    // the MAX-1 count still starts the lifter up
    ensures r.lifterState == (if c.totes == MaxTotes - 1 then LifterRaise else c.lifterState)
    ensures r.lifter == c.lifter && r.autoCycle == c.autoCycle
  {
    var c1 := if c.totes == MaxTotes - 1 then c.(clickerState := ClickerBottomHold, lifterState := LifterRaise) else c;
    if c1.totes == MaxTotes then c1.(clickerState := ClickerBottomHold)
    else Raise(o, c1.(totes := c1.totes + 1, clickerState := ClickerRaise))
  }

  /** One step of the clicker machine. */
  function ClickerStep(o: Outputs, c: Clicker, s: Sensors): (r: Clicker)
    // the clicker machine never drives the lifter motor or changes the modes
    ensures r.lifter == c.lifter && r.autoCycle == c.autoCycle && r.autoIntake == c.autoIntake
    // the count grows by one at the bottom, or is emptied when the stack is taken
    ensures || r.totes == c.totes
            || (r.totes == c.totes + 1 && (c.clickerState == ClickerBottom || c.clickerState == ClickerBottomHold))
            || (r.totes == 0 && c.clickerState == ClickerBottomHold && !s.irBlocked)
    // an end of the travel is reached only on that end's sensor, and lowering
    // starts only when a tote breaks the beam
    ensures r.clickerState == ClickerBottom && c.clickerState != ClickerBottom ==> s.clickerBottom
    ensures r.clickerState == ClickerTop && c.clickerState != ClickerTop ==> s.clickerTop
    ensures r.clickerState == ClickerLower && c.clickerState != ClickerLower ==> s.irBlocked
  {
    match c.clickerState
    case ClickerTop => if s.irBlocked then Lower(o, c.(clickerState := ClickerLower)) else c
    case ClickerLower => if !s.clickerBottom then c else Bottom(c.(clickerState := ClickerBottom))
    case ClickerBottom => AtBottom(o, c)
    case ClickerBottomHold =>
      if !s.irBlocked then Reset(c)
      else if c.lifterState == LifterTop && c.totes == 5 then c.(totes := c.totes + 1, clickerState := ClickerRaise)
      else BottomHold(c, s.clickerBottom)
    case ClickerRaise => if !s.clickerTop then c else Top(o, c.(clickerState := ClickerTop))
  }

  /** One step of the lifter machine.  The LOWER state drives the lifter with the
      raise output. */
  function LifterStep(o: Outputs, c: Clicker, s: Sensors): (r: Clicker)
    // only the lifter's motor and state change
    ensures r.(lifter := c.lifter, lifterState := c.lifterState) == c
    // it leaves a moving state only on that end's sensor
    ensures r.lifterState != c.lifterState ==>
              || (c.lifterState == LifterRaise && r.lifterState == LifterTop && s.lifterTop)
              || (c.lifterState == LifterLower && r.lifterState == LifterBottom && s.lifterBottom)
    // at rest the motor is stopped; in either moving state it gets the raise output
    ensures c.lifterState == LifterBottom || c.lifterState == LifterTop ==> r.lifter == 0.0
    ensures c.lifterState == LifterRaise || c.lifterState == LifterLower ==> r.lifter == o.lifterRaise
  {
    match c.lifterState
    case LifterBottom => c.(lifter := 0.0)
    case LifterRaise => (if s.lifterTop then c.(lifterState := LifterTop) else c).(lifter := o.lifterRaise)
    case LifterTop => c.(lifter := 0.0)
    case LifterLower => (if s.lifterBottom then c.(lifterState := LifterBottom) else c).(lifter := o.lifterRaise)
  }

  /** Run: the command switch, then, with the autocycle on, one step of each machine. */
  function Run(o: Outputs, c: Clicker, m: Message, s: Sensors): (r: Clicker)
    // no command switches the autocycle either way
    ensures r.autoCycle == c.autoCycle
    // with the autocycle off, the machines and the count stay where they are
    ensures !c.autoCycle ==>
              r.clickerState == c.clickerState && r.lifterState == c.lifterState && r.totes == c.totes
    // with the autocycle off, the intake-run command runs the intake and turns
    // the auto-intake flag on
    ensures !c.autoCycle && m.command == CubeIntakeRun ==> r.intake == o.intake && r.autoIntake
  {
    var d := Command(o, c, m.command);
    if d.autoCycle then LifterStep(o, ClickerStep(o, d, s), s) else d
  }

  function Iterate(o: Outputs, a: ComponentBase.Actor<Clicker>, s: Sensors): ComponentBase.Actor<Clicker> {
    ComponentBase.Iterate(a, OnStateChange, (c, m) => Run(o, c, m, s))
  }

  // ---------------------------------------------------------------------------
  // Properties
  // ---------------------------------------------------------------------------

  /** The autocycle is off from the start and no pass of the task loop turns it on,
      so the machines never run. */
  lemma AutoCycleStaysOff(o: Outputs, a: ComponentBase.Actor<Clicker>, s: Sensors)
    requires !a.state.autoCycle
    ensures !Iterate(o, a, s).state.autoCycle
    ensures var r := Iterate(o, a, s).state;
            r.clickerState == a.state.clickerState && r.lifterState == a.state.lifterState && r.totes == a.state.totes
  {
  }

  /** The manual motor commands are ignored while the autocycle is on; the intake
      run command is not, and always runs the intake. */
  lemma ManualLockedOut(o: Outputs, c: Clicker, command: Command)
    requires c.autoCycle
    requires command in [CubeClickerRaise, CubeClickerLower, CanLifterRaise, CanLifterLower, CubeIntakeStop, CubeStop]
    ensures Command(o, c, command) == c
  {
  }

  /** The BOTTOM state, as written: a full cube holds; a count one short of full
      is counted up to full and goes up again, with the lifter told to raise;
      any other count is counted up and goes up. */
  lemma BottomFallThrough(o: Outputs, c: Clicker)
    requires c.clickerState == ClickerBottom
    ensures var r := AtBottom(o, c);
            && (c.totes == MaxTotes ==> r == c.(clickerState := ClickerBottomHold))
            && (c.totes == MaxTotes - 1 ==>
                  r.clickerState == ClickerRaise && r.totes == MaxTotes && r.lifterState == LifterRaise
                  && r.clicker == o.clickerRaise)
            && (c.totes != MaxTotes && c.totes != MaxTotes - 1 ==>
                  r.clickerState == ClickerRaise && r.totes == c.totes + 1 && r.lifterState == c.lifterState)
            && (r.clickerState == ClickerBottomHold <==> c.totes == MaxTotes)
  {
  }

  /** The lifter machine moves on only on its sensor: RAISE to TOP on the top
      sensor, LOWER to BOTTOM on the bottom sensor, and both drive the raise output. */
  lemma LifterTransitions(o: Outputs, c: Clicker, s: Sensors)
    ensures var r := LifterStep(o, c, s);
            && (c.lifterState == LifterRaise ==>
                  r.lifter == o.lifterRaise && (r.lifterState == LifterTop <==> s.lifterTop))
            && (c.lifterState == LifterLower ==>
                  r.lifter == o.lifterRaise && (r.lifterState == LifterBottom <==> s.lifterBottom))
            && (c.lifterState == LifterBottom || c.lifterState == LifterTop ==> r == c.(lifter := 0.0))
  {
  }
}

=== FILE: component_base.dfy ===
/** The supervisor loop every component task runs (ComponentBase.cpp).  A task owns
    one inbound pipe, modelled as the sequence of messages written to it and not yet
    read; "nothing arrived within the receive timeout" is an empty inbox.  A
    component's `OnStateChange` and `Run` hooks are pure functions over its state. */
module ComponentBase {
  import opened Wrappers
  import opened Messages

  /** A component task: its pipe, the message being processed (`localMessage`),
      the last processed tag (never set before the first iteration), the loop
      counter and the component's own state. */
  datatype Actor<S> = Actor(inbox: seq<Message>, local: Message, lastCommand: Option<Command>,
                            loop: nat, state: S)

  /** The base-class constructor: loop counter 0, nothing received yet.  `local`
      stands for the uninitialised `localMessage`. */
  function Create<S>(state: S, local: Message): Actor<S> {
    Actor([], local, None, 0, state)
  }

  /** The message the next receive hands to the hooks: the oldest queued one, or
      the previous message relabelled as a timeout (only its command is overwritten). */
  function Next<S>(a: Actor<S>): (m: Message)
    ensures |a.inbox| > 0 ==> m == a.inbox[0]
    // a timeout keeps the previous message's reply pipe and parameters
    ensures |a.inbox| == 0 ==>
              m.command == SystemMsgTimeout && m.replyQ == a.local.replyQ && m.params == a.local.params
  {
    if |a.inbox| == 0 then a.local.(command := SystemMsgTimeout) else a.inbox[0]
  }

  /** ReceiveMessage: take the oldest message, or synthesise a timeout. */
  function ReceiveMessage<S>(a: Actor<S>): (r: Actor<S>)
    ensures |a.inbox| == 0 ==> r.local.command == SystemMsgTimeout && r.inbox == []
    ensures |a.inbox| == 0 ==> r.local.replyQ == a.local.replyQ && r.local.params == a.local.params
    ensures |a.inbox| > 0 ==> a.inbox == [r.local] + r.inbox
    ensures r.state == a.state && r.loop == a.loop && r.lastCommand == a.lastCommand
  {
    if |a.inbox| == 0 then a.(local := a.local.(command := SystemMsgTimeout))
    else a.(inbox := a.inbox[1..], local := a.inbox[0])
  }

  /** SendMessage: another task writes a copy of `m` to this task's pipe. */
  function SendMessage<S>(a: Actor<S>, m: Message): (r: Actor<S>)
    ensures r.inbox == a.inbox + [m]
    ensures |r.inbox| == |a.inbox| + 1 && r.inbox[|a.inbox|] == m
    ensures r.(inbox := a.inbox) == a
  {
    a.(inbox := a.inbox + [m])
  }

  /** ClearMessages: drain the pipe and make the current message an innocuous
      timeout.  Nothing in the program calls it. */
  function ClearMessages<S>(a: Actor<S>): (r: Actor<S>)
    ensures r.inbox == []
    ensures r.local.command == SystemMsgTimeout
    ensures r.state == a.state && r.loop == a.loop && r.lastCommand == a.lastCommand
    ensures r.local.params == a.local.params && r.local.replyQ == a.local.replyQ
  {
    a.(inbox := [], local := a.local.(command := SystemMsgTimeout))
  }

  /** SendCommandResponse: a reply carrying `command` goes to the reply pipe named
      by the message being processed.  Only the reply's command is set in the
      source; its other fields are modelled as empty.  With no reply pipe the
      source's open fails its assert: here there is no send.  Nothing in the
      program calls it. */
  function SendCommandResponse<S>(a: Actor<S>, command: Command): (r: Option<Send>)
    ensures r.Some? <==> a.local.replyQ.Some?
    ensures r.Some? ==> r.value.to == a.local.replyQ.value && r.value.msg.command == command
  {
    match a.local.replyQ
    case None => None
    case Some(q) => Some(Send(q, Message(command, None, NoParams)))
  }

  /** One pass of the `DoWork` loop body. */
  function Iterate<S>(a: Actor<S>, onStateChange: (S, Message) -> S, run: (S, Message) -> S): (r: Actor<S>)
    ensures r.local == Next(a)
    ensures r.lastCommand == Some(Next(a).command)
    ensures r.loop == a.loop + 1
    ensures |a.inbox| > 0 ==> r.inbox == a.inbox[1..]
    ensures |a.inbox| == 0 ==> r.inbox == []
  {
    var b := ReceiveMessage(a);
    var m := b.local;
    var s := if IsStateChange(m.command) then onStateChange(b.state, m) else b.state;
    b.(state := run(s, m), lastCommand := Some(m.command), loop := a.loop + 1)
  }

  /** `n` passes of the loop with no other task writing in between. */
  function IterateMany<S>(a: Actor<S>, n: nat, onStateChange: (S, Message) -> S, run: (S, Message) -> S): Actor<S>
    decreases n
  {
    if n == 0 then a else IterateMany(Iterate(a, onStateChange, run), n - 1, onStateChange, run)
  }

  /** Records which hook was called with which message. */
  datatype Hook = OnStateChangeCall(m: Message) | RunCall(m: Message)

  function TraceStateChange(t: seq<Hook>, m: Message): seq<Hook> { t + [OnStateChangeCall(m)] }
  function TraceRun(t: seq<Hook>, m: Message): seq<Hook> { t + [RunCall(m)] }

  /** Each pass calls `OnStateChange` exactly when the tag is one of the five mode
      tags, always calls `Run` afterwards, and hands both the received message. */
  lemma HooksPerIteration(a: Actor<seq<Hook>>)
    ensures var m := Next(a);
            Iterate(a, TraceStateChange, TraceRun).state
              == a.state + (if IsStateChange(m.command) then [OnStateChangeCall(m), RunCall(m)] else [RunCall(m)])
  {
  }

  /** The loop counter counts passes exactly: from creation, after `n` passes it is `n`. */
  lemma {:induction false} LoopCounts<S>(a: Actor<S>, n: nat, onStateChange: (S, Message) -> S, run: (S, Message) -> S)
    ensures IterateMany(a, n, onStateChange, run).loop == a.loop + n
    decreases n
  {
    if n > 0 {
      LoopCounts(Iterate(a, onStateChange, run), n - 1, onStateChange, run);
    }
  }

  function Ignore(t: seq<Message>, m: Message): seq<Message> { t }
  function Log(t: seq<Message>, m: Message): seq<Message> { t + [m] }

  /** One logging pass over a non-empty pipe takes its oldest message. */
  lemma LogPass(a: Actor<seq<Message>>)
    requires |a.inbox| > 0
    ensures Iterate(a, Ignore, Log).state == a.state + [a.inbox[0]]
    ensures Iterate(a, Ignore, Log).inbox == a.inbox[1..]
  {
  }

  /** FIFO: `n` passes over a pipe holding at least `n` messages hand `Run` exactly
      the first `n` of them, oldest first, and leave the rest queued in order. */
  lemma {:induction false} ProcessesInOrder(a: Actor<seq<Message>>, n: nat)
    requires n <= |a.inbox|
    ensures IterateMany(a, n, Ignore, Log).state == a.state + a.inbox[..n]
    ensures IterateMany(a, n, Ignore, Log).inbox == a.inbox[n..]
    decreases n
  {
    if n > 0 {
      var b := Iterate(a, Ignore, Log);
      LogPass(a);
      ProcessesInOrder(b, n - 1);
      SplitFirst(a.state, a.inbox, n);
    }
  }

  /** Taking `n` from a pipe is taking its first message and then `n - 1` more. */
  lemma SplitFirst(s: seq<Message>, inbox: seq<Message>, n: nat)
    requires 0 < n <= |inbox|
    ensures (s + [inbox[0]]) + inbox[1..][..n - 1] == s + inbox[..n]
    ensures inbox[1..][n - 1..] == inbox[n..]
  {
    assert inbox[..n] == [inbox[0]] + inbox[1..][..n - 1];
  }

  /** `n` copies of `m`. */
  function Repeat(m: Message, n: nat): (r: seq<Message>)
    ensures |r| == n && forall i :: 0 <= i < n ==> r[i] == m
  {
    seq(n, _ => m)
  }

  /** With an empty pipe every pass is a timeout pass: `Run` sees `n` copies of the
      current message relabelled as a timeout. */
  lemma {:induction false} IdlePassesAreTimeouts(a: Actor<seq<Message>>, n: nat)
    requires a.inbox == []
    ensures var r := IterateMany(a, n, Ignore, Log);
            && r.state == a.state + Repeat(a.local.(command := SystemMsgTimeout), n)
            && r.inbox == []
            && (n > 0 ==> r.lastCommand == Some(SystemMsgTimeout))
    decreases n
  {
    if n > 0 {
      var t := a.local.(command := SystemMsgTimeout);
      var b := Iterate(a, Ignore, Log);
      assert b.state == a.state + [t];
      assert b.local.(command := SystemMsgTimeout) == t;
      IdlePassesAreTimeouts(b, n - 1);
      assert Repeat(t, n) == [t] + Repeat(t, n - 1);
      if n == 1 {
        assert IterateMany(b, n - 1, Ignore, Log) == b;
      }
    }
  }
}

=== FILE: conveyor.dfy ===
/** The conveyor task (Conveyor.cpp): the pallet jack's conveyor belt and its left
    and right vertical intakes.  The three speeds `fConveyorSpeed`, `fIntakeSpeed`
    and `fAdjustSpeed` are defined neither in Conveyor.h nor in RobotParams.h,
    the project headers Conveyor.cpp includes, so they are a parameter. */
module Conveyor {
  import opened Messages
  import ComponentBase

  datatype Speeds = Speeds(conveyor: real, intake: real, adjust: real)

  /** `limits` is whether the conveyor's limit-switch inputs are honoured
      (`kLimitMode_SwitchInputsOnly`) or ignored (`kLimitMode_SrxDisableSwitchInputs`). */
  datatype Conveyor = Conveyor(conveyor: real, left: real, right: real, limits: bool)

  /** The constructor honours the limit switches; the motors have not been written
      and are modelled at rest. */
  function Create(): (c: Conveyor)
    ensures c.limits
  {
    Conveyor(0.0, 0.0, 0.0, true)
  }

  /** OnStateChange: every mode stops all three motors and leaves the limit mode. */
  function OnStateChange(c: Conveyor, m: Message): (r: Conveyor)
    ensures r.conveyor == 0.0 && r.left == 0.0 && r.right == 0.0 && r.limits == c.limits
  {
    c.(conveyor := 0.0, left := 0.0, right := 0.0)
  }

  /** Run: the command switch.  Forward belt motion ignores the limit switches,
      backward motion and the belt stop restore them; the intakes have their own
      commands, singly and together. */
  function Run(sp: Speeds, c: Conveyor, m: Message): (r: Conveyor)
    // a timeout or a mode change reaching the switch leaves every motor running
    ensures m.command == SystemMsgTimeout || IsStateChange(m.command) ==> r == c
    // the limit switches are ignored only while the belt runs forward, or if
    // they already were
    ensures !r.limits ==> r.conveyor == -sp.conveyor || !c.limits
  {
    Apply(sp, c, m.command)
  }

  /** What one command does to the motors. */
  function Apply(sp: Speeds, c: Conveyor, command: Command): (r: Conveyor)
    // forward belt motion ignores the limit switches, backward motion honours
    // them, and the two run the belt in opposite directions
    ensures command in {ConveyorRunFwd, ConveyorRunAllFwd} ==> !r.limits && r.conveyor == -sp.conveyor
    ensures command in {ConveyorRunBck, ConveyorRunAllBck} ==> r.limits && r.conveyor == sp.conveyor
    ensures command == ConveyorStop ==> r.limits && r.conveyor == 0.0
    // the limit mode changes only with those five belt commands
    ensures command !in {ConveyorRunFwd, ConveyorRunAllFwd, ConveyorRunBck, ConveyorRunAllBck, ConveyorStop} ==>
              r.limits == c.limits
    // the paired intake commands turn the two sides in opposite directions
    ensures command in {ConveyorIntakeBothIn, ConveyorIntakeBothOut, ConveyorRunAllFwd, ConveyorRunAllBck} ==>
              r.left == -r.right
    ensures command in {ConveyorIntakeBothStop, ConveyorRunAllStop} ==> r.left == 0.0 && r.right == 0.0
  {
    match command
    case ConveyorRunFwd => c.(limits := false, conveyor := -sp.conveyor)
    case ConveyorRunBck => c.(limits := true, conveyor := sp.conveyor)
    case ConveyorStop => c.(limits := true, conveyor := 0.0)
    case ConveyorIntakeLeftIn => c.(left := -sp.intake)
    case ConveyorIntakeLeftOut => c.(left := sp.intake)
    case ConveyorIntakeLeftStop => c.(left := 0.0)
    case ConveyorIntakeRightIn => c.(right := sp.intake)
    case ConveyorIntakeRightOut => c.(right := -sp.intake)
    case ConveyorIntakeRightStop => c.(right := 0.0)
    case ConveyorIntakeBothIn => c.(left := -sp.intake, right := sp.intake)
    case ConveyorIntakeBothOut => c.(left := sp.intake, right := -sp.intake)
    case ConveyorIntakeBothStop => c.(left := 0.0, right := 0.0)
    case ConveyorRunAllFwd => c.(limits := false, conveyor := -sp.conveyor, left := sp.intake, right := -sp.intake)
    case ConveyorRunAllBck => c.(limits := true, conveyor := sp.conveyor, left := -sp.intake, right := sp.intake)
    case ConveyorRunAllStop => c.(conveyor := 0.0, left := 0.0, right := 0.0)
    case ConveyorCanAdjustBoth => c.(conveyor := sp.conveyor, left := sp.adjust, right := -sp.adjust)
    case ConveyorCanAdjustLeft => c.(conveyor := sp.conveyor, left := sp.adjust, right := sp.intake)
    case ConveyorCanAdjustRight => c.(conveyor := sp.conveyor, left := -sp.intake, right := -sp.adjust)
    case _ => c
  }

  function Iterate(sp: Speeds, a: ComponentBase.Actor<Conveyor>): ComponentBase.Actor<Conveyor> {
    ComponentBase.Iterate(a, OnStateChange, (c, m) => Run(sp, c, m))
  }

  predicate LeftOnly(c: Command) {
    c == ConveyorIntakeLeftIn || c == ConveyorIntakeLeftOut || c == ConveyorIntakeLeftStop
  }

  predicate RightOnly(c: Command) {
    c == ConveyorIntakeRightIn || c == ConveyorIntakeRightOut || c == ConveyorIntakeRightStop
  }

  /** The single-intake commands touch their own intake and nothing else, and
      "in" turns the two intakes in opposite directions. */
  lemma SidesIndependent(sp: Speeds, c: Conveyor, m: Message)
    ensures LeftOnly(m.command) ==> Run(sp, c, m).(left := c.left) == c
    ensures RightOnly(m.command) ==> Run(sp, c, m).(right := c.right) == c
    ensures Apply(sp, c, ConveyorIntakeLeftIn).left == -Apply(sp, c, ConveyorIntakeRightIn).right
  {
  }

  /** The left and right commands a both-intake command stands for. */
  function LeftHalf(k: Command): Command {
    if k == ConveyorIntakeBothIn then ConveyorIntakeLeftIn
    else if k == ConveyorIntakeBothOut then ConveyorIntakeLeftOut
    else ConveyorIntakeLeftStop
  }

  function RightHalf(k: Command): Command {
    if k == ConveyorIntakeBothIn then ConveyorIntakeRightIn
    else if k == ConveyorIntakeBothOut then ConveyorIntakeRightOut
    else ConveyorIntakeRightStop
  }

  /** The both-intake commands do what the two single commands do one after the other. */
  lemma BothIsLeftThenRight(sp: Speeds, c: Conveyor, k: Command)
    requires k == ConveyorIntakeBothIn || k == ConveyorIntakeBothOut || k == ConveyorIntakeBothStop
    ensures Apply(sp, c, k) == Apply(sp, Apply(sp, c, LeftHalf(k)), RightHalf(k))
  {
  }

  /** Running everything backward is running everything forward with every motor
      reversed and the limit switches honoured again.  (Forward turns the intakes
      outward and backward turns them inward.) */
  lemma RunAllReverses(sp: Speeds, c: Conveyor)
    ensures var f := Apply(sp, c, ConveyorRunAllFwd);
            var b := Apply(sp, c, ConveyorRunAllBck);
            && b.conveyor == -f.conveyor && b.left == -f.left && b.right == -f.right
            && !f.limits && b.limits
            && f.left == Apply(sp, c, ConveyorIntakeLeftOut).left
            && b.left == Apply(sp, c, ConveyorIntakeLeftIn).left
  {
  }

  /** The limit switches are ignored after a pass exactly when its command ran the
      belt forward, or they were already ignored and the command did not set the
      limit mode. */
  lemma LimitMode(sp: Speeds, c: Conveyor, m: Message)
    ensures var k := m.command;
            !Run(sp, c, m).limits <==>
              (k == ConveyorRunFwd || k == ConveyorRunAllFwd
               || (!c.limits && k !in [ConveyorRunBck, ConveyorStop, ConveyorRunAllBck]))
  {
  }

  /** Stopping everything zeroes the three motors and leaves the limit mode; a
      timeout, and any command the switch does not list, changes nothing. */
  lemma StopsAndIgnores(sp: Speeds, c: Conveyor, m: Message)
    ensures m.command == ConveyorRunAllStop ==> Run(sp, c, m) == c.(conveyor := 0.0, left := 0.0, right := 0.0)
    ensures m.command == SystemMsgTimeout || IsStateChange(m.command) || m.command == Ignore ==> Run(sp, c, m) == c
  {
  }

  /** A pass of the task loop on a mode change stops all three motors, and a pass
      with no message changes nothing. */
  lemma PassesThatStop(sp: Speeds, a: ComponentBase.Actor<Conveyor>)
    ensures IsStateChange(ComponentBase.Next(a).command) ==>
              var r := Iterate(sp, a).state;
              r.conveyor == 0.0 && r.left == 0.0 && r.right == 0.0
    ensures a.inbox == [] ==> Iterate(sp, a).state == a.state
  {
  }
}

=== FILE: cube.dfy ===
/** The cube task (Cube.cpp): a clicker that lifts totes one at a time into the
    cube, an intake roller, and a can lifter, driven either by manual commands or
    by two coupled state machines (the "autocycle").

    Motor outputs are the last value written to each motor.  The three timers the
    task consults are reset times; `now` is the clock reading of the pass.  The
    sensors are read fresh by the state that uses them, so they are an input of
    the pass. */
module Cube {
  import opened Messages
  import ComponentBase

  // Motor outputs from Cube.h.
  const RaiseLifter: real := -1.0
  const LowerLifter: real := 1.0
  const StopLifter: real := 0.0
  const RaiseClicker: real := 1.0
  const LowerClicker: real := -1.0
  const StopClicker: real := 0.0
  const RunIntake: real := -0.5
  const StopIntake: real := 0.0

  /** The safety timer's limit, the state machine's period and the pause between
      two stacks, in seconds. */
  const SafetyLimit: real := 30.0
  const CyclePeriod: real := 0.02
  const InterCycleDelay: real := 2.5

  /** Totes in a full stack, and in a stack with the can on top. */
  const FullStack: int := 5
  const StackWithCan: int := 6

  datatype ClickerState = ClickerRaise | ClickerLower | ClickerTop | ClickerBottom | ClickerBottomHold | ClickerDelayAfterCycle
  datatype LifterState = LifterBottom | LifterRaise | LifterTop | LifterLower | LifterWaitTillRaise

  datatype Cube = Cube(
    clicker: real, intake: real, lifter: real,
    clickerState: ClickerState, lifterState: LifterState,
    autoCycle: bool, okToRaiseCan: bool,
    clickerPaused: real, lifterPaused: real,
    totes: int,
    safetyAt: real, cycleAt: real, interCycleAt: real)

  /** The beam across the intake and the four hall-effect limit sensors. */
  datatype Sensors = Sensors(irBlocked: bool, clickerBottom: bool, clickerTop: bool, lifterBottom: bool, lifterTop: bool)

  /** The constructor, at time `now`: both machines at their top state, autocycle
      off, no totes, every timer just started.  The motors have not been written. */
  function Create(now: real): (c: Cube)
    ensures !c.autoCycle && !c.okToRaiseCan && c.totes == 0
    ensures c.clickerState == ClickerTop && c.lifterState == LifterTop
  {
    Cube(0.0, 0.0, 0.0, ClickerTop, LifterTop, false, false, 0.0, 0.0, 0, now, now, now)
  }

  /** The modes in which the intake runs. */
  predicate RunningMode(command: Command) {
    command == StateAutonomous || command == StateTest || command == StateTeleoperated
  }

  /** OnStateChange: in the autonomous, test and teleoperated modes only the intake
      is started; in any other mode every motor stops, the safety timer restarts
      and the autocycle is switched off. */
  function OnStateChange(c: Cube, m: Message, now: real): (r: Cube)
    ensures RunningMode(m.command) ==> r == c.(intake := RunIntake)
    ensures !RunningMode(m.command) ==>
              && r.intake == StopIntake && r.clicker == StopClicker && r.lifter == StopLifter
              && !r.autoCycle && r.safetyAt == now
              && r.(intake := c.intake, clicker := c.clicker, lifter := c.lifter, autoCycle := c.autoCycle,
                    safetyAt := c.safetyAt) == c
  {
    if RunningMode(m.command) then c.(intake := RunIntake)
    else c.(intake := StopIntake, clicker := StopClicker, lifter := StopLifter, safetyAt := now, autoCycle := false)
  }

  /** The manual commands, which the autocycle locks out. */
  predicate Manual(command: Command) {
    || command == CubeClickerRaise || command == CubeClickerLower || command == CubeClickerStop
    || command == CanLifterRaise || command == CanLifterLower || command == CanLifterStop
    || command == CubeIntakeRun || command == CubeIntakeStop || command == CubeStop
  }

  /** The command switch of Run.  Every manual command, and every autocycle
      command that acts, restarts the safety timer. */
  function Command(c: Cube, command: Command, now: real): (r: Cube)
    ensures r.clickerState != c.clickerState ==> command == CubeAutoCycleStart
    ensures r.totes != c.totes ==>
              command in [CubeAutoCycleStart, CubeAutoCycleStop, CubeAutoCycleIncrementCount, CubeAutoCycleDecrementCount]
    ensures !Manual(command) && !IsAutoCycleCommand(command) ==> r == c
  {
    var t := c.(safetyAt := now);
    match command
    case CubeClickerRaise => if c.autoCycle then c else t.(clicker := RaiseClicker)
    case CubeClickerLower => if c.autoCycle then c else t.(clicker := LowerClicker)
    case CubeClickerStop => if c.autoCycle then c else t.(clicker := StopClicker)
    case CanLifterRaise => if c.autoCycle then c else t.(lifter := RaiseLifter)
    case CanLifterLower => if c.autoCycle then c else t.(lifter := LowerLifter)
    case CanLifterStop => if c.autoCycle then c else t.(lifter := StopLifter)
    case CubeIntakeRun => if c.autoCycle then c else t.(intake := RunIntake)
    // the intake stop itself is commented out
    case CubeIntakeStop => if c.autoCycle then c else t
    case CubeStop =>
      if c.autoCycle then c
      else t.(clicker := StopClicker, lifter := StopLifter, clickerPaused := 0.0, lifterPaused := 0.0)
    case CubeAutoCycleStart =>
      if c.autoCycle then c
      else t.(autoCycle := true, okToRaiseCan := false, clickerPaused := 0.0, lifterPaused := 0.0,
              clickerState := ClickerRaise, lifterState := LifterLower, intake := RunIntake, totes := 0)
    case CubeAutoCycleStop =>
      if !c.autoCycle then c
      else t.(autoCycle := false, okToRaiseCan := false, clicker := StopClicker, lifter := StopLifter, totes := 0)
    case CubeAutoCyclePause =>
      if !c.autoCycle then c
      else t.(autoCycle := false, clickerPaused := c.clicker, lifterPaused := c.lifter,
              clicker := StopClicker, lifter := StopLifter)
    case CubeAutoCycleResume =>
      if !c.autoCycle then c
      else t.(clicker := c.clickerPaused, lifter := c.lifterPaused, intake := RunIntake, autoCycle := true)
    case CubeAutoCycleOkToRaiseCan => c.(okToRaiseCan := true)
    case CubeAutoCycleIncrementCount => if 0 <= c.totes <= 4 then c.(totes := c.totes + 1) else c
    case CubeAutoCycleDecrementCount => if 0 < c.totes <= 4 then c.(totes := c.totes - 1) else c
    case _ => c
  }

  predicate IsAutoCycleCommand(command: Command) {
    || command == CubeAutoCycleStart || command == CubeAutoCycleStop || command == CubeAutoCyclePause
    || command == CubeAutoCycleResume || command == CubeAutoCycleOkToRaiseCan
    || command == CubeAutoCycleIncrementCount || command == CubeAutoCycleDecrementCount
  }

  /** The safety timeout: once the timer has run past its limit the clicker and
      lifter stop and the timer restarts. */
  function Safety(c: Cube, now: real): (r: Cube)
    ensures now - c.safetyAt > SafetyLimit ==>
              r.clicker == StopClicker && r.lifter == StopLifter && r.safetyAt == now
              && r.(clicker := c.clicker, lifter := c.lifter, safetyAt := c.safetyAt) == c
    ensures now - c.safetyAt <= SafetyLimit ==> r == c
  {
    if now - c.safetyAt > SafetyLimit then c.(clicker := StopClicker, lifter := StopLifter, safetyAt := now) else c
  }

  /** One step of the clicker machine.  `topHold` is the output that keeps the
      clicker up while it waits at the top (`fClickerTopHold`, which neither Cube.h
      nor RobotParams.h defines). */
  function ClickerStep(c: Cube, s: Sensors, now: real, topHold: real): (r: Cube)
    // the count moves only when a tote reaches the top or a finished stack is taken
    ensures || r.totes == c.totes
            || (c.clickerState == ClickerTop && s.irBlocked && r.totes == c.totes + 1)
            || (c.clickerState == ClickerBottomHold && !s.irBlocked && c.totes == StackWithCan && r.totes == 0)
    // the clicker machine drives neither the lifter motor nor the intake, and
    // leaves the autocycle flag and the two timers the tick owns
    ensures r.lifter == c.lifter && r.intake == c.intake && r.autoCycle == c.autoCycle
    ensures r.safetyAt == c.safetyAt && r.cycleAt == c.cycleAt
    // it moves the lifter machine only when a stack is complete or a new stack begins
    ensures r.lifterState != c.lifterState ==>
              || (r.lifterState == LifterWaitTillRaise && r.totes == FullStack)
              || (c.clickerState == ClickerDelayAfterCycle && r.lifterState == LifterLower)
    // it reaches an end of its travel only on that end's sensor
    ensures r.clickerState == ClickerBottom && c.clickerState != ClickerBottom ==> s.clickerBottom
    ensures r.clickerState == ClickerTop && c.clickerState != ClickerTop ==> s.clickerTop
  {
    match c.clickerState
    case ClickerTop =>
      if s.irBlocked then
        // a tote broke the beam: count it and lower the clicker
        var full := c.totes + 1 == FullStack;
        c.(totes := c.totes + 1, clickerState := ClickerLower, clicker := LowerClicker,
           lifterState := if full then LifterWaitTillRaise else c.lifterState,
           okToRaiseCan := if full then false else c.okToRaiseCan)
      else c.(clicker := topHold)
    case ClickerLower =>
      if !s.clickerBottom then c.(clicker := LowerClicker) else c.(clickerState := ClickerBottom, clicker := 0.0)
    case ClickerBottom =>
      if c.totes == FullStack || c.totes == StackWithCan then c.(clickerState := ClickerBottomHold)
      else c.(clickerState := ClickerRaise, clicker := RaiseClicker)
    case ClickerBottomHold =>
      if !s.irBlocked && c.totes == StackWithCan then
        // the stack was taken away: start over after a pause
        c.(totes := 0, clickerState := ClickerDelayAfterCycle, interCycleAt := now)
      else if c.lifterState == LifterTop && c.totes == FullStack then c.(clickerState := ClickerRaise)
      else c.(clicker := LowerClicker)
    case ClickerDelayAfterCycle =>
      if now - c.interCycleAt > InterCycleDelay then c.(clickerState := ClickerRaise, lifterState := LifterLower) else c
    case ClickerRaise =>
      if !s.clickerTop then c.(clicker := RaiseClicker) else c.(clickerState := ClickerTop, clicker := 0.0)
  }

  /** One step of the can-lifter machine, run after the clicker's step. */
  function LifterStep(c: Cube, s: Sensors): (r: Cube)
    // only the lifter's motor, state and permission change
    ensures r.(lifter := c.lifter, lifterState := c.lifterState, okToRaiseCan := c.okToRaiseCan) == c
    // it leaves a moving state only on that end's sensor, and the waiting state
    // only with the driver's permission
    ensures r.lifterState != c.lifterState ==>
              || (c.lifterState == LifterRaise && r.lifterState == LifterTop && s.lifterTop)
              || (c.lifterState == LifterLower && r.lifterState == LifterBottom && s.lifterBottom)
              || (c.lifterState == LifterWaitTillRaise && r.lifterState == LifterRaise && c.okToRaiseCan)
    // it never grants the permission itself
    ensures r.okToRaiseCan ==> c.okToRaiseCan
    // at either end the motor is stopped
    ensures r.lifterState == LifterBottom || r.lifterState == LifterTop ==> r.lifter == StopLifter
  {
    match c.lifterState
    case LifterBottom => c.(lifter := 0.0)
    case LifterRaise => if s.lifterTop then c.(lifterState := LifterTop, lifter := 0.0) else c.(lifter := RaiseLifter)
    case LifterWaitTillRaise =>
      // the driver says the can is in place: consume the permission and go up
      if c.okToRaiseCan then c.(okToRaiseCan := false, lifterState := LifterRaise) else c
    case LifterTop => c.(lifter := 0.0)
    case LifterLower => if s.lifterBottom then c.(lifterState := LifterBottom, lifter := 0.0) else c.(lifter := LowerLifter)
  }

  /** The periodic autocycle tick: when enabled and a period has passed, both
      timers restart and both machines take one step. */
  function Tick(c: Cube, s: Sensors, now: real, topHold: real): (r: Cube)
    ensures !c.autoCycle || now - c.cycleAt <= CyclePeriod ==> r == c
    ensures c.autoCycle && now - c.cycleAt > CyclePeriod ==> r.safetyAt == now && r.cycleAt == now && r.autoCycle
  {
    if c.autoCycle && now - c.cycleAt > CyclePeriod then
      LifterStep(ClickerStep(c.(cycleAt := now, safetyAt := now), s, now, topHold), s)
    else c
  }

  /** Run: the command switch, then the safety timeout, then the autocycle tick. */
  function Run(c: Cube, m: Message, s: Sensors, now: real, topHold: real): (r: Cube)
    // only a start command switches the autocycle on, and only a stop or a pause
    // switches it off
    ensures r.autoCycle && !c.autoCycle ==> m.command == CubeAutoCycleStart
    ensures c.autoCycle && !r.autoCycle ==> m.command == CubeAutoCycleStop || m.command == CubeAutoCyclePause
    // stopping a running autocycle empties the count and stops both motors in the same pass
    ensures c.autoCycle && m.command == CubeAutoCycleStop ==>
              r.totes == 0 && r.clicker == StopClicker && r.lifter == StopLifter
  {
    Tick(Safety(Command(c, m.command, now), now), s, now, topHold)
  }

  /** The task's loop pass, with this pass's sensor readings and clock. */
  function Iterate(a: ComponentBase.Actor<Cube>, s: Sensors, now: real, topHold: real): ComponentBase.Actor<Cube> {
    ComponentBase.Iterate(a, (c, m) => OnStateChange(c, m, now), (c, m) => Run(c, m, s, now, topHold))
  }

  // ---------------------------------------------------------------------------
  // Properties
  // ---------------------------------------------------------------------------

  /** While the autocycle runs, the manual commands are locked out: they change
      nothing at all, not even the safety timer. */
  lemma ManualLockedOut(c: Cube, command: Command, now: real)
    requires c.autoCycle && Manual(command)
    ensures Command(c, command, now) == c
  {
  }

  /** Starting the autocycle acts only when it is off; then it resets the count,
      sends the clicker up and the lifter down, and runs the intake. */
  lemma StartOnlyWhenStopped(c: Cube, now: real)
    ensures var r := Command(c, CubeAutoCycleStart, now);
            && (c.autoCycle ==> r == c)
            && (!c.autoCycle ==>
                  && r.autoCycle && r.totes == 0 && !r.okToRaiseCan
                  && r.clickerState == ClickerRaise && r.lifterState == LifterLower && r.intake == RunIntake
                  && r.clicker == c.clicker && r.lifter == c.lifter)
  {
  }

  /** Pausing switches the autocycle off and remembers the motor outputs; a resume
      that follows it finds the autocycle off and does nothing, so a paused cycle
      can only be started again from scratch. */
  lemma ResumeAfterPauseDoesNothing(c: Cube, now: real, later: real)
    requires c.autoCycle
    ensures var p := Command(c, CubeAutoCyclePause, now);
            && !p.autoCycle && p.clicker == StopClicker && p.lifter == StopLifter
            && p.clickerPaused == c.clicker && p.lifterPaused == c.lifter
            && Command(p, CubeAutoCycleResume, later) == p
  {
  }

  /** The manual count adjustments keep a count in 0..5 inside 0..5, and each moves
      it by at most one. */
  lemma CountAdjustmentsBounded(c: Cube, now: real)
    requires 0 <= c.totes <= FullStack
    ensures var up := Command(c, CubeAutoCycleIncrementCount, now).totes;
            var down := Command(c, CubeAutoCycleDecrementCount, now).totes;
            && 0 <= up <= FullStack && (up == c.totes || up == c.totes + 1)
            && 0 <= down <= FullStack && (down == c.totes || down == c.totes - 1)
            && (c.totes < FullStack <==> up == c.totes + 1)
            && (0 < c.totes < FullStack <==> down == c.totes - 1)
  {
  }

  /** With the autocycle off, Run leaves both state machines and the count alone:
      only the command switch and the safety timeout act. */
  lemma IdleMachinesStay(c: Cube, m: Message, s: Sensors, now: real, topHold: real)
    requires !c.autoCycle && m.command != CubeAutoCycleStart
    ensures var r := Run(c, m, s, now, topHold);
            r.clickerState == c.clickerState && r.lifterState == c.lifterState
  {
  }

  /** An autocycle tick always restarts the safety timer, so the safety timeout
      cannot fire on the pass after a tick unless the clock jumps by its limit. */
  lemma TickRestartsSafety(c: Cube, s: Sensors, now: real, topHold: real)
    requires c.autoCycle && now - c.cycleAt > CyclePeriod
    ensures Tick(c, s, now, topHold).safetyAt == now
    ensures Safety(Tick(c, s, now, topHold), now) == Tick(c, s, now, topHold)
  {
  }

  /** A tote at the top is counted and lowered; the fifth one holds the lifter until
      the driver allows the can to be raised. */
  lemma ToteAtTop(c: Cube, s: Sensors, now: real, topHold: real)
    requires c.clickerState == ClickerTop && s.irBlocked
    ensures var r := ClickerStep(c, s, now, topHold);
            && r.totes == c.totes + 1 && r.clickerState == ClickerLower && r.clicker == LowerClicker
            && (r.totes == FullStack ==> r.lifterState == LifterWaitTillRaise && !r.okToRaiseCan)
            && (r.totes != FullStack ==> r.lifterState == c.lifterState && r.okToRaiseCan == c.okToRaiseCan)
  {
  }

  /** The lifter leaves its waiting state only with the driver's permission, and
      going up uses the permission up. */
  lemma WaitNeedsPermission(c: Cube, s: Sensors)
    requires c.lifterState == LifterWaitTillRaise
    ensures var r := LifterStep(c, s);
            && (r.lifterState == LifterRaise <==> c.okToRaiseCan)
            && (r.lifterState != LifterRaise ==> r == c)
            && !r.okToRaiseCan
  {
  }

  /** The count invariant: the cube never holds more than a full stack plus the can,
      never a negative count, and the clicker is only on its way up, at the top or
      pausing between stacks while the stack is not yet complete. */
  predicate CountInvariant(c: Cube) {
    && 0 <= c.totes <= StackWithCan
    && (c.clickerState == ClickerRaise || c.clickerState == ClickerTop || c.clickerState == ClickerDelayAfterCycle
        ==> c.totes <= FullStack)
  }

  lemma CreateEstablishes(now: real)
    ensures CountInvariant(Create(now))
  {
  }

  lemma CommandKeeps(c: Cube, command: Command, now: real)
    requires CountInvariant(c)
    ensures CountInvariant(Command(c, command, now))
  {
  }

  lemma {:induction false} ClickerStepKeeps(c: Cube, s: Sensors, now: real, topHold: real)
    requires CountInvariant(c)
    ensures CountInvariant(ClickerStep(c, s, now, topHold))
  {
    match c.clickerState
    case ClickerTop =>
      assert c.totes <= FullStack;
    case ClickerBottom =>
      if c.totes != FullStack && c.totes != StackWithCan {
        assert c.totes < FullStack;
      }
    case _ =>
  }

  lemma SafetyKeeps(c: Cube, now: real)
    requires CountInvariant(c)
    ensures CountInvariant(Safety(c, now))
  {
  }

  lemma {:induction false} TickKeeps(c: Cube, s: Sensors, now: real, topHold: real)
    requires CountInvariant(c)
    ensures CountInvariant(Tick(c, s, now, topHold))
  {
    if c.autoCycle && now - c.cycleAt > CyclePeriod {
      ClickerStepKeeps(c.(cycleAt := now, safetyAt := now), s, now, topHold);
    }
  }

  lemma {:induction false} RunKeeps(c: Cube, m: Message, s: Sensors, now: real, topHold: real)
    requires CountInvariant(c)
    ensures CountInvariant(Run(c, m, s, now, topHold))
  {
    var d := Command(c, m.command, now);
    CommandKeeps(c, m.command, now);
    SafetyKeeps(d, now);
    TickKeeps(Safety(d, now), s, now, topHold);
  }

  /** Every pass of the task loop keeps the count invariant, whatever it receives
      and whatever the sensors say. */
  lemma {:induction false} IterateKeeps(a: ComponentBase.Actor<Cube>, s: Sensors, now: real, topHold: real)
    requires CountInvariant(a.state)
    ensures CountInvariant(Iterate(a, s, now, topHold).state)
  {
    var m := ComponentBase.Next(a);
    var c := if IsStateChange(m.command) then OnStateChange(a.state, m, now) else a.state;
    RunKeeps(c, m, s, now, topHold);
  }
}

=== FILE: drivetrain.dfy ===
/** The drivetrain task (Drivetrain.cpp): two drive motors, a gyro and a wheel
    encoder.  Each pass is given the gyro's current heading and the encoder's raw
    distance; the encoder's reset is modelled by remembering the raw reading it
    was reset at.  Single-precision arithmetic is modelled as real arithmetic. */
module Drivetrain {
  import opened Messages
  import ComponentBase

  /** `JOYSTICK_DEADZONE` and `MAX_GAIN_PER_MESSAGE` (Drivetrain.h). */
  const DeadZone: real := 0.10
  const MaxGain: real := 0.1

  /** The distance the drive-straight command drives, whatever the message asks. */
  const StraightTarget: real := 120.0
  /** Base output of the drive-straight command, and the heading error (degrees)
      that doubles or cancels it on one side. */
  const StraightPower: real := 0.3
  const StraightErrorScale: real := 45.0

  datatype Sensors = Sensors(gyro: real, encoder: real)

  /** `leftMotor`/`rightMotor` are the outputs last written; `left`/`right` are the
      drive-straight outputs kept as "previous motor values". */
  datatype Drivetrain = Drivetrain(
    leftMotor: real, rightMotor: real,
    left: real, right: real,
    initialAngle: real, errorAngle: real, coveredDist: real,
    encoderZero: real)

  function Distance(d: Drivetrain, s: Sensors): real {
    s.encoder - d.encoderZero
  }

  /** OnStateChange: every mode stops both sides; the autonomous mode also takes the
      current heading as the one to hold and zeroes the encoder. */
  function OnStateChange(d: Drivetrain, m: Message, s: Sensors): (r: Drivetrain)
    ensures r.leftMotor == 0.0 && r.rightMotor == 0.0
    ensures m.command == StateAutonomous ==> r.initialAngle == s.gyro && Distance(r, s) == 0.0
    ensures m.command != StateAutonomous ==> r.initialAngle == d.initialAngle && r.encoderZero == d.encoderZero
  {
    var stopped := d.(leftMotor := 0.0, rightMotor := 0.0);
    if m.command == StateAutonomous then stopped.(initialAngle := s.gyro, encoderZero := s.encoder)
    else stopped
  }

  function Cube(v: real): real { v * v * v }

  /** DriveStraight: short of the target, drive forward at the base output, steering
      back toward the held heading in proportion to the heading error; at or past
      the target, stop. */
  function DriveStraight(d: Drivetrain, target: real, s: Sensors): (r: Drivetrain)
    ensures Distance(d, s) >= target ==> r.leftMotor == 0.0 && r.rightMotor == 0.0
    // short of the target the sides (the right one mounted reversed) differ by
    // twice the base output, and their sum steers in proportion to the error
    ensures Distance(d, s) < target ==>
              && r.leftMotor - r.rightMotor == 2.0 * StraightPower
              && r.leftMotor + r.rightMotor == 2.0 * StraightPower * r.errorAngle / StraightErrorScale
    ensures r.errorAngle == d.initialAngle - s.gyro && r.coveredDist == Distance(d, s)
    // the outputs are kept as the previous motor values; the held heading and
    // the encoder's zero stay
    ensures r.left == r.leftMotor && r.right == r.rightMotor
    ensures r.initialAngle == d.initialAngle && r.encoderZero == d.encoderZero
  {
    var covered := Distance(d, s);
    var err := d.initialAngle - s.gyro;
    var left := if covered < target then (1.0 + err / StraightErrorScale) * StraightPower else 0.0;
    var right := if covered < target then (-1.0 + err / StraightErrorScale) * StraightPower else 0.0;
    d.(coveredDist := covered, errorAngle := err, left := left, right := right, leftMotor := left, rightMotor := right)
  }

  /** Run: tank drive cubes each stick (the right side is mounted reversed), arcade
      drive mixes, drive-straight steps the heading hold; anything else, the
      straight-drive initialisation and a timeout included, leaves the motors. */
  function Run(d: Drivetrain, m: Message, s: Sensors): (r: Drivetrain)
    ensures m.command !in {DrivetrainDriveTank, DrivetrainDriveArcade, DrivetrainDriveStraight} ==> r == d
    // arcade: the difference of the sides is the throttle, their sum the turn
    ensures m.command == DrivetrainDriveArcade ==>
              r.leftMotor - r.rightMotor == m.params.y && r.leftMotor + r.rightMotor == m.params.x
    // no command moves the held heading or the encoder's zero
    ensures r.initialAngle == d.initialAngle && r.encoderZero == d.encoderZero
  {
    match m.command
    case DrivetrainDriveTank => d.(leftMotor := Cube(m.params.left), rightMotor := -Cube(m.params.right))
    case DrivetrainDriveArcade => d.(leftMotor := 0.5 * (m.params.y + m.params.x), rightMotor := -0.5 * (m.params.y - m.params.x))
    case DrivetrainDriveStraight => DriveStraight(d, StraightTarget, s)
    case _ => d
  }

  function Iterate(a: ComponentBase.Actor<Drivetrain>, s: Sensors): ComponentBase.Actor<Drivetrain> {
    ComponentBase.Iterate(a, (d, m) => OnStateChange(d, m, s), (d, m) => Run(d, m, s))
  }

  /** The dead zone: readings strictly inside it count as zero. */
  function DeadZoned(v: real): (r: real)
    ensures -DeadZone < v < DeadZone ==> r == 0.0
    ensures v <= -DeadZone || DeadZone <= v ==> r == v
  {
    if v < DeadZone && v > -DeadZone then 0.0 else v
  }

  function Min(a: real, b: real): real { if a <= b then a else b }
  function Max(a: real, b: real): real { if a <= b then b else a }

  /** LimitMotor: move from `past` toward the dead-zoned `v` by at most the gain
      limit per message.  Nothing in the task calls it. */
  function LimitMotor(v: real, past: real): (r: real)
    ensures -MaxGain <= r - past <= MaxGain
    ensures Min(past, DeadZoned(v)) <= r <= Max(past, DeadZoned(v))
    ensures -MaxGain <= DeadZoned(v) - past <= MaxGain ==> r == DeadZoned(v)
    ensures DeadZoned(v) - past > MaxGain ==> r == past + MaxGain
    ensures DeadZoned(v) - past < -MaxGain ==> r == past - MaxGain
  {
    var target := DeadZoned(v);
    if target - past > MaxGain then past + MaxGain
    else if target - past < -MaxGain then past - MaxGain
    else target
  }

  /** `n` messages carrying the same reading `v`. */
  function LimitMany(v: real, past: real, n: nat): real
    decreases n
  {
    if n == 0 then past else LimitMany(v, LimitMotor(v, past), n - 1)
  }

  function Abs(x: real): real { if x < 0.0 then -x else x }

  /** Holding the stick still, the limited output reaches the dead-zoned reading
      after as many messages as the gain limit needs to cover the gap, and stays. */
  lemma {:induction false} LimitMotorConverges(v: real, past: real, n: nat)
    requires Abs(DeadZoned(v) - past) <= n as real * MaxGain
    ensures LimitMany(v, past, n) == DeadZoned(v)
    decreases n
  {
    if n > 0 {
      var next := LimitMotor(v, past);
      assert Abs(DeadZoned(v) - next) <= (n - 1) as real * MaxGain;
      LimitMotorConverges(v, next, n - 1);
    }
  }

  /** Tank drive: each side follows the cube of its stick, the right side negated;
      the cube keeps the stick's sign and, within full scale, never exceeds it. */
  lemma TankDrive(d: Drivetrain, m: Message, s: Sensors)
    requires m.command == DrivetrainDriveTank
    ensures var r := Run(d, m, s);
            && r.leftMotor == Cube(m.params.left) && r.rightMotor == -Cube(m.params.right)
            && (m.params.left > 0.0 <==> r.leftMotor > 0.0)
            && (m.params.right > 0.0 <==> r.rightMotor < 0.0)
            && (-1.0 <= m.params.left <= 1.0 ==> Abs(r.leftMotor) <= Abs(m.params.left))
            && (-1.0 <= m.params.right <= 1.0 ==> Abs(r.rightMotor) <= Abs(m.params.right))
  {
    var l := m.params.left;
    var rt := m.params.right;
    CubeSign(l);
    CubeSign(rt);
    if -1.0 <= l <= 1.0 {
      CubeShrinks(l);
    }
    if -1.0 <= rt <= 1.0 {
      CubeShrinks(rt);
    }
  }

  lemma CubeSign(v: real)
    ensures v > 0.0 <==> Cube(v) > 0.0
  {
    if v < 0.0 {
      assert -v > 0.0;
      assert Cube(-v) > 0.0;
      assert Cube(v) == -Cube(-v);
    }
  }

  lemma CubeShrinks(v: real)
    requires -1.0 <= v <= 1.0
    ensures Abs(Cube(v)) <= Abs(v)
  {
    var a := Abs(v);
    assert 0.0 <= a <= 1.0;
    assert a * a <= a * 1.0;
    assert a * a <= 1.0;
    assert Abs(Cube(v)) == a * a * a;
    assert a * a * a <= a;
  }

  /** Arcade drive: the two outputs sum to the turn stick and differ by the
      forward stick, the right side being mounted reversed. */
  lemma ArcadeMix(d: Drivetrain, m: Message, s: Sensors)
    requires m.command == DrivetrainDriveArcade
    ensures var r := Run(d, m, s);
            r.leftMotor + r.rightMotor == m.params.x && r.leftMotor - r.rightMotor == m.params.y
  {
  }

  /** Drive straight: it stops exactly when the distance since the encoder's reset
      reaches the fixed target; short of it the sides differ by twice the base
      output and their sum steers against the heading error, linearly. */
  lemma DriveStraightHoldsHeading(d: Drivetrain, m: Message, s: Sensors)
    requires m.command == DrivetrainDriveStraight
    ensures var r := Run(d, m, s);
            var err := d.initialAngle - s.gyro;
            && r.coveredDist == Distance(d, s)
            && (Distance(d, s) >= StraightTarget <==> r.leftMotor == 0.0 && r.rightMotor == 0.0)
            && (Distance(d, s) < StraightTarget ==>
                  r.leftMotor - r.rightMotor == 2.0 * StraightPower
                  && r.leftMotor + r.rightMotor == 2.0 * StraightPower * err / StraightErrorScale)
            && r.left == r.leftMotor && r.right == r.rightMotor
  {
  }

  /** The distance the drive-straight command covers does not depend on the
      message: the straight distance it carries is ignored. */
  lemma StraightIgnoresRequestedDistance(d: Drivetrain, m: Message, s: Sensors, distance: real)
    requires m.command == DrivetrainDriveStraight
    ensures Run(d, m, s) == Run(d, m.(params := m.params.(straightDistance := distance)), s)
  {
  }

  /** Entering autonomous then driving straight on the same readings starts from
      zero distance, so the robot drives, and holds the heading it had on entry:
      with no heading change both sides get the base output, the right one reversed. */
  lemma AutonomousStartsStraight(d: Drivetrain, auto: Message, drive: Message, s: Sensors)
    requires auto.command == StateAutonomous && drive.command == DrivetrainDriveStraight
    ensures var r := Run(OnStateChange(d, auto, s), drive, s);
            r.leftMotor == StraightPower && r.rightMotor == -StraightPower
  {
  }
}

=== FILE: integration.dfy ===
/** What the main robot class's messages make the component tasks do, for the
    pairings where the two sides disagree with what a driver would expect. */
module Integration {
  import opened Messages
  import RhsRobot
  import Conveyor
  import Drivetrain
  import CanLifter
  import ComponentBase

  /** Releasing the conveyor buttons after running everything forward sends the
      belt stop, which stops the belt but leaves both intakes running. */
  lemma ReleaseLeavesIntakesRunning(sp: Conveyor.Speeds, c: Conveyor.Conveyor, held: RhsRobot.Controls, released: RhsRobot.Controls)
    requires held.conveyorFwd && !released.conveyorFwd && !released.conveyorBck
    ensures var r := Conveyor.Apply(sp, Conveyor.Apply(sp, c, RhsRobot.ConveyorCommand(held)), RhsRobot.ConveyorCommand(released));
            r.conveyor == 0.0 && r.left == sp.intake && r.right == -sp.intake && r.limits
  {
  }

  /** The 600 inches the robot asks for in autonomous make no difference: the
      drivetrain drives the same as for any other distance. */
  lemma AutonomousDistanceIgnored(r: RhsRobot.Robot, c: RhsRobot.Controls, d: Drivetrain.Drivetrain, s: Drivetrain.Sensors, other: real)
    requires !r.present.autonomous && r.present.drivetrain
    ensures var m := RhsRobot.Run(r, c, true, false).sends[0].msg;
            && m.params.straightDistance == RhsRobot.StraightDistance
            && Drivetrain.Run(d, m, s) == Drivetrain.Run(d, m.(params := m.params.(straightDistance := other)), s)
            && (Drivetrain.Distance(d, s) >= Drivetrain.StraightTarget ==>
                  Drivetrain.Run(d, m, s).leftMotor == 0.0 && Drivetrain.Run(d, m, s).rightMotor == 0.0)
  {
    RhsRobot.AutonomousWithoutTask(r, c, false);
    var m := RhsRobot.Run(r, c, true, false).sends[0].msg;
    Drivetrain.StraightIgnoresRequestedDistance(d, m, s, other);
    Drivetrain.DriveStraightHoldsHeading(d, m, s);
  }

  /** As written, the can lifter driven by the robot runs full up while only the
      lower control is held. */
  lemma LowerControlDrivesUp(r: RhsRobot.Robot, c: RhsRobot.Controls, a: ComponentBase.Actor<real>)
    requires r.present == RhsRobot.Create(r.message).present
    requires !c.canLiftRaise && c.canLiftLower
    requires |a.inbox| > 0 && a.inbox[0] == RhsRobot.Run(r, c, false, false).sends[4].msg
    ensures CanLifter.Iterate(a).state == 1.0
  {
    RhsRobot.LowerControlRaises(r, c);
    CanLifter.Outputs(a);
  }

  /** With the lower control sending the lower command, the can lifter driven by
      the robot runs full down while only the lower control is held. */
  lemma LowerControlLowers(r: RhsRobot.Robot, c: RhsRobot.Controls, a: ComponentBase.Actor<real>)
    requires r.present == RhsRobot.Create(r.message).present
    requires !c.canLiftRaise && c.canLiftLower
    requires |a.inbox| > 0 && a.inbox[0] == RhsRobot.RunCorrected(r, c, false, false).sends[4].msg
    ensures CanLifter.Iterate(a).state == -1.0
  {
    RhsRobot.LowerControlRaises(r, c);
    CanLifter.Outputs(a);
  }
}

=== FILE: jack_clicker.dfy ===
/** The pallet jack clicker task (JackClicker.cpp): a setpoint motor raised gently
    (a spring helps it up), lowered at full output, or stopped. */
module JackClicker {
  import opened Wrappers
  import opened Messages
  import ComponentBase
  import SetpointMotor

  /** The output each command of Run sets. */
  function Table(k: Command): (r: Option<real>)
    ensures r.Some? <==> k == JackClickerRaise || k == JackClickerLower || k == JackClickerStop
  {
    match k
    case JackClickerRaise => Some(0.10)
    case JackClickerLower => Some(-1.0)
    case JackClickerStop => Some(0.0)
    case _ => None
  }

  function Iterate(a: ComponentBase.Actor<real>): ComponentBase.Actor<real> {
    SetpointMotor.Iterate(Table, a)
  }

  /** One pass: raise drives up at a tenth of full output, lower full down, stop and
      every mode change stop it, and anything else leaves it running. */
  lemma Outputs(a: ComponentBase.Actor<real>)
    ensures var k := ComponentBase.Next(a).command;
            var r := Iterate(a).state;
            && (k == JackClickerRaise ==> r == 0.10)
            && (k == JackClickerLower ==> r == -1.0)
            && (k == JackClickerStop || IsStateChange(k) ==> r == 0.0)
            && (Table(k).None? && !IsStateChange(k) ==> r == a.state)
  {
    SetpointMotor.IterateSteps(Table, a);
  }

  /** The clicker's output after a run of messages is the one the latest of its
      own commands set, unless a mode change came after it. */
  lemma FollowsLatestCommand(a: ComponentBase.Actor<real>, n: nat)
    requires n <= |a.inbox|
    ensures SetpointMotor.IterateMany(Table, a, n).state == SetpointMotor.LastSet(Table, a.state, a.inbox[..n])
  {
    SetpointMotor.HoldsLastSetpoint(Table, a, n);
  }
}

=== FILE: joystick_listener.dfy ===
/** The joystick edge detector (JoystickListener.cpp): it remembers the buttons and
    axes of one joystick as they were at the end of the previous robot pass, and
    answers whether a button was just pressed or released, or an axis moved by
    more than a tolerance since then.

    The joystick is an input: how many buttons and axes it reports, and its
    readings (a reading past the reported count is still defined).  Button and
    axis numbers are unsigned, as the class's header declares them. */
module JoystickListener {

  datatype Stick = Stick(buttonCount: nat, axisCount: nat, button: nat -> bool, axis: nat -> real)

  /** The counts start at -1, meaning "not read yet". */
  datatype Listener = Listener(buttonCount: int, axisCount: int, buttonsDown: seq<bool>, axisValues: seq<real>,
                               tolerance: real)

  /** Every button and axis below the remembered counts has a remembered value. */
  predicate Valid(l: Listener) {
    l.buttonCount <= |l.buttonsDown| && l.axisCount <= |l.axisValues|
  }

  function Buttons(s: Stick, n: nat): (r: seq<bool>)
    ensures |r| == n && forall i :: 0 <= i < n ==> r[i] == s.button(i)
  {
    seq(n, i requires 0 <= i < n => s.button(i))
  }

  function Axes(s: Stick, n: nat): (r: seq<real>)
    ensures |r| == n && forall i :: 0 <= i < n ==> r[i] == s.axis(i)
  {
    seq(n, i requires 0 <= i < n => s.axis(i))
  }

  /** ResetVectors: when a count differs from the one remembered, take the new count
      and append a reading of every button (or axis) to what is remembered.  The
      vectors are never cleared. */
  function ResetVectors(l: Listener, s: Stick): (r: Listener)
    ensures Valid(l) ==> Valid(r)
    ensures r.buttonCount == s.buttonCount && r.axisCount == s.axisCount
    ensures l.buttonCount == s.buttonCount ==> r.buttonsDown == l.buttonsDown
    ensures l.buttonCount != s.buttonCount ==> r.buttonsDown == l.buttonsDown + Buttons(s, s.buttonCount)
    ensures l.axisCount == s.axisCount ==> r.axisValues == l.axisValues
    ensures l.axisCount != s.axisCount ==> r.axisValues == l.axisValues + Axes(s, s.axisCount)
    ensures r.tolerance == l.tolerance
  {
    var l1 := if l.buttonCount != s.buttonCount
              then l.(buttonCount := s.buttonCount, buttonsDown := l.buttonsDown + Buttons(s, s.buttonCount))
              else l;
    if l1.axisCount != s.axisCount
    then l1.(axisCount := s.axisCount, axisValues := l1.axisValues + Axes(s, s.axisCount))
    else l1
  }

  /** The default axis tolerance. */
  const DefaultTolerance: real := 0.01

  /** The constructor: counts unknown, then read the stick once, so the remembered
      state is exactly the stick's readings. */
  function Create(s: Stick): (l: Listener)
    ensures Valid(l)
    ensures l.buttonCount == s.buttonCount && l.axisCount == s.axisCount
    ensures l.buttonsDown == Buttons(s, s.buttonCount) && l.axisValues == Axes(s, s.axisCount)
    ensures l.tolerance == DefaultTolerance
  {
    ResetVectors(Listener(-1, -1, [], [], DefaultTolerance), s)
  }

  /** FinalUpdate: remember every button and axis below the counts as they read now. */
  method FinalUpdate(l: Listener, s: Stick) returns (r: Listener)
    requires Valid(l)
    ensures Valid(r)
    ensures r.buttonCount == l.buttonCount && r.axisCount == l.axisCount && r.tolerance == l.tolerance
    ensures |r.buttonsDown| == |l.buttonsDown| && |r.axisValues| == |l.axisValues|
    ensures forall i :: 0 <= i < |r.buttonsDown| ==>
              r.buttonsDown[i] == (if i < l.buttonCount then s.button(i) else l.buttonsDown[i])
    ensures forall i :: 0 <= i < |r.axisValues| ==>
              r.axisValues[i] == (if i < l.axisCount then s.axis(i) else l.axisValues[i])
  {
    var down := l.buttonsDown;
    var i := 0;
    while i < l.buttonCount
      invariant 0 <= i && (l.buttonCount >= 0 ==> i <= l.buttonCount) && (l.buttonCount < 0 ==> i == 0)
      invariant |down| == |l.buttonsDown|
      invariant forall j :: 0 <= j < |down| ==> down[j] == (if j < i then s.button(j) else l.buttonsDown[j])
    {
      down := down[i := s.button(i)];
      i := i + 1;
    }
    var values := l.axisValues;
    var k := 0;
    while k < l.axisCount
      invariant 0 <= k && (l.axisCount >= 0 ==> k <= l.axisCount) && (l.axisCount < 0 ==> k == 0)
      invariant |values| == |l.axisValues|
      invariant forall j :: 0 <= j < |values| ==> values[j] == (if j < k then s.axis(j) else l.axisValues[j])
    {
      values := values[k := s.axis(k)];
      k := k + 1;
    }
    r := l.(buttonsDown := down, axisValues := values);
  }

  /** ButtonPressed: down now and not at the last update. */
  function ButtonPressed(l: Listener, s: Stick, b: nat): (r: bool)
    requires Valid(l)
    ensures r ==> b < l.buttonCount && s.button(b)
  {
    b < l.buttonCount && s.button(b) && !l.buttonsDown[b]
  }

  /** ButtonReleased: up now and down at the last update. */
  function ButtonReleased(l: Listener, s: Stick, b: nat): (r: bool)
    requires Valid(l)
    ensures r ==> b < l.buttonCount && !s.button(b)
  {
    b < l.buttonCount && !s.button(b) && l.buttonsDown[b]
  }

  function Abs(x: real): real { if x < 0.0 then -x else x }

  /** AxisMoved: the axis is further from its last remembered value than the tolerance. */
  function AxisMoved(l: Listener, s: Stick, a: nat): (r: bool)
    requires Valid(l)
    ensures r ==> a < l.axisCount
  {
    a < l.axisCount && Abs(s.axis(a) - l.axisValues[a]) > l.tolerance
  }

  /** SetAxisTolerance: only the tolerance changes. */
  function SetAxisTolerance(l: Listener, tolerance: real): (r: Listener)
    ensures r.tolerance == tolerance && r.(tolerance := l.tolerance) == l
  {
    l.(tolerance := tolerance)
  }

  // ---------------------------------------------------------------------------
  // Properties
  // ---------------------------------------------------------------------------

  /** A button is never both pressed and released, and one the listener does not
      know of is neither. */
  lemma PressAndReleaseExclusive(l: Listener, s: Stick, b: nat)
    requires Valid(l)
    ensures !(ButtonPressed(l, s, b) && ButtonReleased(l, s, b))
    ensures b as int >= l.buttonCount ==> !ButtonPressed(l, s, b) && !ButtonReleased(l, s, b)
  {
  }

  /** The edge a button reports is the change between the remembered state and the
      reading: pressed exactly on up-to-down, released exactly on down-to-up. */
  lemma EdgesAreChanges(l: Listener, s: Stick, b: nat)
    requires Valid(l) && b as int < l.buttonCount
    ensures ButtonPressed(l, s, b) <==> !l.buttonsDown[b] && s.button(b)
    ensures ButtonReleased(l, s, b) <==> l.buttonsDown[b] && !s.button(b)
    ensures ButtonPressed(l, s, b) || ButtonReleased(l, s, b) <==> l.buttonsDown[b] != s.button(b)
  {
  }

  /** Right after the constructor, or after an update at the end of a pass, a
      stick that has not changed reports no edge and no movement. */
  lemma NoEdgesWithoutChange(l: Listener, s: Stick, b: nat, a: nat)
    requires Valid(l) && l.tolerance >= 0.0
    requires forall i :: 0 <= i < l.buttonCount ==> l.buttonsDown[i] == s.button(i)
    requires forall i :: 0 <= i < l.axisCount ==> l.axisValues[i] == s.axis(i)
    ensures !ButtonPressed(l, s, b) && !ButtonReleased(l, s, b) && !AxisMoved(l, s, a)
  {
  }

  /** An update at the end of one pass followed by queries against the same
      readings reports nothing. */
  method UpdateThenUnchanged(l: Listener, s: Stick, b: nat, a: nat) returns (pressed: bool, released: bool, moved: bool)
    requires Valid(l) && l.tolerance >= 0.0
    ensures !pressed && !released && !moved
  {
    var r := FinalUpdate(l, s);
    NoEdgesWithoutChange(r, s, b, a);
    pressed := ButtonPressed(r, s, b);
    released := ButtonReleased(r, s, b);
    moved := AxisMoved(r, s, a);
  }

  /** The tolerance set is the one the next movement test uses. */
  lemma ToleranceUsed(l: Listener, s: Stick, a: nat, tolerance: real)
    requires Valid(l)
    ensures Valid(SetAxisTolerance(l, tolerance))
    ensures AxisMoved(SetAxisTolerance(l, tolerance), s, a) <==>
              a < l.axisCount && Abs(s.axis(a) - l.axisValues[a]) > tolerance
  {
  }

  /** A newly built listener reports no edge on its first pass. */
  lemma FreshListenerQuiet(s: Stick, b: nat, a: nat)
    ensures !ButtonPressed(Create(s), s, b) && !ButtonReleased(Create(s), s, b) && !AxisMoved(Create(s), s, a)
  {
    NoEdgesWithoutChange(Create(s), s, b, a);
  }
}

=== FILE: messages.dfy ===
/** The message every task passes to every other task: a command tag, an optional
    reply channel and a block of parameters.  The command list is the one the
    component sources actually use; the published header lists only part of it. */
module Messages {
  import opened Wrappers

  datatype Command =
    | Unknown | SystemMsgTimeout | SystemOk | SystemError
    // the five robot modes broadcast on every mode change
    | StateDisabled | StateAutonomous | StateTeleoperated | StateTest | StateUnknown
    | AutonomousRun | AutonomousComplete | AutonomousResponseOk | AutonomousResponseError
    | ChecklistRun
    | DrivetrainDriveTank | DrivetrainDriveArcade | DrivetrainDriveStraight | DrivetrainInitStraight
    | DrivetrainAutoMove | DrivetrainStop | DrivetrainTurn | DrivetrainSeekTote
    | DrivetrainStartDriveFwd | DrivetrainStartDriveBck
    | ConveyorRunFwd | ConveyorRunBck | ConveyorStop
    | ConveyorIntakeLeftIn | ConveyorIntakeLeftOut | ConveyorIntakeLeftStop
    | ConveyorIntakeRightIn | ConveyorIntakeRightOut | ConveyorIntakeRightStop
    | ConveyorIntakeBothIn | ConveyorIntakeBothOut | ConveyorIntakeBothStop
    | ConveyorRunAllFwd | ConveyorRunAllBck | ConveyorRunAllStop
    | ConveyorCanAdjustBoth | ConveyorCanAdjustLeft | ConveyorCanAdjustRight
    | ConveyorSeekToteFront | ConveyorSeekToteBack | ConveyorFrontLoadTote | ConveyorBackLoadTote
    | ConveyorWaitFrontBeam | ConveyorWaitBackBeam | ConveyorDepositTotesBck
    | ConveyorShiftTotesFwd | ConveyorShiftTotesBck | ConveyorPushTotesBck
    | JackClickerRaise | JackClickerLower | JackClickerStop
    | CubeClickerRaise | CubeClickerLower | CubeClickerStop
    | CubeIntakeRun | CubeIntakeStop | CubeStop
    | CubeAutoCycleStart | CubeAutoCycleStop | CubeAutoCyclePause | CubeAutoCycleResume
    | CubeAutoCycleOkToRaiseCan | CubeAutoCycleIncrementCount | CubeAutoCycleDecrementCount
    | CanLifterRaise | CanLifterLower | CanLifterStop
    | CanLifterRaiseTotes | CanLifterLowerTotes | CanLifterStartRaiseTotes
    | CanLifterClawToTop | CanLifterRaiseLoMid | CanLifterLowerHiMid
    | ClawOpen | ClawClose
    | CanArmOpen | CanArmClose | CanArmStop
    | ToteLifterExtend | ToteLifterRetract
    | ComponentTest | Ignore

  /** The named pipes: one per component task. */
  datatype Queue =
    | DrivetrainQueue | AutonomousQueue | ConveyorQueue | CubeQueue | ClickerQueue
    | JackClickerQueue | CanLifterQueue | ClawQueue | CanArmQueue | ToteLifterQueue

  /** Every parameter field a sender writes.  In the source these share one union;
      here each field is independent. */
  datatype Params = Params(
    left: real, right: real,                    // tank drive
    x: real, y: real,                           // arcade drive
    driveSpeed: real, driveDistance: real, driveTime: real,
    turnAngle: real, turnSpeed: real,
    timeout: real, timein: real,
    numTotes: int,
    straightDistance: real)

  const NoParams := Params(0.0, 0.0, 0.0, 0.0, 0.0, 0.0, 0.0, 0.0, 0.0, 0.0, 0.0, 0, 0.0)

  datatype Message = Message(command: Command, replyQ: Option<Queue>, params: Params)

  /** One write of a message onto a named pipe. */
  datatype Send = Send(to: Queue, msg: Message)

  /** The five tags the supervisor loop treats as mode changes. */
  predicate IsStateChange(c: Command) {
    || c == StateDisabled
    || c == StateAutonomous
    || c == StateTeleoperated
    || c == StateTest
    || c == StateUnknown
  }
}

=== FILE: rhs_robot.dfy ===
/** The main robot class (RhsRobot.cpp): it forwards every mode change to the
    component tasks and, on each pass of the driver-station loop, turns the
    controls into one message per component.  The class keeps a single message,
    `robotMessage`, whose fields outlive a pass: each send carries a copy of it as
    it stands at that point.

    The controls are inputs of a pass: the two tank sticks (already sign-flipped
    by their macros) and the buttons, each a boolean.  The current robot mode and
    whether it has just changed come from the robot base class, which is not part
    of this model; they are inputs too. */
module RhsRobot {
  import opened Wrappers
  import opened Messages

  /** Which component objects exist.  `Init` constructs all of them but the
      autonomous task, whose construction is commented out. */
  datatype Present = Present(drivetrain: bool, conveyor: bool, clicker: bool, jackClicker: bool,
                             canLifter: bool, autonomous: bool)

  /** The intake toggle: whether its button was seen down, and whether the intake
      is meant to run. */
  datatype Latch = Latch(down: bool, running: bool)

  datatype Robot = Robot(message: Message, latch: Latch, loop: nat, present: Present)

  datatype Controls = Controls(
    tankLeft: real, tankRight: real,
    conveyorFwd: bool, conveyorBck: bool,
    clickerUp: bool, clickerDown: bool,
    intakeButton: bool,
    canLiftRaise: bool, canLiftLower: bool)

  /** The distance, in inches, the robot asks the drivetrain to drive straight. */
  const StraightDistance: real := 600.0

  /** The constructor then `Init`: both latches clear, loop counter 0.  The initial
      `robotMessage` is not set by the class; it is a parameter. */
  function Create(message: Message): (r: Robot)
    ensures r.latch == Latch(false, false) && r.loop == 0
    ensures r.present.drivetrain && r.present.conveyor && r.present.clicker
    ensures r.present.jackClicker && r.present.canLifter && !r.present.autonomous
  {
    Robot(message, Latch(false, false), 0, Present(true, true, true, true, true, false))
  }

  /** The component queues in the order the class addresses them. */
  const Order: seq<Queue> := [DrivetrainQueue, ConveyorQueue, ClickerQueue, JackClickerQueue, CanLifterQueue]

  /** Whether the component behind queue `q` exists. */
  predicate Has(p: Present, q: Queue) {
    || (q == DrivetrainQueue && p.drivetrain)
    || (q == ConveyorQueue && p.conveyor)
    || (q == ClickerQueue && p.clicker)
    || (q == JackClickerQueue && p.jackClicker)
    || (q == CanLifterQueue && p.canLifter)
  }

  /** The queues of `qs` whose component exists, in order. */
  function Existing(p: Present, qs: seq<Queue>): seq<Queue>
    decreases |qs|
  {
    if |qs| == 0 then [] else (if Has(p, qs[0]) then [qs[0]] else []) + Existing(p, qs[1..])
  }

  function Targets(p: Present): seq<Queue> { Existing(p, Order) }

  /** `Existing` keeps exactly the queues whose component exists. */
  lemma {:induction false} ExistingMembers(p: Present, qs: seq<Queue>, q: Queue)
    ensures q in Existing(p, qs) <==> q in qs && Has(p, q)
    decreases |qs|
  {
    if |qs| > 0 {
      ExistingMembers(p, qs[1..], q);
      assert q in qs <==> q == qs[0] || q in qs[1..];
    }
  }

  /** `Existing` of a list without repeats has no repeats. */
  lemma {:induction false} ExistingDistinct(p: Present, qs: seq<Queue>)
    requires forall i, j :: 0 <= i < j < |qs| ==> qs[i] != qs[j]
    ensures forall i, j :: 0 <= i < j < |Existing(p, qs)| ==> Existing(p, qs)[i] != Existing(p, qs)[j]
    decreases |qs|
  {
    if |qs| > 0 {
      var rest := Existing(p, qs[1..]);
      ExistingDistinct(p, qs[1..]);
      if Has(p, qs[0]) {
        forall k | 0 <= k < |rest| ensures rest[k] != qs[0] {
          ExistingMembers(p, qs[1..], rest[k]);
          assert rest[k] in rest;
        }
      }
    }
  }

  /** OnStateChange: a copy of the current message to every component that exists. */
  function OnStateChange(r: Robot): (sends: seq<Send>)
    ensures |sends| == |Targets(r.present)|
    ensures forall i :: 0 <= i < |sends| ==> sends[i] == Send(Targets(r.present)[i], r.message)
  {
    seq(|Targets(r.present)|, i requires 0 <= i < |Targets(r.present)| => Send(Targets(r.present)[i], r.message))
  }

  /** The drivetrain block: in autonomous, initialise the straight drive on the
      pass the mode changed and drive straight on the others; otherwise tank drive. */
  function DriveMessage(m: Message, autonomous: bool, changed: bool, c: Controls): Message {
    if autonomous then
      if changed then m.(command := DrivetrainInitStraight)
      else m.(command := DrivetrainDriveStraight, params := m.params.(straightDistance := StraightDistance))
    else m.(command := DrivetrainDriveTank, params := m.params.(left := c.tankLeft, right := c.tankRight))
  }

  /** The conveyor block: forward wins over backward; no button stops the belt. */
  function ConveyorCommand(c: Controls): Command {
    if c.conveyorFwd then ConveyorRunAllFwd
    else if c.conveyorBck then ConveyorRunAllBck
    else ConveyorStop
  }

  /** The first clicker message: up wins over down; neither stops the clicker. */
  function ClickerCommand(c: Controls): Command {
    if c.clickerUp then CubeClickerRaise
    else if c.clickerDown then CubeClickerLower
    else CubeClickerStop
  }

  /** The intake toggle as written: a press toggles when the button was not seen
      down; any other pass clears the latch, a held button included. */
  function ToggleAsWritten(l: Latch, pressed: bool): (r: Latch)
    ensures r.down == (pressed && !l.down)
    ensures r.running == (if pressed && !l.down then !l.running else l.running)
  {
    if pressed && !l.down then Latch(true, !l.running)
    else Latch(false, l.running)
  }

  /** The intake toggle as the class's own header describes a proper one: a press
      toggles once, and the latch clears only when the button is released. */
  function Toggle(l: Latch, pressed: bool): (r: Latch)
    ensures r.down == pressed
    ensures r.running == (if pressed && !l.down then !l.running else l.running)
  {
    if pressed && !l.down then Latch(true, !l.running)
    else if !pressed && l.down then Latch(false, l.running)
    else l
  }

  /** The can lifter block as written: both the raise and the lower control send
      the raise command. */
  function CanLifterCommandAsWritten(c: Controls): (r: Command)
    ensures r != CanLifterLower
    ensures r == CanLifterRaise <==> c.canLiftRaise || c.canLiftLower
    ensures r == Ignore <==> !c.canLiftRaise && !c.canLiftLower
  {
    if c.canLiftRaise then CanLifterRaise
    else if c.canLiftLower then CanLifterRaise
    else Ignore
  }

  /** The can lifter block with the lower control sending the lower command. */
  function CanLifterCommand(c: Controls): (r: Command)
    ensures r == CanLifterRaise <==> c.canLiftRaise
    ensures r == CanLifterLower <==> !c.canLiftRaise && c.canLiftLower
    ensures r == Ignore <==> !c.canLiftRaise && !c.canLiftLower
  {
    if c.canLiftRaise then CanLifterRaise
    else if c.canLiftLower then CanLifterLower
    else Ignore
  }

  datatype Pass = Pass(robot: Robot, sends: seq<Send>)

  /** The intake toggle and the can lifter block, as written or corrected. */
  function IntakeToggle(corrected: bool, l: Latch, pressed: bool): Latch {
    if corrected then Toggle(l, pressed) else ToggleAsWritten(l, pressed)
  }

  function LifterCommand(corrected: bool, c: Controls): Command {
    if corrected then CanLifterCommand(c) else CanLifterCommandAsWritten(c)
  }

  /** Run: one pass of the driver-station loop, as written. `autonomous` is whether
      the robot is in autonomous mode and `changed` whether the mode changed on this
      pass. */
  function Run(r: Robot, c: Controls, autonomous: bool, changed: bool): (p: Pass)
    ensures r.present.autonomous && autonomous ==> p == Pass(r, [])
    ensures !(r.present.autonomous && autonomous) ==>
              && p.robot.loop == r.loop + 1 && p.robot.present == r.present
              && p.robot.latch == (if r.present.clicker then ToggleAsWritten(r.latch, c.intakeButton) else r.latch)
  {
    RunWith(false, r, c, autonomous, changed)
  }

  /** The same pass with the intake toggle and the can lifter block corrected. */
  function RunCorrected(r: Robot, c: Controls, autonomous: bool, changed: bool): (p: Pass)
    ensures r.present.autonomous && autonomous ==> p == Pass(r, [])
    ensures !(r.present.autonomous && autonomous) ==>
              && p.robot.loop == r.loop + 1 && p.robot.present == r.present
              && p.robot.latch == (if r.present.clicker then Toggle(r.latch, c.intakeButton) else r.latch)
  {
    RunWith(true, r, c, autonomous, changed)
  }

  function RunWith(corrected: bool, r: Robot, c: Controls, autonomous: bool, changed: bool): (p: Pass)
    ensures r.present.autonomous && autonomous ==> p == Pass(r, [])
    ensures !(r.present.autonomous && autonomous) ==>
              && p.robot.loop == r.loop + 1 && p.robot.present == r.present
              && p.robot.latch == (if r.present.clicker then IntakeToggle(corrected, r.latch, c.intakeButton) else r.latch)
  {
    if r.present.autonomous && autonomous then Pass(r, [])
    else
      var m0 := r.message;
      var m1 := if r.present.drivetrain then DriveMessage(m0, autonomous, changed, c) else m0;
      var s1 := if r.present.drivetrain then [Send(DrivetrainQueue, m1)] else [];
      var m2 := if r.present.conveyor then m1.(command := ConveyorCommand(c)) else m1;
      var s2 := if r.present.conveyor then [Send(ConveyorQueue, m2)] else [];
      var latch := if r.present.clicker then IntakeToggle(corrected, r.latch, c.intakeButton) else r.latch;
      var m3 := if r.present.clicker then m2.(command := ClickerCommand(c)) else m2;
      var m4 := if r.present.clicker then m3.(command := if latch.running then CubeIntakeRun else CubeIntakeStop) else m3;
      var s3 := if r.present.clicker then [Send(ClickerQueue, m3), Send(ClickerQueue, m4)] else [];
      var m5 := if r.present.canLifter then m4.(command := LifterCommand(corrected, c)) else m4;
      var s5 := if r.present.canLifter then [Send(CanLifterQueue, m5)] else [];
      Pass(Robot(m5, latch, r.loop + 1, r.present), s1 + s2 + s3 + s5)
  }

  // ---------------------------------------------------------------------------
  // Properties
  // ---------------------------------------------------------------------------

  /** A mode change reaches every component that exists, each exactly once, in the
      order drivetrain, conveyor, clicker, pallet jack clicker, can lifter. */
  lemma BroadcastReachesEach(r: Robot, q: Queue)
    ensures q in Targets(r.present) <==> Has(r.present, q)
    ensures forall i, j :: 0 <= i < j < |Targets(r.present)| ==> Targets(r.present)[i] != Targets(r.present)[j]
    ensures Send(q, r.message) in OnStateChange(r) <==> Has(r.present, q)
  {
    var sends := OnStateChange(r);
    ExistingMembers(r.present, Order, q);
    ExistingDistinct(r.present, Order);
    if q in Targets(r.present) {
      var i :| 0 <= i < |Targets(r.present)| && Targets(r.present)[i] == q;
      assert sends[i] == Send(q, r.message);
    }
  }

  /** While the autonomous task exists and the robot is in autonomous mode, the
      class sends nothing and does not count the pass. */
  lemma AutonomousTaskInCharge(r: Robot, c: Controls, changed: bool)
    requires r.present.autonomous
    ensures Run(r, c, true, changed) == Pass(r, [])
  {
  }

  /** A pass, as written or corrected, sends only to components that exist. */
  lemma AddressesOnlyExisting(corrected: bool, r: Robot, c: Controls, autonomous: bool, changed: bool)
    ensures forall s :: s in RunWith(corrected, r, c, autonomous, changed).sends ==> Has(r.present, s.to)
  {
  }

  /** With every component constructed and outside autonomous mode, a pass is the
      five sends of the blocks in order, each a copy of the message so far. */
  lemma TeleopShape(corrected: bool, r: Robot, c: Controls)
    requires r.present == Create(r.message).present
    ensures var m1 := DriveMessage(r.message, false, false, c);
            var m2 := m1.(command := ConveyorCommand(c));
            var latch := IntakeToggle(corrected, r.latch, c.intakeButton);
            var m3 := m2.(command := ClickerCommand(c));
            var m4 := m3.(command := if latch.running then CubeIntakeRun else CubeIntakeStop);
            var m5 := m4.(command := LifterCommand(corrected, c));
            RunWith(corrected, r, c, false, false) ==
              Pass(Robot(m5, latch, r.loop + 1, r.present),
                   [Send(DrivetrainQueue, m1), Send(ConveyorQueue, m2), Send(ClickerQueue, m3),
                    Send(ClickerQueue, m4), Send(CanLifterQueue, m5)])
  {
    var m1 := DriveMessage(r.message, false, false, c);
    var m2 := m1.(command := ConveyorCommand(c));
    var latch := IntakeToggle(corrected, r.latch, c.intakeButton);
    var m3 := m2.(command := ClickerCommand(c));
    var m4 := m3.(command := if latch.running then CubeIntakeRun else CubeIntakeStop);
    var m5 := m4.(command := LifterCommand(corrected, c));
    assert [Send(DrivetrainQueue, m1)] + [Send(ConveyorQueue, m2)] + [Send(ClickerQueue, m3), Send(ClickerQueue, m4)]
           + [Send(CanLifterQueue, m5)]
        == [Send(DrivetrainQueue, m1), Send(ConveyorQueue, m2), Send(ClickerQueue, m3),
            Send(ClickerQueue, m4), Send(CanLifterQueue, m5)];
  }

  /** With every component constructed and no autonomous task, a pass sends five
      messages: the drive, the conveyor, the clicker motion, the intake, and the
      can lifter, in that order, and counts the pass.  The intake follows the latch
      as written, and the can lifter is told to raise whenever either of its
      controls is held. */
  lemma TeleopPass(r: Robot, c: Controls)
    requires r.present == Create(r.message).present
    ensures var p := Run(r, c, false, false);
            && |p.sends| == 5
            && p.sends[0].to == DrivetrainQueue && p.sends[0].msg.command == DrivetrainDriveTank
            && p.sends[0].msg.params.left == c.tankLeft && p.sends[0].msg.params.right == c.tankRight
            && p.sends[1] == Send(ConveyorQueue, p.sends[0].msg.(command := ConveyorCommand(c)))
            && p.sends[2].to == ClickerQueue && p.sends[2].msg.command == ClickerCommand(c)
            && p.robot.latch == ToggleAsWritten(r.latch, c.intakeButton)
            && p.sends[3].to == ClickerQueue
            && p.sends[3].msg.command == (if p.robot.latch.running then CubeIntakeRun else CubeIntakeStop)
            && p.sends[4].to == CanLifterQueue
            && (p.sends[4].msg.command == CanLifterRaise <==> c.canLiftRaise || c.canLiftLower)
            && (p.sends[4].msg.command == Ignore <==> !c.canLiftRaise && !c.canLiftLower)
            && p.robot.loop == r.loop + 1
  {
    TeleopShape(false, r, c);
  }

  /** The corrected pass differs from the one as written only in the latch, the
      intake message it decides, and the can lifter message. */
  lemma CorrectedPassDiffers(r: Robot, c: Controls)
    requires r.present == Create(r.message).present
    ensures var p := Run(r, c, false, false);
            var q := RunCorrected(r, c, false, false);
            && |q.sends| == 5 && q.sends[..3] == p.sends[..3]
            && q.robot.latch == Toggle(r.latch, c.intakeButton)
            && q.sends[3] == Send(ClickerQueue, p.sends[2].msg.(command := if q.robot.latch.running then CubeIntakeRun else CubeIntakeStop))
            && q.sends[4].to == CanLifterQueue && q.sends[4].msg.command == CanLifterCommand(c)
            && q.robot.loop == p.robot.loop
  {
    TeleopShape(false, r, c);
    TeleopShape(true, r, c);
  }

  /** The message is one block of fields: what an earlier block wrote stays in the
      later copies, so the conveyor, the clicker and the can lifter all receive the
      tank stick values. */
  lemma ParamsCarryOver(r: Robot, c: Controls)
    requires r.present == Create(r.message).present
    ensures var p := Run(r, c, false, false);
            forall i :: 0 <= i < |p.sends| ==> p.sends[i].msg.params == r.message.params.(left := c.tankLeft, right := c.tankRight)
  {
  }

  /** Without the autonomous task, autonomous mode drives the drivetrain itself:
      the pass on which the mode changed initialises the straight drive, and every
      later one asks for 600 inches. */
  lemma AutonomousWithoutTask(r: Robot, c: Controls, changed: bool)
    requires !r.present.autonomous && r.present.drivetrain
    ensures var s := Run(r, c, true, changed).sends[0];
            && s.to == DrivetrainQueue
            && (changed ==> s.msg.command == DrivetrainInitStraight)
            && (!changed ==> s.msg.command == DrivetrainDriveStraight && s.msg.params.straightDistance == StraightDistance)
  {
  }

  /** Each control's blocks give precedence to the first button of a pair; no
      button sends stop (conveyor, clicker) or nothing (can lifter).  As written,
      both can lifter controls send the raise command. */
  lemma ButtonPrecedence(c: Controls)
    ensures c.conveyorFwd ==> ConveyorCommand(c) == ConveyorRunAllFwd
    ensures !c.conveyorFwd && c.conveyorBck ==> ConveyorCommand(c) == ConveyorRunAllBck
    ensures !c.conveyorFwd && !c.conveyorBck ==> ConveyorCommand(c) == ConveyorStop
    ensures c.clickerUp ==> ClickerCommand(c) == CubeClickerRaise
    ensures !c.clickerUp && c.clickerDown ==> ClickerCommand(c) == CubeClickerLower
    ensures c.canLiftRaise ==> CanLifterCommandAsWritten(c) == CanLifterRaise
    ensures !c.canLiftRaise && c.canLiftLower ==> CanLifterCommandAsWritten(c) == CanLifterRaise
    ensures !c.canLiftRaise && !c.canLiftLower ==> CanLifterCommandAsWritten(c) == Ignore
  {
  }

  /** `n` passes of the toggle with the button as given. */
  function ToggleMany(l: Latch, presses: seq<bool>): Latch
    decreases |presses|
  {
    if |presses| == 0 then l else ToggleMany(Toggle(l, presses[0]), presses[1..])
  }

  function ToggleManyAsWritten(l: Latch, presses: seq<bool>): Latch
    decreases |presses|
  {
    if |presses| == 0 then l else ToggleManyAsWritten(ToggleAsWritten(l, presses[0]), presses[1..])
  }

  function Held(n: nat): seq<bool> { seq(n, _ => true) }

  /** As written, a held button toggles the intake on passes 1, 3, 5, ...: the
      latch is set on odd passes and cleared on even ones, and after `n` passes the
      intake has been toggled (n + 1) / 2 times. */
  lemma {:induction false} HeldButtonAlternates(b: bool, n: nat)
    ensures ToggleManyAsWritten(Latch(false, b), Held(n)) ==
              Latch(n % 2 == 1, if ((n + 1) / 2) % 2 == 1 then !b else b)
    decreases n
  {
    if n == 1 {
      assert Held(1) == [true];
    } else if n >= 2 {
      assert Held(n)[0] && Held(n)[1..][0] && Held(n)[1..][1..] == Held(n - 2);
      HeldButtonAlternates(!b, n - 2);
    }
  }

  /** As written, three passes of a held button from rest turn the intake on and
      then off again. */
  lemma HeldButtonRetoggles()
    ensures ToggleManyAsWritten(Latch(false, false), Held(1)).running
    ensures !ToggleManyAsWritten(Latch(false, false), Held(3)).running
  {
    HeldButtonAlternates(false, 1);
    HeldButtonAlternates(false, 3);
  }

  /** With the latch clearing only on release, a press held for any number of passes
      toggles the intake exactly once. */
  lemma {:induction false} HeldButtonTogglesOnce(l: Latch, n: nat)
    requires !l.down && n > 0
    ensures ToggleMany(l, Held(n)) == Latch(true, !l.running)
    decreases n
  {
    var l1 := Toggle(l, true);
    assert Held(n)[1..] == Held(n - 1);
    HeldStays(l1, n - 1);
  }

  lemma {:induction false} HeldStays(l: Latch, n: nat)
    requires l.down
    ensures ToggleMany(l, Held(n)) == l
    decreases n
  {
    if n > 0 {
      assert Held(n)[0] && Held(n)[1..] == Held(n - 1);
      HeldStays(l, n - 1);
    }
  }

  /** As written, holding only the lower control sends the raise command to the
      can lifter on every teleoperated pass; corrected, it sends the lower command. */
  lemma LowerControlRaises(r: Robot, c: Controls)
    requires r.present == Create(r.message).present
    requires !c.canLiftRaise && c.canLiftLower
    ensures Run(r, c, false, false).sends[4] == Send(CanLifterQueue, Run(r, c, false, false).sends[3].msg.(command := CanLifterRaise))
    ensures RunCorrected(r, c, false, false).sends[4].msg.command == CanLifterLower
  {
  }
}

=== FILE: setpoint_motor.dfy ===
/** The shape shared by the can lifter (CanLifter.cpp) and the pallet jack clicker
    (JackClicker.cpp): a task with one motor, stopped on every mode change, set to
    a fixed output by each of its own commands and left as it is by anything else,
    a receive timeout included.  A task is given by its `table`: the output each
    command sets, if any. */
module SetpointMotor {
  import opened Wrappers
  import opened Messages
  import ComponentBase

  type Table = Command -> Option<real>

  /** OnStateChange: every mode stops the motor. */
  function OnStateChange(x: real, m: Message): (r: real)
    ensures r == 0.0
  {
    0.0
  }

  /** Run: a command of the table sets its output; anything else leaves the motor. */
  function Run(table: Table, x: real, m: Message): (r: real)
    ensures table(m.command).None? ==> r == x
    ensures table(m.command).Some? ==> r == table(m.command).value
  {
    match table(m.command)
    case Some(v) => v
    case None => x
  }

  function Iterate(table: Table, a: ComponentBase.Actor<real>): ComponentBase.Actor<real> {
    ComponentBase.Iterate(a, OnStateChange, (x, m) => Run(table, x, m))
  }

  function IterateMany(table: Table, a: ComponentBase.Actor<real>, n: nat): ComponentBase.Actor<real>
    decreases n
  {
    if n == 0 then a else IterateMany(table, Iterate(table, a), n - 1)
  }

  /** The motor output after the messages `ms`, read from the latest one back: the
      output of the latest message that sets one, or stopped if a mode change came
      after every such message, or the starting output `x` if neither happened. */
  function LastSet(table: Table, x: real, ms: seq<Message>): real
    decreases |ms|
  {
    if |ms| == 0 then x
    else
      var m := ms[|ms| - 1];
      if table(m.command).Some? then table(m.command).value
      else if IsStateChange(m.command) then 0.0
      else LastSet(table, x, ms[..|ms| - 1])
  }

  /** The effect of one message. */
  function Step(table: Table, x: real, m: Message): real {
    Run(table, if IsStateChange(m.command) then OnStateChange(x, m) else x, m)
  }

  /** `LastSet` read from the front: the first message acts, then the rest. */
  lemma {:induction false} LastSetFromFront(table: Table, x: real, ms: seq<Message>)
    requires |ms| > 0
    ensures LastSet(table, x, ms) == LastSet(table, Step(table, x, ms[0]), ms[1..])
    decreases |ms|
  {
    if |ms| > 1 {
      var init := ms[..|ms| - 1];
      LastSetFromFront(table, x, init);
      assert init[0] == ms[0];
      assert init[1..] == ms[1..][..|ms[1..]| - 1];
    }
  }

  /** One pass of the task loop applies one message as `Step` says. */
  lemma IterateSteps(table: Table, a: ComponentBase.Actor<real>)
    ensures Iterate(table, a).state == Step(table, a.state, ComponentBase.Next(a))
  {
  }

  /** After `n` passes over a pipe holding at least `n` messages, the motor output is
      the one the latest output-setting message of those `n` asked for, unless a
      mode change came after it. */
  lemma {:induction false} HoldsLastSetpoint(table: Table, a: ComponentBase.Actor<real>, n: nat)
    requires n <= |a.inbox|
    ensures IterateMany(table, a, n).state == LastSet(table, a.state, a.inbox[..n])
    decreases n
  {
    if n > 0 {
      var b := Iterate(table, a);
      IterateSteps(table, a);
      assert b.inbox == a.inbox[1..];
      HoldsLastSetpoint(table, b, n - 1);
      LastSetFromFront(table, a.state, a.inbox[..n]);
      assert a.inbox[..n][1..] == b.inbox[..n - 1];
    }
  }

  /** Passes with nothing received leave the motor running as it was, when the
      table gives the timeout no output. */
  lemma {:induction false} IdleHolds(table: Table, a: ComponentBase.Actor<real>, n: nat)
    requires a.inbox == [] && table(SystemMsgTimeout).None?
    ensures IterateMany(table, a, n).state == a.state
    decreases n
  {
    if n > 0 {
      IterateSteps(table, a);
      IdleHolds(table, Iterate(table, a), n - 1);
    }
  }
}

=== FILE: tokenizer.dfy ===
/** Splitting a script statement into words the way repeated `strtok_r` calls over
    the delimiter set " ,[]()" do (AutoParser.h): every maximal run of
    non-delimiter characters is one word, and runs of delimiters vanish. */
module Tokenizer {

  const Delimiters: string := " ,[]()"

  predicate IsDelimiter(c: char) {
    c in Delimiters
  }

  /** A word: non-empty and free of delimiters. */
  predicate IsWord(t: string) {
    |t| > 0 && forall i :: 0 <= i < |t| ==> !IsDelimiter(t[i])
  }

  /** Length of the leading run of non-delimiters. */
  function WordLength(s: string): (n: nat)
    ensures n <= |s|
    ensures forall i :: 0 <= i < n ==> !IsDelimiter(s[i])
    ensures n < |s| ==> IsDelimiter(s[n])
    decreases |s|
  {
    if |s| == 0 || IsDelimiter(s[0]) then 0 else 1 + WordLength(s[1..])
  }

  /** All the words of `s`, left to right. */
  function Split(s: string): (ts: seq<string>)
    ensures forall i :: 0 <= i < |ts| ==> IsWord(ts[i])
    decreases |s|
  {
    if |s| == 0 then []
    else if IsDelimiter(s[0]) then Split(s[1..])
    else
      var n := WordLength(s);
      [s[..n]] + Split(s[n..])
  }

  /** `s` with its delimiters removed. */
  function Letters(s: string): string
    decreases |s|
  {
    if |s| == 0 then []
    else if IsDelimiter(s[0]) then Letters(s[1..])
    else [s[0]] + Letters(s[1..])
  }

  function Concat(ts: seq<string>): string
    decreases |ts|
  {
    if |ts| == 0 then [] else ts[0] + Concat(ts[1..])
  }

  /** Words joined by single spaces: the canonical statement for a list of words. */
  function Join(ts: seq<string>): string
    decreases |ts|
  {
    if |ts| == 0 then []
    else if |ts| == 1 then ts[0]
    else ts[0] + " " + Join(ts[1..])
  }

  lemma {:induction false} LettersOfWord(t: string)
    requires forall i :: 0 <= i < |t| ==> !IsDelimiter(t[i])
    ensures Letters(t) == t
    decreases |t|
  {
    if |t| > 0 {
      LettersOfWord(t[1..]);
    }
  }

  lemma {:induction false} LettersAppend(a: string, b: string)
    ensures Letters(a + b) == Letters(a) + Letters(b)
    decreases |a|
  {
    if |a| > 0 {
      assert (a + b)[1..] == a[1..] + b;
      LettersAppend(a[1..], b);
    } else {
      assert a + b == b;
    }
  }

  /** Splitting loses exactly the delimiters: the words, concatenated, are the
      statement's non-delimiter characters in their original order. */
  lemma {:induction false} SplitKeepsLetters(s: string)
    ensures Concat(Split(s)) == Letters(s)
    decreases |s|
  {
    if |s| > 0 {
      if IsDelimiter(s[0]) {
        SplitKeepsLetters(s[1..]);
      } else {
        var n := WordLength(s);
        SplitKeepsLetters(s[n..]);
        assert s == s[..n] + s[n..];
        LettersAppend(s[..n], s[n..]);
        LettersOfWord(s[..n]);
        assert Concat([s[..n]] + Split(s[n..])) == s[..n] + Concat(Split(s[n..]));
      }
    }
  }

  /** A statement has no words at all exactly when it is made only of delimiters
      (the case where the first `strtok_r` returns NULL). */
  lemma {:induction false} SplitEmptyIffAllDelimiters(s: string)
    ensures Split(s) == [] <==> forall i :: 0 <= i < |s| ==> IsDelimiter(s[i])
    decreases |s|
  {
    if |s| > 0 {
      SplitEmptyIffAllDelimiters(s[1..]);
      if IsDelimiter(s[0]) {
        forall i | 0 <= i < |s| && (forall j :: 0 <= j < |s[1..]| ==> IsDelimiter(s[1..][j]))
          ensures IsDelimiter(s[i])
        {
          if i > 0 { assert s[i] == s[1..][i - 1]; }
        }
      }
    }
  }

  lemma {:induction false} WordLengthOfWordThenDelimiter(t: string, rest: string)
    requires forall i :: 0 <= i < |t| ==> !IsDelimiter(t[i])
    requires |rest| > 0 && IsDelimiter(rest[0])
    ensures WordLength(t + rest) == |t|
    decreases |t|
  {
    if |t| > 0 {
      assert (t + rest)[1..] == t[1..] + rest;
      WordLengthOfWordThenDelimiter(t[1..], rest);
    } else {
      assert t + rest == rest;
    }
  }

  lemma {:induction false} WordLengthOfWord(t: string)
    requires forall i :: 0 <= i < |t| ==> !IsDelimiter(t[i])
    ensures WordLength(t) == |t|
    decreases |t|
  {
    if |t| > 0 {
      WordLengthOfWord(t[1..]);
    }
  }

  /** Round trip: splitting the space-joined form of a list of words gives the list back. */
  lemma {:induction false} SplitJoin(ts: seq<string>)
    requires forall i :: 0 <= i < |ts| ==> IsWord(ts[i])
    ensures Split(Join(ts)) == ts
    decreases |ts|
  {
    if |ts| == 1 {
      var t := ts[0];
      WordLengthOfWord(t);
      assert t[..|t|] == t;
      assert t[|t|..] == [];
    } else if |ts| > 1 {
      var t := ts[0];
      var rest := Join(ts[1..]);
      var s := t + " " + rest;
      assert Join(ts) == s;
      WordLengthOfWordThenDelimiter(t, " " + rest);
      assert s == t + (" " + rest);
      assert s[..|t|] == t;
      assert s[|t|..] == " " + rest;
      assert (" " + rest)[1..] == rest;
      SplitJoin(ts[1..]);
      assert Split(s) == [t] + Split(" " + rest);
      assert ts == [t] + ts[1..];
    }
  }
}

=== FILE: tote_lifter.dfy ===
/** The tote lifter task (ToteLifter.cpp): one motor that extends or retracts for a
    set time.  Each direction has its own timer; a timer is modelled by the moment
    it was last reset, and a pass is told the current time `now`, so a timer reads
    `now - resetAt`. */
module ToteLifter {
  import opened Messages
  import ComponentBase

  const ExtendOutput: real := 0.5
  const RetractOutput: real := -0.5
  const StopOutput: real := 0.0
  /** Seconds an extension runs for. */
  const ExtendTime: real := 1.0
  /** Seconds a retraction runs for, as written: negative. */
  const RetractTime: real := -1.0

  datatype ToteLifter = ToteLifter(motor: real, extending: bool, retracting: bool, extendAt: real, retractAt: real)

  /** The constructor: neither direction running, both timers started at `now`.
      The motor has not been written; it is modelled at rest. */
  function Create(now: real): (t: ToteLifter)
    ensures !t.extending && !t.retracting && t.extendAt == now && t.retractAt == now
  {
    ToteLifter(StopOutput, false, false, now, now)
  }

  /** OnStateChange: the teleoperated mode (and any tag that is not a mode) stops
      the motor and both movements; the other modes leave everything as it is. */
  function OnStateChange(t: ToteLifter, m: Message): (r: ToteLifter)
    ensures m.command in [StateAutonomous, StateTest, StateDisabled, StateUnknown] ==> r == t
    ensures m.command == StateTeleoperated ==> r == t.(motor := StopOutput, extending := false, retracting := false)
  {
    match m.command
    case StateAutonomous => t
    case StateTest => t
    case StateDisabled => t
    case StateUnknown => t
    case _ => t.(motor := StopOutput, extending := false, retracting := false)
  }

  /** The command switch of Run: start a movement and reset its timer. */
  function Command(t: ToteLifter, command: Command, now: real): (r: ToteLifter)
    ensures command == ToteLifterExtend ==>
              && r.extending && !r.retracting && r.motor == ExtendOutput
              && r.extendAt == now && r.retractAt == t.retractAt
    ensures command == ToteLifterRetract ==>
              && r.retracting && !r.extending && r.motor == RetractOutput
              && r.retractAt == now && r.extendAt == t.extendAt
    ensures command != ToteLifterExtend && command != ToteLifterRetract ==> r == t
    // a command never leaves both movements running
    ensures OneWay(t) ==> OneWay(r)
  {
    match command
    case ToteLifterExtend => t.(motor := ExtendOutput, extending := true, retracting := false, extendAt := now)
    case ToteLifterRetract => t.(motor := RetractOutput, retracting := true, extending := false, retractAt := now)
    case _ => t
  }

  /** The end-of-pass checks: a movement whose timer has passed its time stops. */
  function Expire(t: ToteLifter, now: real): (r: ToteLifter)
    // a movement keeps running exactly while its timer is within its time
    ensures r.extending <==> t.extending && now - t.extendAt <= ExtendTime
    ensures r.retracting <==> t.retracting && now - t.retractAt <= RetractTime
    // the motor stops when a movement ends, and is otherwise left alone
    ensures r.motor == (if (t.extending && !r.extending) || (t.retracting && !r.retracting) then StopOutput else t.motor)
    // the checks read the timers and never reset them
    ensures r.extendAt == t.extendAt && r.retractAt == t.retractAt
  {
    var t1 := if t.extending && now - t.extendAt > ExtendTime then t.(motor := StopOutput, extending := false) else t;
    if t1.retracting && now - t1.retractAt > RetractTime then t1.(motor := StopOutput, retracting := false) else t1
  }

  function Run(t: ToteLifter, m: Message, now: real): (r: ToteLifter)
    ensures OneWay(t) ==> OneWay(r)
    ensures ClockValid(t, now) ==> ClockValid(r, now)
    // the motor changes only on a movement command or to stop
    ensures r.motor != t.motor ==>
              m.command == ToteLifterExtend || m.command == ToteLifterRetract || r.motor == StopOutput
  {
    Expire(Command(t, m.command, now), now)
  }

  function Iterate(a: ComponentBase.Actor<ToteLifter>, now: real): ComponentBase.Actor<ToteLifter> {
    ComponentBase.Iterate(a, OnStateChange, (t, m) => Run(t, m, now))
  }

  /** Timers count up from their reset: `now` is never before either reset. */
  predicate ClockValid(t: ToteLifter, now: real) {
    t.extendAt <= now && t.retractAt <= now
  }

  /** The lifter never moves both ways at once. */
  predicate OneWay(t: ToteLifter) {
    !(t.extending && t.retracting)
  }

  /** An extension runs from its command until its timer passes one second, with
      the motor at the extend output. */
  lemma ExtendRunsForItsTime(t: ToteLifter, m: Message, now: real)
    requires m.command == ToteLifterExtend
    ensures var r := Run(t, m, now);
            r.extending && !r.retracting && r.motor == ExtendOutput && r.extendAt == now
  {
  }

  /** Once extending, a later pass that starts nothing stops the extension exactly
      when more than one second has passed since the command. */
  lemma ExtendStopsOnTime(t: ToteLifter, m: Message, now: real)
    requires t.extending && !t.retracting
    requires m.command != ToteLifterExtend && m.command != ToteLifterRetract
    ensures var r := Run(t, m, now);
            && (!r.extending <==> now - t.extendAt > ExtendTime)
            && (r.extending ==> r == t)
            && (!r.extending ==> r.motor == StopOutput)
  {
  }

  /** The retraction's time is negative, so whenever the clock has not gone
      backwards the retract command is cancelled in the very pass that gives it:
      the pass ends with the motor stopped and nothing running. */
  lemma RetractCancelledAtOnce(t: ToteLifter, m: Message, now: real)
    requires m.command == ToteLifterRetract
    ensures var r := Run(t, m, now);
            !r.retracting && !r.extending && r.motor == StopOutput && r.retractAt == now
  {
  }

  /** Hence, on a valid clock, the lifter is never left retracting after a pass. */
  lemma NeverLeftRetracting(t: ToteLifter, m: Message, now: real)
    requires ClockValid(t, now)
    ensures !Run(t, m, now).retracting
  {
  }

  /** No pass of the task loop leaves the lifter moving both ways. */
  lemma IterateKeepsOneWay(a: ComponentBase.Actor<ToteLifter>, now: real)
    requires OneWay(a.state)
    ensures OneWay(Iterate(a, now).state)
  {
  }
}

=== FILE: wrappers.dfy ===
/** Optional values, used wherever the robot code reads something that may be absent
    (an unopenable script file, a missing script argument, an unmatched opcode). */
module Wrappers {

  datatype Option<+T> = None | Some(value: T) {

    /** The wrapped value, or `default` when there is none. */
    function GetOr(default: T): T {
      match this
      case Some(v) => v
      case None => default
    }
  }
}
